=== FILE: README.md ===
# CopterSonde ground station core, modelled in Dafny

This project models the core of the CopterSonde Ground Control Station. The station is a tablet app that talks MAVLink to an ArduPilot multirotor carrying atmospheric sensors. The core has these parts:

- **Vehicle state** (`gcs/vehicle_state.py`): the telemetry record. It holds the lockstep-aligned sample history, which is capped at 3000 rows, and derives dew point, liveness and a snapshot from it.
- **Event bus** (`gcs/event_bus.py`): an in-order, per-event-type publish/subscribe table.
- **MAVLink client** (`gcs/mavlink_client.py`):
  - decoding each inbound message into the vehicle state, including wind estimation from attitude and fusion of the CASS sensor frames;
  - the liveness and stream-request latch;
  - the I/O loop's cadences (1 Hz own heartbeat, 5 s stream refresh, 10 Hz data event, 5 s "no message yet" watchdog);
  - the outbound commands (arm/disarm, take-off, mode, parameters, RC override).
- **Screens** (`app/main.py`):
  - the parameter editor: bulk download with watchdog, search, paging, staged edits and write-back verified against the vehicle's echo;
  - the plot window's `bisect_left`;
  - the flight timer and the ARM-button gate;
  - the mission-altitude check;
  - the status-log markup escape;
  - the stream-rate setting.
- **Map tiles** (`app/tile_manager.py`): the in-memory tile cache with least-recently-used eviction, the downloader's failure counting and offline switch, and the Mercator tile index clamp.

The model is functional. Every entity is an immutable datatype, and every handler is a pure function from the old record to the new one. Outbound MAVLink messages and bus events are returned as sequences, not performed.

Python semantics are written out where they matter:

- `int()` on a float truncates toward zero (`Common.TruncToInt`).
- `//` and `%` are floor operations; Dafny's Euclidean ones agree with them for the positive divisors used here.
- A dict keeps insertion order, and assigning to an existing key keeps its place (`OrderedMap`).
- `list.remove` removes the first occurrence.
- Lists allow negative indexing (`Commands.RcSlot`).
- MAVLink integer fields carry their wire widths.

Everything the core gets from outside is an explicit parameter:

- the clocks (`time.monotonic`, `time.time`);
- the connection's flight-mode lookup;
- parsed user text (`float(text)`, `int(text)`), passed as `Option`, where `None` stands for `ValueError`;
- transcendental maths (tan, sqrt, the natural logarithm in the Magnus formula, the Mercator projection), passed as functions;
- disk and network results.

Modules, one per file:

| module | file | covers |
|---|---|---|
| `Common` | common.dfy | Option/Result and Python integer helpers |
| `Text` | text.dfy | `str(n)`, `upper`, `strip`, `rstrip`, `in` on strings |
| `StringOrder` | string_order.dfy | `sorted()` on strings |
| `OrderedMap` | ordered_map.dfy | insertion-ordered dicts |
| `EventBus` | event_bus.dfy | the event bus |
| `VehicleState` | vehicle_state.dfy | the telemetry record |
| `MavlinkMessages` | mavlink_messages.dfy | decoded and outbound messages |
| `MavlinkClient` | mavlink_client.dfy | the receive side of the client |
| `Commands` | commands.dfy | the send side of the client |
| `IoLoop` | io_loop.dfy | start, stop and one loop iteration |
| `ParamsScreen` | params_screen.dfy | the parameter editor |
| `FlightScreen` | flight_screen.dfy | timer, ARM gate, altitude check, markup escape |
| `SensorPlot` | sensor_plot.dfy | the plot window |
| `SettingsScreen` | settings_screen.dfy | the stream-rate setting |
| `TileManager` | tile_manager.dfy | tile cache, downloader and tile index |

## Behaviour worth knowing


- **Write acknowledgement tolerance.** The parameter editor confirms a write when the echoed value is within 1e-6 of the staged one, for every type. Integer types get the same tolerance as floats (`app/main.py:1286`).
- **Download watchdog.** The watchdog's first period is 10 s, set by `on_refresh`; only the re-armed ones are 5 s (`app/main.py:1366`, `app/main.py:1312-1316`).
- **Staged edits.** An edit is staged only when it differs from the value at load time by more than 1e-7, and an edit back to that value cancels the pending write (`app/main.py:1386-1391`).

## Model

| member | source | states |
|---|---|---|
| VehicleState.Push | gcs/vehicle_state.py:146-164 | Appending to a capped history buffer keeps the newest 3000 entries: the new value is last, and when the buffer was full the oldest entry is dropped and the rest shift down by one. |
| VehicleState.Resolve | gcs/vehicle_state.py:146-164 | Each of the fourteen fields is stored as given when its key is present, and as 0 when it is missing (an empty list for the two sensor arrays). |
| VehicleState.AppendHistory | gcs/vehicle_state.py:146-164 | Appending a sample to aligned buffers keeps them aligned, and the length grows by one up to the 3000 cap. |
| VehicleState.AppendHistoryLockstep | gcs/vehicle_state.py:146-164 | All fourteen history buffers stay the same length after an append. The last row is the new sample, and every older row is the previous row i (or i+1 once the cap is hit). |
| VehicleState.AppendAllBounded | gcs/vehicle_state.py:146-164 | Any run of appends leaves the buffers aligned, with length min(old + appended, 3000). |
| VehicleState.Reset | gcs/vehicle_state.py:46-123 | A fresh record is disarmed, has never heard a heartbeat, has an unknown HDOP (99.99) and mode "---", eight zero servo outputs, and empty logs, targets and history. |
| VehicleState.ClearHistory | gcs/vehicle_state.py:125-128 | Clearing empties the history and touches no other field. |
| VehicleState.HeartbeatAge | gcs/vehicle_state.py:130-133 | The age is unknown exactly when no heartbeat was ever recorded; otherwise it is the time since the last one. |
| VehicleState.HealthyMeans | gcs/vehicle_state.py:135-136 | Healthy if and only if a heartbeat was recorded less than 3 s ago. |
| VehicleState.DewPoint | gcs/vehicle_state.py:138-144 | Without a usable humidity, or below -50 °C, the dew point is the temperature less 10 degrees. Otherwise it satisfies the Magnus relation d·(a − alpha) = b·alpha, with a = 17.625, b = 243.04 and alpha = ln(rh/100) + a·T/(b + T). |
| VehicleState.DewPointSaturated | gcs/vehicle_state.py:138-144 | At 100 % humidity (and T ≥ -50 °C, with ln 1 = 0) the dew point equals the air temperature. |
| VehicleState.TakeSnapshot | gcs/vehicle_state.py:166-188 | Each of the thirty snapshot keys holds the current value of the field of the same name. |
| VehicleState.SnapshotIgnoresLogs | gcs/vehicle_state.py:166-188 | The snapshot depends on neither the history, the status log nor the ADS-B table, so clearing the history leaves it unchanged. |
| VehicleState.ResetIsQuiescent | gcs/vehicle_state.py:46-136 | A fresh record has an empty, aligned history, is never healthy, and is unchanged by clearing its history. |
| EventBus.Subscribe | gcs/event_bus.py:39-41 | The callback is appended to its event type's list; every other type's list is unchanged. |
| EventBus.Unsubscribe | gcs/event_bus.py:43-48 | The first registration of the callback leaves its type's list, and the callbacks before and after it keep their order. Removing an absent callback changes nothing, and other types are untouched. |
| EventBus.RemoveFirst | gcs/event_bus.py:46 | `list.remove` drops exactly the first occurrence: the elements before it are unchanged, the ones after it move down by one, and an absent element leaves the list as it is. |
| EventBus.Emit | gcs/event_bus.py:59-71 | Every subscriber of the type receives the data once per subscription, in subscription order. |
| EventBus.HasSubscribersIffDelivers | gcs/event_bus.py:50-71 | `has_subscribers` is true exactly when an emit would deliver to someone. |
| EventBus.SubscribeUnsubscribe | gcs/event_bus.py:39-48 | Subscribing a new callback and unsubscribing it again restores every list and every emit. |
| EventBus.DuplicateSubscriptionsDeliverTwice | gcs/event_bus.py:39-41 | Subscribing the same callback twice makes it receive each event twice. |
| MavlinkClient.NewClient | gcs/mavlink_client.py:66-105 | A new client is stopped and unlatched; a port of 0 or a missing port means 14550, and a missing or empty bind address means 0.0.0.0. |
| MavlinkClient.TargetSystem | gcs/mavlink_client.py:201-211 | Commands go to the last heard system id, or to system 1 when none (or 0) was heard. |
| MavlinkClient.TargetComponent | gcs/mavlink_client.py:201-211 | Commands go to the last heard component id, or to component 1 when none (or 0) was heard. |
| MavlinkClient.RequestDataStreams | gcs/mavlink_client.py:699-723 | With a connection, one all-streams request at the configured rate goes to the vehicle and its time is stamped; without one, nothing changes. |
| MavlinkClient.ArmedFlagIsTopBit | gcs/mavlink_client.py:449-477 | The armed flag is the top bit (128) of `base_mode`. |
| MavlinkClient.OnHeartbeat | gcs/mavlink_client.py:449-477 | A heartbeat from another ground station changes nothing. A vehicle heartbeat records armed state, time, ids and status, and takes the mode from the connection when one is known. It also records the vehicle and autopilot types. The first vehicle heartbeat after the latch was cleared requests streams exactly once, addressed to the vehicle just heard, and stamps the request time. No other field of the client or the record changes. |
| MavlinkClient.OnGlobalPositionInt | gcs/mavlink_client.py:479-489 | Position and altitudes are scaled from 1e7 degrees and millimetres. Velocities are stored as given. The heading is kept when the message says "unknown" (65535) and is otherwise 0 to 655.35 degrees. No other field changes. |
| MavlinkClient.WindSpeed | gcs/mavlink_client.py:499-518 | Wind speed is max(0, a·tan + b·√tan) when the tilt gives a positive tangent, and 0 otherwise; it is never negative. |
| MavlinkClient.WindSpeedMonotone | gcs/mavlink_client.py:499-518 | With non-negative coefficients, more tilt never means less wind. |
| MavlinkClient.ComputeWind | gcs/mavlink_client.py:499-518 | The wind estimate uses the absolute pitch. Direction is the yaw, and vertical wind is minus the climb rate in m/s; nothing else changes. |
| MavlinkClient.OnAttitude | gcs/mavlink_client.py:491-497 | Attitude is stored and the wind estimate is refreshed from it. No other field changes, so history and both altitudes are untouched. |
| MavlinkClient.OnVfrHud | gcs/mavlink_client.py:520-528 | HUD values are stored. The altitude goes to AMSL only, and the relative altitude from the position message is kept. No other field changes. |
| MavlinkClient.OnSysStatus | gcs/mavlink_client.py:530-534 | Voltage is converted from mV to V, and current and remaining charge are stored as given. The "unknown" sentinels (non-positive voltage, negative current or remaining charge) read as 0. No other field changes. |
| MavlinkClient.OnGpsRawInt | gcs/mavlink_client.py:536-540 | HDOP is eph/100 when eph is known (0 < eph < 9999) and 99.99 otherwise, so it always lies in (0, 99.99]. Fix type and satellite count are stored, and no other field changes. |
| MavlinkClient.OnRcChannels | gcs/mavlink_client.py:542-545 | RSSI 255 ("unknown") changes nothing. Otherwise the percentage is floor(rssi·100/254), between 0 and 100. |
| MavlinkClient.AppendCapped | gcs/mavlink_client.py:547-558 | The status log keeps its 200 newest lines, with the new line last. |
| MavlinkClient.OnStatusText | gcs/mavlink_client.py:547-558 | The log becomes the last 200 lines of the old log followed by the new line, which carries its severity name and wall-clock time. Nothing else changes. |
| MavlinkClient.CappedIsLastN | gcs/mavlink_client.py:554-557 | Appending a line and trimming the list to its last 200 elements gives the 200 newest of the old lines plus the new one. |
| MavlinkClient.StatusLogKeepsNewest | gcs/mavlink_client.py:547-558 | After any run of status texts, the log is exactly the last 200 of all lines ever received. |
| MavlinkClient.OnServoOutputRaw | gcs/mavlink_client.py:563-567 | The eight servo outputs are stored in channel order. |
| MavlinkClient.OnAdsbVehicle | gcs/mavlink_client.py:569-582 | The target keyed by ICAO address is inserted or replaced with a NUL-stripped callsign, latitude and longitude in 1e-7 degrees, altitude in mm, heading in cdeg and speed in cm/s, each scaled to SI units. Other targets and every other field are untouched. |
| MavlinkClient.PositiveReadings | gcs/mavlink_client.py:584-639 | A sensor frame keeps exactly its positive readings among the first four: each positive value as often as it occurs there, and nothing else. |
| MavlinkClient.CelsiusOf | gcs/mavlink_client.py:584-639 | A mean temperature above 100 is taken as Kelvin and converted to Celsius; otherwise it is already Celsius. |
| MavlinkClient.CassChannels | gcs/mavlink_client.py:584-639 | A temperature or humidity frame with positive readings replaces that sensor array and its mean; any other frame leaves the record alone. |
| MavlinkClient.AppendFused | gcs/mavlink_client.py:584-639 | One fused history row built from the current record is appended, and the buffers stay aligned. |
| MavlinkClient.OnCassSensorRaw | gcs/mavlink_client.py:584-639 | A frame missing its datatype or values is ignored. Otherwise the boot time is updated, then the channels, then the history. |
| MavlinkClient.CassSensorEffect | gcs/mavlink_client.py:584-639 | Temperature and humidity frames add exactly one aligned row ending in the fused sample; other frames leave the history alone. The sensor means change only for the matching type with positive readings. |
| MavlinkClient.KelvinFrameExample | gcs/mavlink_client.py:584-639 | Readings 300, 301, 0 and -5 K give sensors [300, 301], mean 300.5, boot time 1 s, and a history row of 27.35 °C. |
| MavlinkClient.BootTime | gcs/mavlink_client.py:584-639 | A non-zero boot time in ms updates the time since boot; a missing or zero one does not. |
| MavlinkClient.OnSystemTime | gcs/mavlink_client.py:664-667 | Boot time is always updated. UTC time is updated only when the vehicle reports a non-zero Unix time. |
| MavlinkClient.NormalizeParamId | gcs/mavlink_client.py:641-662 | A parameter name is its wire text with trailing NULs removed. |
| MavlinkClient.OnParamValue | gcs/mavlink_client.py:641-662 | A parameter value is published on the bus as one event with the cleaned name, and is dropped when there is no bus. |
| MavlinkClient.Dispatch | gcs/mavlink_client.py:671-686 | Messages other than heartbeats and parameter values only update the vehicle record. |
| MavlinkClient.HandleMessage | gcs/mavlink_client.py:431-447 | Every message is counted and the first one's time is recorded; unhandled types do nothing else. |
| MavlinkClient.HandleMessageEffects | gcs/mavlink_client.py:431-686 | Handling a message keeps the connection fields. It sends a stream request only for the first vehicle heartbeat, and emits only a parameter event. |
| MavlinkClient.ClientHeartbeatAge | gcs/mavlink_client.py:183-189 | The age is unknown until a heartbeat has been handled; otherwise it is the time since the last one. |
| MavlinkClient.WaitingElapsed | gcs/mavlink_client.py:191-195 | The waiting time is measured from the connection time, and is 0 before there is one. |
| MavlinkClient.HeartbeatMakesHealthy | gcs/mavlink_client.py:183-189 | After a vehicle heartbeat, client and record are healthy exactly while less than 3 s have passed since it. |
| MavlinkClient.GcsHeartbeatIgnored | gcs/mavlink_client.py:449-453 | A ground-station heartbeat changes neither the record, the liveness, nor the target ids, and sends and emits nothing. |
| MavlinkClient.HandleAll | gcs/mavlink_client.py:392-403 | Draining a run of messages counts each one. The first arrival is stamped once the run is non-empty, and an earlier stamp is kept. |
| MavlinkClient.HandleAllSameConnection | gcs/mavlink_client.py:392-403 | Draining any inbox keeps the connection fields. |
| MavlinkClient.StreamsRequestedOnce | gcs/mavlink_client.py:392-403 | Draining any inbox sends only stream requests: one if the latch was clear and a vehicle heartbeat arrived, otherwise none. The latch ends set exactly when it was set or a vehicle heartbeat arrived. |
| MavlinkClient.HandleAllWellFormed | gcs/mavlink_client.py:431-686 | Every handler preserves the record's invariants: aligned history, log within its cap, eight servo outputs, positive sensor readings, HDOP in range. |
| MavlinkClient.VfrHudKeepsRelativeAltitude | gcs/mavlink_client.py:479-528 | A position message and a later HUD message yield relative altitude from the first and AMSL altitude from the second. |
| IoLoop.DefaultConnStr | gcs/mavlink_client.py:111-120 | Without a connection string, the client listens on UDP: the string is "udpin:", then the bind address, then ":" and a port field that reads back as the configured port. |
| IoLoop.Start | gcs/mavlink_client.py:111-160 | Starting a running client is refused and changes nothing. A failed open leaves it stopped. A successful one runs and connects it and resets the diagnostics. |
| IoLoop.Stop | gcs/mavlink_client.py:162-181 | Stopping a stopped client changes nothing. Stopping a running one disconnects it and clears the stream latch. |
| IoLoop.StartStopRoundTrip | gcs/mavlink_client.py:111-181 | A successful start followed by a stop gives a stopped, disconnected client with its vehicle record and a clear latch. |
| IoLoop.Send | gcs/mavlink_client.py:688-697 | A message is transmitted exactly when there is a connection. |
| IoLoop.LoopStart | gcs/mavlink_client.py:357-378 | The loop opens with a burst of three own heartbeats when connected, and sends nothing otherwise. Both timers start at 0. |
| IoLoop.Tick | gcs/mavlink_client.py:377-425 | One pass keeps the connection and running flags. The watchdog's last log is what `Watchdog` decides, every drained message is counted, and the heartbeat timer moves exactly when a second has passed. |
| IoLoop.Watchdog | gcs/mavlink_client.py:380-390 | Before the first message, and once a non-zero connection time is known, a warning is logged exactly at each new whole multiple of 5 s since connecting. |
| IoLoop.WatchdogOncePerWindow | gcs/mavlink_client.py:380-390 | Two loop passes in the same whole second after connecting cannot both log a warning. |
| IoLoop.TickHeartbeatCadence | gcs/mavlink_client.py:405-408 | An own heartbeat is sent exactly when at least 1 s has passed since the last. |
| IoLoop.TickDataCadence | gcs/mavlink_client.py:416-423 | One data snapshot of the post-drain record is emitted exactly when 0.1 s has passed and a listener exists; the timer moves whenever the interval has passed. |
| IoLoop.Refresh | gcs/mavlink_client.py:410-414 | The periodic re-request sends only stream requests, emits nothing and changes nothing but the request stamp. |
| IoLoop.TickSent | gcs/mavlink_client.py:391-414 | One iteration sends, in order, what the drain sent, then the own heartbeat when a second has passed, then the periodic stream re-request. |
| IoLoop.TickEmitted | gcs/mavlink_client.py:395-423 | One iteration emits the drained parameter events and then at most one data event; the data timer moves exactly when the interval has passed with a bus. |
| IoLoop.NoDataEventsWhileDraining | gcs/mavlink_client.py:392-403 | Message handling emits only parameter events, never data events. |
| IoLoop.Drain | gcs/mavlink_client.py:392-403 | Draining the inbox while connected leaves the connection fields alone and emits only parameter events. |
| IoLoop.TickStreamRefresh | gcs/mavlink_client.py:410-414 | Once latched, whatever messages arrive, streams are requested again (addressed to the vehicle now known) exactly when 5 s have passed since the last request; otherwise no request is sent. |
| IoLoop.AllKeepStamp | gcs/mavlink_client.py:473-477 | Once the stream latch is set, draining any run of messages keeps it set and leaves the last request time alone, so only the 5 s refresh re-requests. |
| IoLoop.LifecycleConsistent | gcs/mavlink_client.py:111-181 | Start, stop and a loop pass keep "running" and "connected" in step. |
| Commands.SendCommandLong | gcs/mavlink_client.py:201-211 | One COMMAND_LONG with confirmation 0 goes to the target ids, only with a connection. |
| Commands.Arm | gcs/mavlink_client.py:213-216 | With a connection, one COMMAND_LONG `MAV_CMD_COMPONENT_ARM_DISARM` with p1 = 1 to the target ids; without one, nothing. |
| Commands.Disarm | gcs/mavlink_client.py:218-221 | The same command with p1 = 0; without a connection, nothing. |
| Commands.ArmDisarmDiffer | gcs/mavlink_client.py:213-221 | Arm and disarm send the same command to the same vehicle and differ only in p1. |
| Commands.Takeoff | gcs/mavlink_client.py:234-238 | The take-off command carries the altitude (10 m by default) in p7. |
| Commands.SetMode | gcs/mavlink_client.py:223-232 | The mode name is upper-cased and looked up; an unknown name sends nothing. |
| Commands.SetModeCaseInsensitive | gcs/mavlink_client.py:223-232 | Names differing only in letter case select the same mode. |
| Commands.EncodeAscii | gcs/mavlink_client.py:240-254 | An ASCII name encodes to UTF-8 byte for byte. |
| Commands.FitParamId | gcs/mavlink_client.py:240-254 | The name field is exactly 16 bytes: the name's bytes, NUL-padded or cut. |
| Commands.ParamIdRoundTrip | gcs/mavlink_client.py:240-254 | An ASCII name of at most 16 characters not ending in NUL is read back by the receiving side unchanged. |
| Commands.LongNamesTruncate | gcs/mavlink_client.py:240-254 | A longer ASCII name arrives as its first 16 characters. |
| Commands.SetParam | gcs/mavlink_client.py:240-254 | PARAM_SET goes to the vehicle with the 16-byte name and the type, which defaults to REAL32 (9). |
| Commands.RequestAllParams | gcs/mavlink_client.py:256-264 | One PARAM_REQUEST_LIST goes to the vehicle, only with a connection. |
| Commands.RcSlot | gcs/mavlink_client.py:266-280 | Channels 1–8 write slots 0–7. Python's negative indexing also accepts −7–0, counted from the end; everything else raises. |
| Commands.SetRcOverride | gcs/mavlink_client.py:266-280 | Without a connection, nothing happens. Otherwise a bad channel raises, and a good one overrides its slot with every other channel released. |
| Commands.RcSlotsDistinct | gcs/mavlink_client.py:266-280 | Distinct channels 1–8 never share a slot. |
| Commands.ChannelZeroAliasesEight | gcs/mavlink_client.py:266-280 | Channel 0 is not rejected; it overrides channel 8. |
| ParamsScreen.Initial | app/main.py:1229-1241 | The editor starts empty, not loading, on page 0. |
| ParamsScreen.RoundHalfEven | app/main.py:1479-1482 | Rounding to the nearest integer is within 0.5 and exact on whole numbers. |
| ParamsScreen.FormatValue | app/main.py:1479-1482 | Integer types show `str(int(v))`; other types show six decimals with trailing zeros and dot removed, never ending in a dot. |
| ParamsScreen.FormatFloat | app/main.py:1482 | The six-decimal text with trailing zeros and then a dangling point stripped never ends in a point. |
| ParamsScreen.FormatFloatWhole | app/main.py:1479-1482 | A whole-number float displays like the integer. |
| ParamsScreen.TotalPages | app/main.py:1498-1499 | There is always at least one page, and the pages hold every name without an empty trailing page. |
| ParamsScreen.FilteredNames | app/main.py:1490-1495 | The list holds exactly the names whose upper-case form contains the search text, sorted, each once. |
| ParamsScreen.FilterMeaning | app/main.py:1490-1495 | An empty search lists every parameter; a search never lists more than there are. |
| ParamsScreen.Rebuild | app/main.py:1484-1503 | After a rebuild the page is within range: clamped down to the last page, or up to 0. |
| ParamsScreen.PageNames | app/main.py:1505-1507 | A page shows at most 50 names, all from the filtered list. |
| ParamsScreen.PagesCoverFiltered | app/main.py:1505-1507 | Every filtered name appears on exactly one page, at position i mod 50 of page i div 50. |
| ParamsScreen.RowOf | app/main.py:1509-1519 | A row is highlighted exactly when its parameter has a pending edit. |
| ParamsScreen.PrevPage | app/main.py:1545-1548 | Moves back one page, except on the first. |
| ParamsScreen.NextPage | app/main.py:1550-1555 | Moves forward one page, except on the last. |
| ParamsScreen.OnSearchChanged | app/main.py:1472-1475 | The search is the stripped, upper-cased text, the list restarts at page 0, and parameters and edits are untouched. |
| ParamsScreen.OnRefresh | app/main.py:1331-1368 | Not running: only a "not connected" message. Running: the store is cleared, loading starts with a 10 s watchdog, and one parameter list request is sent. |
| ParamsScreen.OnLoadTimeout | app/main.py:1318-1327 | The watchdog ends loading as a partial success, reporting received versus declared counts and keeping what arrived. |
| ParamsScreen.EditedValue | app/main.py:1374-1379 | Integer types store the truncated value; float types store it as typed. |
| ParamsScreen.OnParamEdited | app/main.py:1370-1402 | Unknown names are ignored and bad text is reported. An edit is staged only when it differs from the loaded value by more than 1e-7; otherwise a pending edit is cancelled. |
| ParamsScreen.DoWrite | app/main.py:1463-1470 | One PARAM_SET per pending edit, in staging order, with the parameter's own type. |
| ParamsScreen.OnWriteParams | app/main.py:1404-1461 | Nothing happens with no edits or without confirmation. Not connected gives a message. A confirmed write sends them all. |
| ParamsScreen.InitialInv | app/main.py:1229-1241 | The editor's invariant holds at start. The invariant: pending edits name known parameters and differ from their loaded values; the filtered list is drawn from the parameters; the page is in range. |
| ParamsScreen.RefreshInv | app/main.py:1331-1368 | A refresh preserves the invariant. |
| ParamsScreen.TimeoutInv | app/main.py:1318-1327 | A download timeout preserves the invariant. |
| ParamsScreen.SearchInv | app/main.py:1472-1475 | A search preserves the invariant. |
| ParamsScreen.PagingInv | app/main.py:1545-1555 | Paging preserves the invariant. |
| ParamsScreen.EditInv | app/main.py:1370-1402 | An edit preserves the invariant. |
| ParamsScreen.ReceiveInv | app/main.py:1259-1316 | A received parameter preserves the invariant. |
| ParamsScreen.Record | app/main.py:1266-1270 | The received value always overwrites the parameter. A name seen for the first time gets it as its original; every name already seen keeps its original. Nothing else changes apart from the announced count. |
| ParamsScreen.ReceiveRecords | app/main.py:1259-1295 | For a whole received parameter: the value is overwritten, and a new name's original is the received value. Every other name keeps its original. During a download, or with no edit pending for the name, the name's original and all pending edits are kept. |
| ParamsScreen.RecordInv | app/main.py:1266-1270 | Recording a received parameter keeps the invariant, and the name is then a known parameter. |
| ParamsScreen.AckInv | app/main.py:1282-1297 | A write acknowledgement preserves the invariant. |
| ParamsScreen.EditThenAckSettles | app/main.py:1282-1297 | Staging an edit of any type (the typed value, truncated for integer types) and then receiving that value removes the edit from the pending set. The value becomes the new baseline, and the success message shows it formatted for its type. |
| ParamsScreen.AckWrite | app/main.py:1282-1295 | With no edit pending the echo changes nothing. An echo within 1e-6 of the pending value confirms the write: the edit is dropped, the other edits stay, and the echo becomes the new original. The remaining edits keep their order, and nothing else changes. Any other echo keeps the edit and reports the failure. |
| ParamsScreen.EditThenMismatchFails | app/main.py:1282-1295 | Staging an edit of any type and then receiving an echo 1e-6 or more away from the staged value keeps the edit pending and the original unchanged, and shows the failure with the vehicle's value. |
| ParamsScreen.EditBackCancels | app/main.py:1376-1391 | Editing a parameter and then entering any value whose staged form is within 1e-7 of the loaded value leaves no pending edit for it. For a float parameter, typing the loaded value itself is such an entry. |
| ParamsScreen.DownloadCompletion | app/main.py:1300-1316 | While loading, loading ends once the received count reaches the declared total; otherwise the 5 s watchdog is re-armed. |
| FlightScreen.UpdateArmedState | app/main.py:748-775 | Repeating the same armed flag does nothing. Arming restarts the timer from zero, locks the checklist, closes its popup and keeps its completion flag. Disarming banks the elapsed time, re-enables the checklist and clears its completion. Every change disables ARM. |
| FlightScreen.UpdateIdempotent | app/main.py:748-775 | Two updates with the same flag equal one. |
| FlightScreen.FlightDuration | app/main.py:446-483 | Arm at t1, any repeats, then disarm at t2: the timer shows t2 − t1 forever after, ARM is disabled, and the checklist must be redone. |
| FlightScreen.Hms | app/main.py:480-482 | Seconds split into hours, minutes under 60 and seconds under 60 that add back up to the total. |
| FlightScreen.HmsRoundTrip | app/main.py:480-483 | Under 100 hours the text is `hh:mm:ss` and reads back as the same number of seconds. |
| FlightScreen.MissionAltitude | app/main.py:562-570 | An altitude is accepted exactly when it parses and lies in [20, 1500] m; unparsable text is its own error. |
| FlightScreen.MarkupEscapePerChar | app/main.py:804-805 | The three chained replacements amount to escaping each character independently. |
| FlightScreen.MarkupEscapeNoBrackets | app/main.py:804-805 | Escaped text contains no `[` or `]`. |
| FlightScreen.MarkupRoundTrip | app/main.py:804-805 | Escaping loses nothing: unescaping gives the original text back. |
| SensorPlot.BisectLeft | app/main.py:892-905 | The search ends at a boundary: the element before is below the cutoff and the one at the index is not. On a time-ordered history this is the first sample at or after the cutoff. |
| SensorPlot.WindowStart | app/main.py:882-905 | Nothing is plotted while paused or before any sample. Otherwise the window is every sample within 30 s of the newest, which is always included. |
| SensorPlot.Series | app/main.py:907-932 | At most one point per windowed sample, and exactly one each when every sample has the sensor. |
| SensorPlot.SeriesComplete | app/main.py:907-932 | When every sample has the sensor, the series has one point per windowed sample, in order, offset as displayed. |
| SensorPlot.SeriesTimes | app/main.py:907-932 | Every plotted point carries the time of a sample inside the window. |
| SettingsScreen.StreamRate | app/main.py:1180-1185 | Unparsable text means 10 Hz. Rates are clamped into 1..10 Hz, and in-range rates are kept. |
| SettingsScreen.OnStreamRateChanged | app/main.py:1180-1195 | The saved rate is the clamped rate, and the box shows it. |
| SettingsScreen.StreamRateStable | app/main.py:1180-1195 | Confirming the value the box now shows changes nothing. |
| TileManager.NewCache | app/tile_manager.py:127-132 | A new cache is empty and within its bound. |
| TileManager.Evict | app/tile_manager.py:175-178 | Eviction keeps the newest min(size, max) tiles in order. |
| TileManager.EvictDropsOldest | app/tile_manager.py:175-178 | An over-full cache drops exactly its oldest tiles. |
| TileManager.Get | app/tile_manager.py:137-158 | A memory hit returns the tile and makes it the most recently used. A miss with nothing on disk returns nothing. A disk hit is promoted into memory. |
| TileManager.Put | app/tile_manager.py:160-173 | The cache stays within its bound. Only the overflow is evicted: the cache ends up with min(entries after the store, bound) tiles. The stored tile is retrievable (when the bound is positive), and every other remaining tile keeps its data. |
| TileManager.PutThenGet | app/tile_manager.py:137-173 | Getting a tile just put returns it. |
| TileManager.Request | app/tile_manager.py:203-211 | A tile already pending, or asked for while offline, is not requested; otherwise it is queued. |
| TileManager.Tally | app/tile_manager.py:231-251 | A success resets the failure count. A failure increments it, and the 20th consecutive failure switches to offline. |
| TileManager.Fetch | app/tile_manager.py:213-254 | After a fetch the tile is no longer pending. Failures are tallied. Downloaded tiles are cached, and a redraw is requested only when something new was stored and no download raised. |
| TileManager.FailuresTrip | app/tile_manager.py:237-251 | n consecutive failures go offline exactly when the count reaches 20. |
| TileManager.OfflineUntilReset | app/tile_manager.py:203-261 | Offline refuses every request, even after a success; `reset_offline` accepts requests again. |
| TileManager.ResetOffline | app/tile_manager.py:256-261 | Reset clears the offline switch and the failure count and keeps the pending set. |
| TileManager.ClampLat | app/tile_manager.py:73 | Latitude is clamped to ±85.05112878°. |
| TileManager.TileIndex | app/tile_manager.py:97-105 | A tile index always lies in [0, 2^zoom). An in-range fraction gives the truncated product exactly. |
| TileManager.LonFraction | app/tile_manager.py:97-105 | A longitude in [−180, 180) gives a fraction in [0, 1). |
| TileManager.LatLonToTile | app/tile_manager.py:97-105 | Both indices always lie in [0, 2^zoom). In-range longitudes are not clamped, and the row uses the clamped latitude. |
| TileManager.PolarTiles | app/tile_manager.py:97-105 | Every latitude beyond the Mercator limit lands on the limit's tile row. |

## Left out

- Threads, locks, sockets, `time.sleep` and Kivy's `Clock` marshalling. The I/O loop is modelled as one pure iteration (`IoLoop.Tick`) with a single `now` per pass. Concurrency between the loop and the UI is not modelled.
- `trigger_autovp` and `arm_and_takeoff_auto` (gcs/mavlink_client.py:282-351): each is a timed sequence of sends and sleeps on a worker thread. Their building blocks (`SetParam`, `SetRcOverride`, `Arm`, `Takeoff`, `SetMode`) are modelled.
- `_on_command_ack` is a no-op handler; it is dispatched and only counted.
- Transport details: opening UDP/TCP connections, `wait_heartbeat`, mavutil's mode table and `flightmode` are parameters. The outcome of opening is a boolean, the mode table is a map, and the mode is an `Option`. Exceptions raised by a `*_send` call are not modelled; a send without a connection sends nothing.
- Transcendental maths (`tan`, `sqrt`, the natural `log` inside the Magnus formula, `asinh`/`tan` in the Mercator projection) is passed in as functions. The Magnus algebra around `log` is written out in `VehicleState.DewPoint`. No numeric property of those functions is assumed beyond what a lemma states in its `requires`.
- Floating point: Python floats are modelled as exact reals. Rounding, `inf` and `NaN` are not modelled.
- `str.upper()` and `str.strip()` are modelled for ASCII letters and ASCII whitespace only.
- `float(text)` and `int(text)` are parameters (`None` for `ValueError`), not parsers.
- The status-log rendering around the markup escape (the last 30 lines, newest first, severity colours) and all other Kivy widget code: labels, progress bars, popups, row widgets, the per-row `Clock` binding.
- The parameter editor's confirmation dialog is a boolean parameter of `OnWriteParams`. The `on_enter`/`on_leave` bus subscription (app/main.py:1243-1255) is `EventBus.Subscribe`/`Unsubscribe` and is not repeated for the screen. `_rebuild_param_list` is modelled as if its list widget exists; the source returns early without one.
- `TileCache`'s disk layer (file reads and writes under the cache directory) and the downloader's thread pool, SSL context and HTTP request. Disk reads are an `Option` and downloads a `Download` value (raised or returned data).
- `tile_to_lat_lon`, `lat_lon_to_pixel` and the map, HUD and plot widgets outside the named functions.
- CSV export, settings persistence (`_save_settings`) and every screen not named above.
- VehicleState.DewPoint: when alpha equals a = 17.625 the source divides by zero and the exception escapes the handler. The model returns 0.0 there and promises nothing for that input. With a real logarithm it needs a humidity far above 100 %.
- MavlinkClient.NormalizeParamId: a `bytes` param id and its `decode("utf-8", errors="replace")` are not modelled. Param ids arrive as text.
- TileManager.NewCache: the memory bound is a `nat`. A negative `max_memory` would make `popitem` raise on an empty dict in the source; it is not representable here.
- TileManager.LatLonToTile: zoom is a `nat`; negative zoom levels are not modelled.
- TileManager.Put: the stored tile is promised retrievable only when the memory bound is positive. With a bound of 0 the source also evicts it at once.
- SensorPlot.TemperatureSeries and SensorPlot.HumiditySeries are the plot's two uses of `Series`; their contract is the one proved for `Series` (`SensorPlot.SeriesComplete`).
- ParamsScreen.OnParamReceived carries no `ensures` of its own. Its behaviour is stated by `Record`, `ReceiveRecords`, `AckWrite`, `ReceiveInv`, `AckInv`, `EditThenAckSettles`, `EditThenMismatchFails` and `DownloadCompletion`.

=== FILE: commands.dfy ===
/**
 The command helpers of gcs/mavlink_client.py. Each one transmits at most one
 message addressed to the last vehicle seen (or to system/component 1), and
 none changes the client. Without a connection every helper sends nothing.
 */
module Commands {
  import opened Common
  import opened MavlinkMessages
  import opened MavlinkClient
  import Text

  /** Number of float parameters of `COMMAND_LONG`. */
  const CommandParams: nat := 7

  /** `send_command_long(command, p1 … p7)` with confirmation 0. */
  function SendCommandLong(c: Client, command: int, ps: seq<real>): (sent: seq<Outbound>)
    requires |ps| == CommandParams
    ensures !c.connected ==> sent == []
    ensures c.connected ==> sent == [CommandLong(TargetSystem(c), TargetComponent(c), command, 0, ps)]
  {
    if !c.connected then [] else [CommandLong(TargetSystem(c), TargetComponent(c), command, 0, ps)]
  }

  /** `arm()`: arm/disarm command with p1 = 1. */
  function Arm(c: Client): (sent: seq<Outbound>)
    ensures c.connected ==> sent == [CommandLong(TargetSystem(c), TargetComponent(c), MavCmdComponentArmDisarm, 0,
                                                 [1.0, 0.0, 0.0, 0.0, 0.0, 0.0, 0.0])]
    ensures !c.connected ==> sent == []
  {
    SendCommandLong(c, MavCmdComponentArmDisarm, [1.0, 0.0, 0.0, 0.0, 0.0, 0.0, 0.0])
  }

  /** `disarm()`: the same command with p1 = 0. */
  function Disarm(c: Client): (sent: seq<Outbound>)
    ensures c.connected ==> sent == [CommandLong(TargetSystem(c), TargetComponent(c), MavCmdComponentArmDisarm, 0,
                                                 [0.0, 0.0, 0.0, 0.0, 0.0, 0.0, 0.0])]
    ensures !c.connected ==> sent == []
  {
    SendCommandLong(c, MavCmdComponentArmDisarm, [0.0, 0.0, 0.0, 0.0, 0.0, 0.0, 0.0])
  }

  /** Arming and disarming address the same vehicle with the same command and differ only in p1. */
  lemma ArmDisarmDiffer(c: Client)
    requires c.connected
    ensures |Arm(c)| == |Disarm(c)| == 1
    ensures Arm(c)[0].targetSystem == Disarm(c)[0].targetSystem
    ensures Arm(c)[0].targetComponent == Disarm(c)[0].targetComponent
    ensures Arm(c)[0].command == Disarm(c)[0].command
    ensures Arm(c)[0].params[1..] == Disarm(c)[0].params[1..]
    ensures Arm(c)[0].params[0] != Disarm(c)[0].params[0]
  {
  }

  /** The default take-off altitude in metres. */
  const DefaultTakeoffAltitude: real := 10.0

  /** `takeoff(alt_m)`: take-off command with the altitude in p7. */
  function Takeoff(c: Client, altM: Option<real>): (sent: seq<Outbound>)
    ensures c.connected ==> sent == [CommandLong(TargetSystem(c), TargetComponent(c), MavCmdNavTakeoff, 0,
                                                 [0.0, 0.0, 0.0, 0.0, 0.0, 0.0, altM.GetOr(DefaultTakeoffAltitude)])]
    ensures !c.connected ==> sent == []
  {
    SendCommandLong(c, MavCmdNavTakeoff, [0.0, 0.0, 0.0, 0.0, 0.0, 0.0, altM.GetOr(DefaultTakeoffAltitude)])
  }

  /**
   `set_mode(name)`: the name is upper-cased and looked up in the connection's
   mode table (`modeMap`); an unknown name sends nothing.
   */
  function SetMode(c: Client, modeMap: map<string, int>, name: string): (sent: seq<Outbound>)
    ensures c.connected && Text.ToUpper(name) in modeMap ==> sent == [SetModeRequest(modeMap[Text.ToUpper(name)])]
    ensures !c.connected || Text.ToUpper(name) !in modeMap ==> sent == []
  {
    if !c.connected then []
    else
      var key := Text.ToUpper(name);
      if key in modeMap then [SetModeRequest(modeMap[key])] else []
  }

  /** Mode names are matched without regard to (ASCII) case. */
  lemma SetModeCaseInsensitive(c: Client, modeMap: map<string, int>, a: string, b: string)
    requires Text.ToUpper(a) == Text.ToUpper(b)
    ensures SetMode(c, modeMap, a) == SetMode(c, modeMap, b)
  {
  }

  // ------------------------------------------------------------------
  // Parameter names on the wire
  // ------------------------------------------------------------------

  /** Length in bytes of the `param_id` field. */
  const ParamIdLength: nat := 16

  /** The UTF-8 encoding of one character (a Unicode scalar value). */
  function EncodeChar(ch: char): (bs: seq<byte>)
    ensures 1 <= |bs| <= 4
    ensures ch as int < 0x80 <==> |bs| == 1
    ensures ch as int < 0x80 ==> bs == [ch as int]
  {
    var cp := ch as int;
    if cp < 0x80 then [cp]
    else if cp < 0x800 then [0xC0 + cp / 0x40, 0x80 + cp % 0x40]
    else if cp < 0x1_0000 then [0xE0 + cp / 0x1000, 0x80 + (cp / 0x40) % 0x40, 0x80 + cp % 0x40]
    else [0xF0 + cp / 0x4_0000, 0x80 + (cp / 0x1000) % 0x40, 0x80 + (cp / 0x40) % 0x40, 0x80 + cp % 0x40]
  }

  /** `s.encode("utf-8")`. */
  function EncodeUtf8(s: string): (bs: seq<byte>)
    ensures |bs| >= |s|
  {
    if |s| == 0 then [] else EncodeChar(s[0]) + EncodeUtf8(s[1..])
  }

  predicate IsAscii(s: string)
  {
    forall i :: 0 <= i < |s| ==> s[i] as int < 0x80
  }

  /** An ASCII string encodes byte for byte. */
  lemma {:induction false} EncodeAscii(s: string)
    requires IsAscii(s)
    ensures |EncodeUtf8(s)| == |s|
    ensures forall i :: 0 <= i < |s| ==> EncodeUtf8(s)[i] == s[i] as int
    decreases |s|
  {
    if |s| > 0 {
      EncodeAscii(s[1..]);
    }
  }

  function Zeros(n: nat): (z: seq<byte>)
    ensures |z| == n && forall i :: 0 <= i < n ==> z[i] == 0
  {
    if n == 0 then [] else [0] + Zeros(n - 1)
  }

  /** `bs.ljust(16, b"\x00")[:16]`: NUL-pad short names, cut long ones. */
  function FitParamId(bs: seq<byte>): (r: seq<byte>)
    ensures |r| == ParamIdLength
    ensures forall i :: 0 <= i < Min(|bs|, ParamIdLength) ==> r[i] == bs[i]
    ensures forall i :: |bs| <= i < ParamIdLength ==> r[i] == 0
  {
    if |bs| >= ParamIdLength then bs[..ParamIdLength] else bs + Zeros(ParamIdLength - |bs|)
  }

  /** The 16-byte wire form of a parameter name. */
  function EncodeParamId(name: string): (bs: seq<byte>)
    ensures |bs| == ParamIdLength
  {
    FitParamId(EncodeUtf8(name))
  }

  /** How a receiver reads the field: each byte as the character with that code. */
  function DecodeBytes(bs: seq<byte>): (s: string)
    ensures |s| == |bs| && forall i :: 0 <= i < |bs| ==> s[i] as int == bs[i]
  {
    seq(|bs|, i requires 0 <= i < |bs| => bs[i] as char)
  }

  /**
   A parameter name of up to 16 ASCII characters that does not end in NUL
   survives the wire: padded out by `set_param`, it reads back, after the
   receiver strips the padding, as the same name.
   */
  lemma ParamIdRoundTrip(name: string)
    requires IsAscii(name) && |name| <= ParamIdLength
    requires |name| == 0 || name[|name| - 1] != '\0'
    ensures NormalizeParamId(DecodeBytes(EncodeParamId(name))) == name
  {
    EncodeAscii(name);
    var wire := DecodeBytes(EncodeParamId(name));
    assert wire == name + seq(ParamIdLength - |name|, i => '\0');
    Text.RStripPadded(name, ParamIdLength - |name|, '\0');
  }

  /** A name longer than the field is cut to its first 16 bytes. */
  lemma LongNamesTruncate(name: string)
    requires IsAscii(name) && |name| > ParamIdLength
    ensures DecodeBytes(EncodeParamId(name)) == name[..ParamIdLength]
  {
    EncodeAscii(name);
  }

  /**
   `set_param(name, value, param_type)`: a `PARAM_SET` for the last vehicle,
   with the name in its 16-byte form and the type defaulting to REAL32.
   */
  function SetParam(c: Client, name: string, value: real, paramType: Option<int>): (sent: seq<Outbound>)
    ensures !c.connected ==> sent == []
    ensures c.connected ==>
      |sent| == 1 && sent[0].ParamSet?
      && sent[0].paramId == EncodeParamId(name) && sent[0].value == value
      && sent[0].paramType == paramType.GetOr(MavParamTypeReal32)
      && sent[0].targetSystem == TargetSystem(c) && sent[0].targetComponent == TargetComponent(c)
  {
    if !c.connected then []
    else [ParamSet(TargetSystem(c), TargetComponent(c), EncodeParamId(name), value, paramType.GetOr(MavParamTypeReal32))]
  }

  /** `request_all_params()`: a `PARAM_REQUEST_LIST` for the last vehicle. */
  function RequestAllParams(c: Client): (sent: seq<Outbound>)
    ensures c.connected ==> sent == [ParamRequestList(TargetSystem(c), TargetComponent(c))]
    ensures !c.connected ==> sent == []
  {
    if !c.connected then [] else [ParamRequestList(TargetSystem(c), TargetComponent(c))]
  }

  // ------------------------------------------------------------------
  // RC override
  // ------------------------------------------------------------------

  const RcChannelCount: int := 8

  /**
   The list slot `rc_values[channel - 1]` writes, under Python's indexing:
   channels 1–8 are slots 0–7, and channels -7–0 count from the end (channel 0
   is slot 7). Anything else is an `IndexError`.
   */
  function RcSlot(channel: int): (slot: Option<int>)
    ensures slot.Some? <==> -7 <= channel <= RcChannelCount
    ensures 1 <= channel <= RcChannelCount ==> slot == Some(channel - 1)
    ensures -7 <= channel <= 0 ==> slot == Some(channel - 1 + RcChannelCount)
    ensures slot.Some? ==> 0 <= slot.value < RcChannelCount
  {
    var idx := channel - 1;
    if 0 <= idx < RcChannelCount then Some(idx)
    else if -RcChannelCount <= idx < 0 then Some(idx + RcChannelCount)
    else None
  }

  datatype RcError = IndexError

  /**
   `set_rc_override(channel, pwm)`: all eight channels released (0) except the
   chosen one. Without a connection nothing happens, before the index is even
   looked at; with one, an out-of-range channel raises.
   */
  function SetRcOverride(c: Client, channel: int, pwm: int): (r: Result<seq<Outbound>, RcError>)
    ensures !c.connected ==> r == Ok([])
    ensures c.connected && RcSlot(channel).None? ==> r == Err(IndexError)
    ensures c.connected && RcSlot(channel).Some? ==>
      r.Ok? && |r.value| == 1 && r.value[0].RcChannelsOverride?
      && r.value[0].targetSystem == TargetSystem(c) && r.value[0].targetComponent == TargetComponent(c)
      && |r.value[0].channels| == RcChannelCount
      && r.value[0].channels[RcSlot(channel).value] == pwm
      && forall i :: 0 <= i < RcChannelCount && i != RcSlot(channel).value ==> r.value[0].channels[i] == 0
  {
    if !c.connected then Ok([])
    else
      match RcSlot(channel)
      case None => Err(IndexError)
      case Some(slot) =>
        Ok([RcChannelsOverride(TargetSystem(c), TargetComponent(c), [0, 0, 0, 0, 0, 0, 0, 0][slot := pwm])])
  }

  /** The channels a user means (1–8) each drive their own slot, so distinct channels never collide. */
  lemma RcSlotsDistinct(a: int, b: int)
    requires 1 <= a <= RcChannelCount && 1 <= b <= RcChannelCount && a != b
    ensures RcSlot(a).value != RcSlot(b).value
  {
  }

  /** Channel 0 is not rejected: it silently overrides channel 8. */
  lemma ChannelZeroAliasesEight()
    ensures RcSlot(0) == RcSlot(8) == Some(7)
  {
  }
}

=== FILE: common.dfy ===
/**
 Small shared vocabulary: optional values, results for the source's
 exception paths, and Python's numeric conversions written out explicitly.
 */
module Common {

  /** Python's `None`-or-value. */
  datatype Option<+T> = None | Some(value: T) {
    /** `x if x is not None else default`, and `dict.get(key, default)`. */
    function GetOr(default: T): T
    {
      match this
      case Some(v) => v
      case None => default
    }
  }

  /** A value, or the exception the source raises instead. */
  datatype Result<+T, +E> = Ok(value: T) | Err(error: E)

  /** Python's `int(x)` on a float: truncation toward zero. */
  function TruncToInt(x: real): (r: int)
    ensures 0.0 <= x ==> 0 <= r && r as real <= x < r as real + 1.0
    ensures x < 0.0 ==> r <= 0 && r as real - 1.0 < x <= r as real
  {
    if x >= 0.0 then x.Floor else -((-x).Floor)
  }

  function Min(a: int, b: int): int
  {
    if a <= b then a else b
  }

  function Max(a: int, b: int): int
  {
    if a >= b then a else b
  }

  function MaxReal(a: real, b: real): real
  {
    if a >= b then a else b
  }

  /** `abs(x)` on a float. */
  function AbsReal(x: real): (r: real)
    ensures r >= 0.0 && (r == x || r == -x)
  {
    if x < 0.0 then -x else x
  }

  /** `max(lo, min(hi, x))`, the clamp idiom the source uses everywhere. */
  function Clamp(x: int, lo: int, hi: int): (r: int)
    requires lo <= hi
    ensures lo <= r <= hi
    ensures lo <= x <= hi ==> r == x
    ensures x < lo ==> r == lo
    ensures hi < x ==> r == hi
  {
    Max(lo, Min(hi, x))
  }

  /** 2^n as an integer. */
  function Pow2(n: nat): (r: nat)
    ensures r >= 1
  {
    if n == 0 then 1 else 2 * Pow2(n - 1)
  }
}

=== FILE: event_bus.dfy ===
/**
 The publish/subscribe registry of gcs/event_bus.py: a map from event type to
 the ordered list of callbacks registered for it. Delivery on the UI thread
 (`Clock.schedule_once`) is represented by the ordered list of deliveries an
 `emit` schedules.
 */
module EventBus {

  datatype EventType = DataUpdated | ConnectionChanged | AdsbUpdated | ClearData | ParamReceived

  /** `_subscribers`. */
  type Bus<C> = map<EventType, seq<C>>

  /** One scheduled call `cb(data)`. */
  datatype Delivery<C, D> = Delivery(callback: C, data: D)

  /** `_subscribers.get(t, [])`. */
  function Callbacks<C>(bus: Bus<C>, t: EventType): seq<C>
  {
    if t in bus then bus[t] else []
  }

  /** `list.index(x)`: the position of the first occurrence. */
  function IndexOf<C(==)>(s: seq<C>, x: C): (k: nat)
    requires x in s
    ensures k < |s| && s[k] == x && x !in s[..k]
  {
    if s[0] == x then 0
    else
      var k := IndexOf(s[1..], x);
      assert s[..k + 1] == [s[0]] + s[1..][..k];
      k + 1
  }

  /** `list.remove(x)`: drop the first occurrence; the `ValueError` for an absent `x` is caught, so nothing changes. */
  function RemoveFirst<C(==)>(s: seq<C>, x: C): (r: seq<C>)
    ensures x !in s ==> r == s
    ensures x in s ==> |r| == |s| - 1 && multiset(r) == multiset(s) - multiset{x}
    ensures x in s ==>
      var k := IndexOf(s, x);
      && (forall i :: 0 <= i < k ==> r[i] == s[i])
      && (forall i :: k <= i < |r| ==> r[i] == s[i + 1])
  {
    if x in s then DropAt(s, IndexOf(s, x)) else s
  }

  /** The sequence without its element at position `k`, the rest in order. */
  function DropAt<C>(s: seq<C>, k: nat): (r: seq<C>)
    requires k < |s|
    ensures |r| == |s| - 1
    ensures forall i :: 0 <= i < k ==> r[i] == s[i]
    ensures forall i :: k <= i < |r| ==> r[i] == s[i + 1]
    ensures multiset(r) == multiset(s) - multiset{s[k]}
  {
    var before, after := s[..k], s[k + 1..];
    assert s == before + [s[k]] + after;
    before + after
  }

  /** `subscribe(t, cb)`: `setdefault(t, []).append(cb)`. */
  function Subscribe<C>(bus: Bus<C>, t: EventType, cb: C): (r: Bus<C>)
    ensures Callbacks(r, t) == Callbacks(bus, t) + [cb]
    ensures forall u :: u != t ==> Callbacks(r, u) == Callbacks(bus, u)
    ensures r.Keys == bus.Keys + {t}
  {
    bus[t := Callbacks(bus, t) + [cb]]
  }

  /**
   `unsubscribe(t, cb)`: removes the first registration of `cb` for `t`; a
   callback that is not registered (or a type never subscribed to) is ignored.
   */
  function Unsubscribe<C(==)>(bus: Bus<C>, t: EventType, cb: C): (r: Bus<C>)
    ensures cb !in Callbacks(bus, t) ==> r == bus
    ensures cb in Callbacks(bus, t) ==>
      multiset(Callbacks(r, t)) == multiset(Callbacks(bus, t)) - multiset{cb}
    ensures Callbacks(r, t) == RemoveFirst(Callbacks(bus, t), cb)
    ensures forall u :: u != t ==> Callbacks(r, u) == Callbacks(bus, u)
    ensures r.Keys == bus.Keys
  {
    if t in bus && cb in bus[t] then bus[t := RemoveFirst(bus[t], cb)] else bus
  }

  /** `has_subscribers(t)`: `bool(_subscribers.get(t))`. */
  predicate HasSubscribers<C>(bus: Bus<C>, t: EventType)
  {
    t in bus && |bus[t]| > 0
  }

  /** `emit(t, data)`: one delivery of `data` per callback registered now, in registration order. */
  function Emit<C, D>(bus: Bus<C>, t: EventType, data: D): (ds: seq<Delivery<C, D>>)
    ensures |ds| == |Callbacks(bus, t)|
    ensures forall i :: 0 <= i < |ds| ==> ds[i] == Delivery(Callbacks(bus, t)[i], data)
  {
    var cbs := Callbacks(bus, t);
    seq(|cbs|, i requires 0 <= i < |cbs| => Delivery(cbs[i], data))
  }

  /** Having subscribers means exactly that an emit delivers something. */
  lemma HasSubscribersIffDelivers<C, D>(bus: Bus<C>, t: EventType, data: D)
    ensures HasSubscribers(bus, t) <==> |Emit(bus, t, data)| > 0
  {
  }

  /**
   Subscribing then unsubscribing a callback that was not registered gives back
   the same delivery list for every event type.
   */
  lemma SubscribeUnsubscribe<C, D>(bus: Bus<C>, t: EventType, cb: C, data: D)
    requires cb !in Callbacks(bus, t)
    ensures forall u :: Callbacks(Unsubscribe(Subscribe(bus, t, cb), t, cb), u) == Callbacks(bus, u)
    ensures forall u :: Emit(Unsubscribe(Subscribe(bus, t, cb), t, cb), u, data) == Emit(bus, u, data)
  {
    var added := Subscribe(bus, t, cb);
    var back := Unsubscribe(added, t, cb);
    assert Callbacks(added, t) == Callbacks(bus, t) + [cb];
    RemoveAppended(Callbacks(bus, t), cb);
    assert Callbacks(back, t) == RemoveFirst(Callbacks(added, t), cb);
    forall u ensures Callbacks(back, u) == Callbacks(bus, u) {
      if u != t {
        assert Callbacks(back, u) == Callbacks(added, u);
      }
    }
    forall u ensures Emit(back, u, data) == Emit(bus, u, data) {
      assert Callbacks(back, u) == Callbacks(bus, u);
    }
  }

  /** Removing a callback just appended, and registered nowhere before, restores the list. */
  lemma RemoveAppended<C>(s: seq<C>, x: C)
    requires x !in s
    ensures RemoveFirst(s + [x], x) == s
  {
    var k := IndexOf(s + [x], x);
    assert (s + [x])[..k] == s;
  }

  /** Registering twice means being called twice, in registration order. */
  lemma DuplicateSubscriptionsDeliverTwice<C, D>(bus: Bus<C>, t: EventType, cb: C, data: D)
    requires Callbacks(bus, t) == []
    ensures Emit(Subscribe(Subscribe(bus, t, cb), t, cb), t, data) == [Delivery(cb, data), Delivery(cb, data)]
  {
  }
}

=== FILE: flight_screen.dfy ===
/**
 The pieces of app/main.py's `FlightScreen` that decide something: the
 armed/disarmed transition gate for the flight timer and the checklist,
 the h:m:s timer text, the mission-altitude validator and the escaping of
 status text before it goes into Kivy markup. Widgets are reduced to the
 two `disabled` flags and whether the checklist popup is open.
 */
module FlightScreen {
  import opened Common
  import Text

  // ------------------------------------------------------------------
  // Armed-state transitions and the flight timer
  // ------------------------------------------------------------------

  datatype Gate = Gate(
    prevArmed: Option<bool>,        // _prev_armed, None before the first update
    timerStart: Option<real>,       // _flight_timer_start (monotonic seconds)
    elapsed: real,                  // _flight_timer_elapsed
    checklistComplete: bool,        // _checklist_complete
    checklistDisabled: bool,        // ids.checklist_btn.disabled
    armDisabled: bool,              // ids.arm_btn.disabled
    popupOpen: bool)                // _checklist_popup is not None

  /** The state `__init__` leaves (the buttons start disabled in the layout). */
  const InitialGate := Gate(None, None, 0.0, false, false, true, false)

  /** Seconds the timer shows at monotonic time `now`: the banked time plus the running stretch. */
  function Shown(g: Gate, now: real): real
  {
    g.elapsed + (if g.timerStart.Some? then now - g.timerStart.value else 0.0)
  }

  /**
   `_update_armed_state`: nothing happens unless `armed` differs from the
   last value seen. Arming restarts the timer from zero, locks both buttons
   and closes the checklist popup; disarming banks the running stretch,
   stops the timer, re-enables the checklist and demands it be completed
   again, keeping ARM locked.
   */
  function UpdateArmedState(g: Gate, armed: bool, now: real): (r: Gate)
    ensures g.prevArmed == Some(armed) ==> r == g
    ensures g.prevArmed != Some(armed) ==> r.prevArmed == Some(armed) && r.armDisabled
    ensures g.prevArmed != Some(armed) && armed ==>
      r.timerStart == Some(now) && Shown(r, now) == 0.0 && r.checklistDisabled && !r.popupOpen
      && r.checklistComplete == g.checklistComplete
    ensures g.prevArmed != Some(armed) && !armed ==>
      r.timerStart.None? && Shown(r, now) == Shown(g, now) && !r.checklistDisabled
      && !r.checklistComplete && r.popupOpen == g.popupOpen
  {
    if g.prevArmed == Some(armed) then g
    else if armed then
      g.(timerStart := Some(now), elapsed := 0.0, checklistDisabled := true, armDisabled := true,
         popupOpen := false, prevArmed := Some(true))
    else
      var banked := if g.timerStart.Some? then g.elapsed + (now - g.timerStart.value) else g.elapsed;
      g.(elapsed := banked, timerStart := None, checklistDisabled := false, checklistComplete := false,
         armDisabled := true, prevArmed := Some(false))
  }

  /** Repeating an update with the same armed flag changes nothing, whenever it comes. */
  lemma UpdateIdempotent(g: Gate, armed: bool, t1: real, t2: real)
    ensures UpdateArmedState(UpdateArmedState(g, armed, t1), armed, t2) == UpdateArmedState(g, armed, t1)
  {
  }

  /**
   A flight armed at `t1` and disarmed at `t2` leaves the timer stopped at
   exactly `t2 - t1`, however many updates with an unchanged flag came in
   between, and ARM locked until the checklist is done again.
   */
  lemma FlightDuration(g: Gate, t1: real, mid: seq<real>, t2: real)
    requires g.prevArmed != Some(true)
    ensures var armed := UpdateAll(UpdateArmedState(g, true, t1), true, mid);
      var landed := UpdateArmedState(armed, false, t2);
      && (forall later :: Shown(landed, later) == t2 - t1)
      && landed.armDisabled && !landed.checklistComplete && !landed.checklistDisabled
  {
    UpdateAllSteady(UpdateArmedState(g, true, t1), true, mid);
  }

  /** A run of updates, all with the same armed flag. */
  function UpdateAll(g: Gate, armed: bool, times: seq<real>): (r: Gate)
    decreases |times|
  {
    if |times| == 0 then g else UpdateAll(UpdateArmedState(g, armed, times[0]), armed, times[1..])
  }

  lemma {:induction false} UpdateAllSteady(g: Gate, armed: bool, times: seq<real>)
    requires g.prevArmed == Some(armed)
    ensures UpdateAll(g, armed, times) == g
    decreases |times|
  {
    if |times| > 0 {
      UpdateAllSteady(UpdateArmedState(g, armed, times[0]), armed, times[1..]);
    }
  }

  // ------------------------------------------------------------------
  // The h:m:s timer text
  // ------------------------------------------------------------------

  /** `m, s = divmod(t, 60); h, m = divmod(m, 60)`: Python's floor division, which Dafny's matches here. */
  function Hms(t: int): (r: (int, int, int))
    ensures t == r.0 * 3600 + r.1 * 60 + r.2
    ensures 0 <= r.1 < 60 && 0 <= r.2 < 60
    ensures t >= 0 ==> r.0 >= 0
  {
    var m := t / 60;
    (m / 60, m % 60, t % 60)
  }

  /** `f"{h:02d}:{m:02d}:{s:02d}"`. */
  function FormatHms(t: int): (s: string)
  {
    var hms := Hms(t);
    Text.Pad2(hms.0) + ":" + Text.Pad2(hms.1) + ":" + Text.Pad2(hms.2)
  }

  /** The timer text for `int(elapsed)` seconds. */
  function TimerText(g: Gate, now: real): string
  {
    FormatHms(TruncToInt(Shown(g, now)))
  }

  /** Reads back "hh:mm:ss" as seconds. */
  function ParseHms(s: string): (r: Option<int>)
    ensures r.Some? ==> |s| == 8 && s[2] == ':' && s[5] == ':'
  {
    if |s| == 8 && s[2] == ':' && s[5] == ':'
       && Text.AllDigits(s[..2]) && Text.AllDigits(s[3..5]) && Text.AllDigits(s[6..])
    then Some(Text.ParseNat(s[..2]) * 3600 + Text.ParseNat(s[3..5]) * 60 + Text.ParseNat(s[6..]))
    else None
  }

  lemma TwoDigits(n: int)
    requires 0 <= n < 100
    ensures |Text.Pad2(n)| == 2 && Text.AllDigits(Text.Pad2(n)) && Text.ParseNat(Text.Pad2(n)) == n
  {
    var p := Text.Pad2(n);
    if n < 10 {
      assert p[..1] == ['0'];
      assert Text.ParseNat(p[..1]) == 10 * Text.ParseNat([]) + 0;
    } else {
      Text.ParseNatToString(n);
      assert |p| == 2 by {
        assert p == Text.NatToString(n / 10) + [Text.DigitChar(n % 10)];
      }
    }
  }

  /** Under 100 hours the timer text is eight characters that read back as the same number of seconds. */
  lemma HmsRoundTrip(t: int)
    requires 0 <= t < 100 * 3600
    ensures |FormatHms(t)| == 8 && ParseHms(FormatHms(t)) == Some(t)
  {
    var hms := Hms(t);
    TwoDigits(hms.0);
    TwoDigits(hms.1);
    TwoDigits(hms.2);
    var s := FormatHms(t);
    assert s[..2] == Text.Pad2(hms.0);
    assert s[3..5] == Text.Pad2(hms.1);
    assert s[6..] == Text.Pad2(hms.2);
  }

  // ------------------------------------------------------------------
  // Mission altitude
  // ------------------------------------------------------------------

  const MinMissionAltitude: real := 20.0
  const MaxMissionAltitude: real := 1500.0

  datatype AltitudeError = InvalidAltitude | AltitudeOutOfRange

  /**
   `on_generate_mission`'s check of the altitude field, `parsed` being
   `float(text)` or None when that raises: only 20 to 1500 m, ends included,
   go on to the confirmation dialog.
   */
  function MissionAltitude(parsed: Option<real>): (r: Result<real, AltitudeError>)
    ensures r.Ok? <==> parsed.Some? && MinMissionAltitude <= parsed.value <= MaxMissionAltitude
    ensures r.Ok? ==> r.value == parsed.value
    ensures parsed.None? <==> r == Err(InvalidAltitude)
  {
    match parsed
    case None => Err(InvalidAltitude)
    case Some(alt) =>
      if alt < MinMissionAltitude || alt > MaxMissionAltitude then Err(AltitudeOutOfRange) else Ok(alt)
  }

  // ------------------------------------------------------------------
  // Status text in Kivy markup
  // ------------------------------------------------------------------

  /** `s.replace(c, rep)` for a one-character pattern. */
  function ReplaceChar(s: string, c: char, rep: string): (r: string)
    decreases |s|
  {
    if |s| == 0 then [] else (if s[0] == c then rep else [s[0]]) + ReplaceChar(s[1..], c, rep)
  }

  lemma {:induction false} ReplaceConcat(a: string, b: string, c: char, rep: string)
    ensures ReplaceChar(a + b, c, rep) == ReplaceChar(a, c, rep) + ReplaceChar(b, c, rep)
    decreases |a|
  {
    if |a| > 0 {
      assert (a + b)[0] == a[0] && (a + b)[1..] == a[1..] + b;
      ReplaceConcat(a[1..], b, c, rep);
    } else {
      assert a + b == b;
    }
  }

  /** The escaping as written: `&` first, then the brackets. */
  function MarkupEscape(s: string): string
  {
    ReplaceChar(ReplaceChar(ReplaceChar(s, '&', "&amp;"), '[', "&bl;"), ']', "&br;")
  }

  /** What each character becomes. */
  function EscapeChar(x: char): (r: string)
    ensures '[' !in r && ']' !in r && |r| >= 1
  {
    if x == '&' then "&amp;" else if x == '[' then "&bl;" else if x == ']' then "&br;" else [x]
  }

  function EscapeEach(s: string): (r: string)
    ensures '[' !in r && ']' !in r
    decreases |s|
  {
    if |s| == 0 then [] else EscapeChar(s[0]) + EscapeEach(s[1..])
  }

  lemma ReplaceSingle(x: char, c: char, rep: string)
    ensures ReplaceChar([x], c, rep) == if x == c then rep else [x]
  {
    assert [x][1..] == [];
  }

  lemma {:induction false} ReplaceAbsent(s: string, c: char, rep: string)
    requires c !in s
    ensures ReplaceChar(s, c, rep) == s
    decreases |s|
  {
    if |s| > 0 {
      assert s[0] != c;
      ReplaceAbsent(s[1..], c, rep);
    }
  }

  lemma EscapeOne(x: char)
    ensures MarkupEscape([x]) == EscapeChar(x)
  {
    ReplaceSingle(x, '&', "&amp;");
    var a := ReplaceChar([x], '&', "&amp;");
    if x == '&' {
      BracketFree(a);
    } else {
      ReplaceSingle(x, '[', "&bl;");
      if x == '[' {
        ReplaceAbsent(ReplaceChar(a, '[', "&bl;"), ']', "&br;");
      } else {
        ReplaceSingle(x, ']', "&br;");
      }
    }
  }

  /** Text without brackets passes the two bracket replacements unchanged. */
  lemma BracketFree(s: string)
    requires '[' !in s && ']' !in s
    ensures ReplaceChar(ReplaceChar(s, '[', "&bl;"), ']', "&br;") == s
  {
    ReplaceAbsent(s, '[', "&bl;");
    ReplaceAbsent(s, ']', "&br;");
  }

  /**
   The three replacements in a row act character by character: since `&`
   goes first, the `&` that the bracket entities introduce is not escaped
   again.
   */
  lemma {:induction false} MarkupEscapePerChar(s: string)
    ensures MarkupEscape(s) == EscapeEach(s)
    decreases |s|
  {
    if |s| > 0 {
      var x, rest := s[0], s[1..];
      assert s == [x] + rest;
      ReplaceConcat([x], rest, '&', "&amp;");
      var a1, a2 := ReplaceChar([x], '&', "&amp;"), ReplaceChar(rest, '&', "&amp;");
      ReplaceConcat(a1, a2, '[', "&bl;");
      var b1, b2 := ReplaceChar(a1, '[', "&bl;"), ReplaceChar(a2, '[', "&bl;");
      ReplaceConcat(b1, b2, ']', "&br;");
      EscapeOne(x);
      MarkupEscapePerChar(rest);
    }
  }

  /** Escaped text holds no markup brackets. */
  lemma MarkupEscapeNoBrackets(s: string)
    ensures '[' !in MarkupEscape(s) && ']' !in MarkupEscape(s)
  {
    MarkupEscapePerChar(s);
  }

  /** What Kivy's markup renderer shows for escaped text: the three entities decoded. */
  function Unescape(s: string): string
    decreases |s|
  {
    if |s| == 0 then []
    else if |s| >= 5 && s[..5] == "&amp;" then "&" + Unescape(s[5..])
    else if |s| >= 4 && s[..4] == "&bl;" then "[" + Unescape(s[4..])
    else if |s| >= 4 && s[..4] == "&br;" then "]" + Unescape(s[4..])
    else [s[0]] + Unescape(s[1..])
  }

  lemma UnescapeStep(x: char, rest: string)
    ensures Unescape(EscapeChar(x) + rest) == [x] + Unescape(rest)
  {
    var e := EscapeChar(x) + rest;
    if x == '&' {
      assert e[..5] == "&amp;" && e[5..] == rest;
    } else if x == '[' {
      assert |e| >= 5 ==> e[..5] != "&amp;" by {
        if |e| >= 5 { assert e[..5][1] == 'b'; }
      }
      assert e[..4] == "&bl;" && e[4..] == rest;
    } else if x == ']' {
      assert |e| >= 5 ==> e[..5] != "&amp;" by {
        if |e| >= 5 { assert e[..5][1] == 'b'; }
      }
      assert e[..4] != "&bl;" by {
        assert e[..4][2] == 'r';
      }
      assert e[..4] == "&br;" && e[4..] == rest;
    } else {
      assert |e| >= 5 ==> e[..5] != "&amp;" by {
        if |e| >= 5 { assert e[..5][0] == x; }
      }
      assert |e| >= 4 ==> e[..4] != "&bl;" && e[..4] != "&br;" by {
        if |e| >= 4 { assert e[..4][0] == x; }
      }
      assert e[0] == x && e[1..] == rest;
    }
  }

  /** The operator reads exactly the text the vehicle sent. */
  lemma {:induction false} MarkupRoundTrip(s: string)
    ensures Unescape(MarkupEscape(s)) == s
    decreases |s|
  {
    MarkupEscapePerChar(s);
    if |s| > 0 {
      MarkupRoundTrip(s[1..]);
      MarkupEscapePerChar(s[1..]);
      UnescapeStep(s[0], EscapeEach(s[1..]));
      assert s == [s[0]] + s[1..];
    }
  }
}

=== FILE: io_loop.dfy ===
/**
 The connection lifecycle and the background loop of gcs/mavlink_client.py:
 `start()`, `stop()`, the initial heartbeat burst and one iteration of
 `_io_loop` (watchdog, drain, 1 Hz own heartbeat, 5 s stream re-request,
 10 Hz data event). The thread, its stop event and the 5 ms sleep are not
 modelled; one iteration is a function of the time it reads and of the
 messages the transport has queued.
 */
module IoLoop {
  import opened Common
  import opened MavlinkMessages
  import opened MavlinkClient
  import VS = VehicleState
  import Text
  import EventBus

  const GcsHeartbeatInterval: real := 1.0
  const StreamRequestInterval: real := 5.0
  const DataEmitInterval: real := 0.1
  /** Seconds between "still waiting" diagnostics. */
  const WatchdogPeriod: int := 5
  /** Heartbeats sent back to back when the loop starts. */
  const StartupBurst: nat := 3

  /**
   `udpin:{bind_address}:{port}`: a UDP listener on the configured address,
   whose port field reads back as the configured port.
   */
  function DefaultConnStr(c: Client): (s: string)
    ensures Text.IsPrefix("udpin:", s)
    ensures |s| > 7 + |c.bindAddress|
    ensures s[6..6 + |c.bindAddress|] == c.bindAddress && s[6 + |c.bindAddress|] == ':'
    ensures c.port >= 0 ==>
      Text.AllDigits(s[7 + |c.bindAddress|..]) && Text.ParseNat(s[7 + |c.bindAddress|..]) == c.port
  {
    var b, p := c.bindAddress, Text.IntToString(c.port);
    var s := "udpin:" + b + ":" + p;
    assert s[6..6 + |b|] == b && s[7 + |b|..] == p;
    if c.port >= 0 then Text.ParseNatToString(c.port); s else s
  }

  datatype StartError = AlreadyRunning | OpenFailed

  /**
   `start(conn_str)`. A running client is left alone. Otherwise the connection
   string (the default UDP listener when none is given) is recorded even if
   opening it then fails; on success the diagnostics are reset, the client
   is running and, with a bus, a connection event is emitted. `opens` is
   whether the transport accepted the connection string.
   */
  function Start(c: Client, connStr: Option<string>, opens: bool, now: real): (r: Result<Step, (StartError, Client)>)
    ensures c.running ==> r == Err((AlreadyRunning, c))
    ensures !c.running && !opens ==> r.Err? && r.error.0 == OpenFailed && !r.error.1.running
    ensures !c.running ==>
      var chosen := if connStr.Some? then connStr.value else DefaultConnStr(c);
      (r.Ok? ==> r.value.client.connStr == Some(chosen)) && (r.Err? ==> r.error.1.connStr == Some(chosen))
    ensures r.Ok? <==> !c.running && opens
    ensures r.Ok? ==>
      && r.value.client.running && r.value.client.connected
      && r.value.client.msgCount == 0 && r.value.client.firstMsgTime.None?
      && r.value.client.connectTime == Some(now) && r.value.client.lastWatchdogLog == 0
      && r.value.client.state == c.state
      && r.value.sent == []
      && r.value.emitted == (if c.hasBus then [Event(EventBus.ConnectionChanged, Connection(true))] else [])
  {
    if c.running then Err((AlreadyRunning, c))
    else
      var chosen := if connStr.Some? then connStr.value else DefaultConnStr(c);
      var c1 := c.(connStr := Some(chosen));
      if !opens then Err((OpenFailed, c1))
      else
        var c2 := c1.(connected := true, msgCount := 0, firstMsgTime := None,
                      connectTime := Some(now), lastWatchdogLog := 0, running := true);
        Ok(Step(c2, [], if c.hasBus then [Event(EventBus.ConnectionChanged, Connection(true))] else []))
  }

  /**
   `stop()`: a stopped client is left alone; a running one closes its
   connection, stops, clears the stream latch (so the next vehicle heartbeat
   requests streams again) and, with a bus, emits a disconnection event.
   */
  function Stop(c: Client): (r: Step)
    ensures !c.running ==> r == Step(c, [], [])
    ensures c.running ==>
      && !r.client.running && !r.client.connected && !r.client.streamsRequested
      && r.client.state == c.state && r.client.connStr == c.connStr
      && r.sent == []
      && r.emitted == (if c.hasBus then [Event(EventBus.ConnectionChanged, Connection(false))] else [])
  {
    if !c.running then Step(c, [], [])
    else
      Step(c.(connected := false, running := false, streamsRequested := false), [],
           if c.hasBus then [Event(EventBus.ConnectionChanged, Connection(false))] else [])
  }

  /** A `start()` that succeeds followed by `stop()` gives back the client's vehicle record and a clear latch. */
  lemma StartStopRoundTrip(c: Client, connStr: Option<string>, now: real)
    requires !c.running
    ensures var s := Start(c, connStr, true, now);
      && s.Ok?
      && var stopped := Stop(s.value.client);
      && !stopped.client.running && !stopped.client.connected && !stopped.client.streamsRequested
      && stopped.client.state == c.state
      && (c.hasBus ==>
            (s.value.emitted + stopped.emitted ==
             [Event(EventBus.ConnectionChanged, Connection(true)), Event(EventBus.ConnectionChanged, Connection(false))]))
  {
  }

  /** Transmitting through the connection; a send on a closed connection fails and is swallowed. */
  function Send(c: Client, m: Outbound): (sent: seq<Outbound>)
    ensures c.connected ==> sent == [m]
    ensures !c.connected ==> sent == []
  {
    if c.connected then [m] else []
  }

  /** The loop's private timers, `last_gcs_hb` and `last_data_emit`. */
  datatype Timers = Timers(lastGcsHb: real, lastDataEmit: real)

  function Repeat<T>(x: T, n: nat): (r: seq<T>)
    ensures |r| == n && forall i :: 0 <= i < n ==> r[i] == x
  {
    if n == 0 then [] else [x] + Repeat(x, n - 1)
  }

  /** Entering `_io_loop`: three heartbeats so that a router starts forwarding, then both timers at 0. */
  function LoopStart(c: Client): (r: (Step, Timers))
    ensures c.connected ==> r.0.sent == Repeat(OwnHeartbeat, StartupBurst)
    ensures !c.connected ==> r.0.sent == []
    ensures r.0.client == c && r.0.emitted == [] && r.1 == Timers(0.0, 0.0)
  {
    (Step(c, if c.connected then Repeat(OwnHeartbeat, StartupBurst) else [], []), Timers(0.0, 0.0))
  }

  /**
   The watchdog: before the first message, and once a connection time is
   known (and non-zero), every whole multiple of five elapsed seconds is
   logged once. Returns the new `_last_watchdog_log` and whether a warning
   was logged.
   */
  function Watchdog(c: Client, now: real): (r: (int, bool))
    ensures !r.1 ==> r.0 == c.lastWatchdogLog
    ensures r.1 ==> r.0 != c.lastWatchdogLog && r.0 >= WatchdogPeriod && r.0 % WatchdogPeriod == 0
    ensures r.1 ==>
      && c.firstMsgTime.None? && c.connectTime.Some? && c.connectTime.value != 0.0
      && r.0 == TruncToInt(now - c.connectTime.value)
    ensures c.firstMsgTime.None? && c.connectTime.Some? && c.connectTime.value != 0.0 ==>
      var e := TruncToInt(now - c.connectTime.value);
      e >= WatchdogPeriod && e % WatchdogPeriod == 0 && e != c.lastWatchdogLog ==> r.1
  {
    if c.firstMsgTime.None? && c.connectTime.Some? && c.connectTime.value != 0.0 then
      var elapsed := TruncToInt(now - c.connectTime.value);
      if elapsed >= WatchdogPeriod && elapsed % WatchdogPeriod == 0 && elapsed != c.lastWatchdogLog then
        (elapsed, true)
      else (c.lastWatchdogLog, false)
    else (c.lastWatchdogLog, false)
  }

  /** Within one five-second window the watchdog logs at most once. */
  lemma WatchdogOncePerWindow(c: Client, now1: real, now2: real)
    requires c.connectTime.Some?
    requires TruncToInt(now1 - c.connectTime.value) == TruncToInt(now2 - c.connectTime.value)
    ensures var w1 := Watchdog(c, now1);
      !(w1.1 && Watchdog(c.(lastWatchdogLog := w1.0), now2).1)
  {
  }

  /** `while True: msg = recv_match(blocking=False)`: everything queued is handled, in order, while connected. */
  function Drain(c: Client, inbox: seq<(Msg, Env)>): (r: Step)
    ensures forall i :: 0 <= i < |r.emitted| ==> r.emitted[i].eventType == EventBus.ParamReceived
    ensures SameConnection(r.client, c)
    ensures r.client.msgCount == c.msgCount + (if c.connected then |inbox| else 0)
  {
    if c.connected then
      NoDataEventsWhileDraining(c, inbox);
      HandleAllSameConnection(c, inbox);
      HandleAll(c, inbox)
    else Step(c, [], [])
  }

  /**
   The periodic stream re-request: a latched client whose last request is at
   least five seconds old asks again and stamps the time; otherwise nothing.
   It sends stream requests only, and touches nothing but the stamp.
   */
  function Refresh(c: Client, now: real): (r: Step)
    ensures r.emitted == [] && forall i :: 0 <= i < |r.sent| ==> r.sent[i].RequestDataStream?
    ensures r.client == c.(lastStreamRequestTime := r.client.lastStreamRequestTime)
  {
    if c.streamsRequested && now - c.lastStreamRequestTime >= StreamRequestInterval
    then RequestDataStreams(c, now) else Step(c, [], [])
  }

  /**
   One iteration of `_io_loop` at time `now`. `inbox` is what `recv_match`
   returns until it yields nothing; `dataListeners` is whether anyone is
   subscribed to data events. Order: watchdog, drain, own heartbeat,
   stream re-request, data event.
   */
  function Tick(c: Client, t: Timers, now: real, inbox: seq<(Msg, Env)>, dataListeners: bool): (r: (Step, Timers))
    ensures r.0.client.connected == c.connected && r.0.client.running == c.running
    ensures r.0.client.lastWatchdogLog == Watchdog(c, now).0
    ensures r.0.client.msgCount == c.msgCount + (if c.connected then |inbox| else 0)
    ensures r.1.lastGcsHb == (if now - t.lastGcsHb >= GcsHeartbeatInterval then now else t.lastGcsHb)
  {
    var w := Watchdog(c, now);
    var c1 := c.(lastWatchdogLog := w.0);
    var drained := Drain(c1, inbox);
    var c2 := drained.client;
    var beat := now - t.lastGcsHb >= GcsHeartbeatInterval;
    var hb := if beat then Send(c2, OwnHeartbeat) else [];
    var t1 := if beat then t.(lastGcsHb := now) else t;
    var streams := Refresh(c2, now);
    var c3 := streams.client;
    var emitDue := c3.hasBus && now - t1.lastDataEmit >= DataEmitInterval;
    var data := if emitDue && dataListeners
                then [Event(EventBus.DataUpdated, Data(VS.TakeSnapshot(c3.state)))] else [];
    var t2 := if emitDue then t1.(lastDataEmit := now) else t1;
    (Step(c3, drained.sent + hb + streams.sent, drained.emitted + data), t2)
  }

  /** Own heartbeats follow the 1 s cadence: sent exactly when a second has passed since the last one. */
  lemma TickHeartbeatCadence(c: Client, t: Timers, now: real, inbox: seq<(Msg, Env)>, dataListeners: bool)
    requires c.connected
    ensures var r := Tick(c, t, now, inbox, dataListeners);
      && (now - t.lastGcsHb >= GcsHeartbeatInterval ==> r.1.lastGcsHb == now && OwnHeartbeat in r.0.sent)
      && (now - t.lastGcsHb < GcsHeartbeatInterval ==> r.1.lastGcsHb == t.lastGcsHb && OwnHeartbeat !in r.0.sent)
  {
    var c1 := c.(lastWatchdogLog := Watchdog(c, now).0);
    var drained := Drain(c1, inbox);
    TickSent(c, t, now, inbox, dataListeners);
    StreamsRequestedOnce(c1, inbox);
    NothingButRequests(drained.sent);
  }

  /** What one iteration sends: the drain's requests, then the own heartbeat if due, then the refresh. */
  lemma TickSent(c: Client, t: Timers, now: real, inbox: seq<(Msg, Env)>, dataListeners: bool)
    ensures var drained := Drain(c.(lastWatchdogLog := Watchdog(c, now).0), inbox);
      var r := Tick(c, t, now, inbox, dataListeners);
      && r.0.sent == drained.sent
                     + (if now - t.lastGcsHb >= GcsHeartbeatInterval then Send(drained.client, OwnHeartbeat) else [])
                     + Refresh(drained.client, now).sent
      && r.0.client == Refresh(drained.client, now).client
  {
  }

  /** Every entry `CountRequests` counts, when it counts them all, is a stream request. */
  lemma {:induction false} NothingButRequests(sent: seq<Outbound>)
    requires CountRequests(sent) == |sent|
    ensures forall i :: 0 <= i < |sent| ==> sent[i].RequestDataStream?
    decreases |sent|
  {
    if |sent| > 0 {
      assert CountRequests(sent[1..]) <= |sent[1..]| by {
        CountBounded(sent[1..]);
      }
      NothingButRequests(sent[1..]);
      assert forall i :: 1 <= i < |sent| ==> sent[i] == sent[1..][i - 1];
    }
  }

  lemma {:induction false} CountBounded(sent: seq<Outbound>)
    ensures CountRequests(sent) <= |sent|
    decreases |sent|
  {
    if |sent| > 0 {
      CountBounded(sent[1..]);
    }
  }

  /**
   Data events follow the 0.1 s cadence and need a listener: one snapshot of
   the state after the drain is emitted exactly when the interval has passed,
   a bus exists and someone listens, and the timer moves whenever the
   interval has passed with a bus, listener or not.
   */
  lemma TickDataCadence(c: Client, t: Timers, now: real, inbox: seq<(Msg, Env)>, dataListeners: bool)
    ensures var r := Tick(c, t, now, inbox, dataListeners);
      var due := c.hasBus && now - t.lastDataEmit >= DataEmitInterval;
      && (due ==> r.1.lastDataEmit == now)
      && (!due ==> r.1.lastDataEmit == t.lastDataEmit)
      && (due && dataListeners <==> exists i :: 0 <= i < |r.0.emitted| && r.0.emitted[i].eventType == EventBus.DataUpdated)
      && (due && dataListeners ==> r.0.emitted[|r.0.emitted| - 1] == Event(EventBus.DataUpdated, Data(VS.TakeSnapshot(r.0.client.state))))
  {
    var r := Tick(c, t, now, inbox, dataListeners);
    var drained := Drain(c.(lastWatchdogLog := Watchdog(c, now).0), inbox).emitted;
    TickEmitted(c, t, now, inbox, dataListeners);
    var due := c.hasBus && now - t.lastDataEmit >= DataEmitInterval;
    if due && dataListeners {
      assert r.0.emitted[|r.0.emitted| - 1].eventType == EventBus.DataUpdated;
    } else {
      assert r.0.emitted == drained;
    }
  }

  /** What one iteration emits: the drained parameter events, then at most one data event. */
  lemma TickEmitted(c: Client, t: Timers, now: real, inbox: seq<(Msg, Env)>, dataListeners: bool)
    ensures var r := Tick(c, t, now, inbox, dataListeners);
      var due := c.hasBus && now - t.lastDataEmit >= DataEmitInterval;
      && r.1.lastDataEmit == (if due then now else t.lastDataEmit)
      && r.0.emitted == Drain(c.(lastWatchdogLog := Watchdog(c, now).0), inbox).emitted
                        + (if due && dataListeners
                           then [Event(EventBus.DataUpdated, Data(VS.TakeSnapshot(r.0.client.state)))] else [])
  {
  }

  /** Message handling alone never emits a data event. */
  lemma {:induction false} NoDataEventsWhileDraining(c: Client, ms: seq<(Msg, Env)>)
    ensures forall i :: 0 <= i < |HandleAll(c, ms).emitted| ==> HandleAll(c, ms).emitted[i].eventType == EventBus.ParamReceived
    decreases |ms|
  {
    if |ms| > 0 {
      var first := HandleMessage(c, ms[0].0, ms[0].1);
      HandleMessageEffects(c, ms[0].0, ms[0].1);
      NoDataEventsWhileDraining(first.client, ms[1..]);
    }
  }

  /**
   Stream requests are repeated every five seconds once latched, whatever the
   inbox holds: a latched, connected client whose last request is at least
   five seconds old requests again, addressed to the vehicle it now knows,
   and stamps the time; a fresher one sends no request at all.
   */
  lemma TickStreamRefresh(c: Client, t: Timers, now: real, inbox: seq<(Msg, Env)>, dataListeners: bool)
    requires c.connected && c.streamsRequested
    ensures var r := Tick(c, t, now, inbox, dataListeners);
      && (now - c.lastStreamRequestTime >= StreamRequestInterval ==>
            r.0.client.lastStreamRequestTime == now
            && RequestDataStream(TargetSystem(r.0.client), TargetComponent(r.0.client),
                                 MavDataStreamAll, c.streamRateHz, 1) in r.0.sent)
      && (now - c.lastStreamRequestTime < StreamRequestInterval ==>
            r.0.client.lastStreamRequestTime == c.lastStreamRequestTime
            && forall i :: 0 <= i < |r.0.sent| ==> !r.0.sent[i].RequestDataStream?)
  {
    var c1 := c.(lastWatchdogLog := Watchdog(c, now).0);
    var drained := Drain(c1, inbox);
    TickSent(c, t, now, inbox, dataListeners);
    AllKeepStamp(c1, inbox);
    StreamsRequestedOnce(c1, inbox);
    assert drained.sent == [];
  }

  /** A latched client keeps its last request time through any message. */
  lemma LatchedKeepsStamp(c: Client, m: Msg, env: Env)
    requires c.streamsRequested
    ensures HandleMessage(c, m, env).client.lastStreamRequestTime == c.lastStreamRequestTime
  {
    var counted := Counted(c, env);
    assert HandleMessage(c, m, env) == Dispatch(counted, m, env);
    if m.Heartbeat? {
      LatchedHeartbeatKeepsStamp(counted, m, env);
    }
  }

  /** Only the heartbeat that sets the latch stamps a request; later ones do not. */
  lemma LatchedHeartbeatKeepsStamp(c: Client, m: Msg, env: Env)
    requires c.streamsRequested && m.Heartbeat?
    ensures OnHeartbeat(c, m, env).client.lastStreamRequestTime == c.lastStreamRequestTime
  {
  }

  /** Draining any run of messages keeps a latched client latched and its request time unchanged. */
  lemma {:induction false} AllKeepStamp(c: Client, ms: seq<(Msg, Env)>)
    requires c.streamsRequested
    ensures HandleAll(c, ms).client.lastStreamRequestTime == c.lastStreamRequestTime
    ensures HandleAll(c, ms).client.streamsRequested
    decreases |ms|
  {
    if |ms| > 0 {
      var first := HandleMessage(c, ms[0].0, ms[0].1);
      HandleMessageEffects(c, ms[0].0, ms[0].1);
      LatchedKeepsStamp(c, ms[0].0, ms[0].1);
      AllKeepStamp(first.client, ms[1..]);
    }
  }

  /** Start and stop keep the thread and the connection handle in step. */
  predicate Consistent(c: Client)
  {
    c.running == c.connected
  }

  lemma LifecycleConsistent(c: Client, connStr: Option<string>, opens: bool, now: real,
                            t: Timers, inbox: seq<(Msg, Env)>, dataListeners: bool)
    requires Consistent(c)
    ensures var s := Start(c, connStr, opens, now);
      (s.Ok? ==> Consistent(s.value.client)) && (s.Err? ==> Consistent(s.error.1))
    ensures Consistent(Stop(c).client)
    ensures Consistent(Tick(c, t, now, inbox, dataListeners).0.client)
  {
    var c1 := c.(lastWatchdogLog := Watchdog(c, now).0);
    if c1.connected {
      HandleAllSameConnection(c1, inbox);
    }
  }
}

=== FILE: mavlink_client.dfy ===
/**
 Message fusion of gcs/mavlink_client.py: the client's connection-scoped
 fields, one state transformer per `_on_*` handler, and `_handle_message`,
 the table dispatch that ignores message types without a handler.

 What a handler reads from the outside world (the monotonic and wall clocks,
 the transport's decoded flight-mode name, and the floating-point library's
 `tan`, `sqrt` and `log`) arrives in an `Env`.
 */
module MavlinkClient {
  import opened Common
  import opened MavlinkMessages
  import VS = VehicleState
  import Text
  import EventBus

  /** `WS_A`, `WS_B`: default wind regression coefficients. */
  const DefaultWsA: real := 37.1
  const DefaultWsB: real := 3.8
  const DefaultStreamRateHz: int := 10
  const DefaultUdpPort: int := 14550
  const DefaultBindAddress: string := "0.0.0.0"

  /** Maximum number of entries kept in the status log. */
  const StatusLogCap: nat := 200

  /** Floating-point library calls the handlers make. */
  datatype Maths = Maths(tan: real -> real, sqrt: real -> real, ln: real -> real)

  datatype Env = Env(
    monotonic: real,              // time.monotonic()
    wallClock: real,              // time.time()
    connFlightMode: Option<string>,  // self._conn.flightmode, None when reading it raises
    maths: Maths)

  /** The `MAVLinkClient` fields that outlive one message. */
  datatype Client = Client(
    state: VS.State,
    lastHeartbeatTime: real,
    lastSysid: Option<int>, lastCompid: Option<int>,
    vehicleType: Option<int>, autopilotType: Option<int>,
    wsA: real, wsB: real,
    connected: bool,          // self._conn is not None
    running: bool,
    connStr: Option<string>,
    streamRateHz: int,
    streamsRequested: bool,
    lastStreamRequestTime: real,
    msgCount: nat,
    firstMsgTime: Option<real>,
    connectTime: Option<real>,
    lastWatchdogLog: int,
    hasBus: bool,             // self.event_bus is not None
    port: int, bindAddress: string)

  /** What the client hands to the event bus. */
  datatype ParamData = ParamData(paramId: string, paramValue: real, paramType: int,
                                 paramIndex: int, paramCount: int)

  datatype Payload =
    | Connection(connected: bool)
    | Data(snapshot: VS.Snapshot)
    | Param(param: ParamData)

  datatype Event = Event(eventType: EventBus.EventType, payload: Payload)

  /** A client after one operation, with what it transmitted and emitted, in order. */
  datatype Step = Step(client: Client, sent: seq<Outbound>, emitted: seq<Event>)

  /** `MAVLinkClient(port, bind_address, state, event_bus)`; `x or default` on each argument. */
  function NewClient(port: Option<int>, bindAddress: Option<string>, state: Option<VS.State>, hasBus: bool): (c: Client)
    ensures !c.running && !c.connected && !c.streamsRequested
    ensures c.port == (if port.Some? && port.value != 0 then port.value else DefaultUdpPort)
    ensures c.bindAddress == (if bindAddress.Some? && bindAddress.value != "" then bindAddress.value else DefaultBindAddress)
  {
    Client(
      state.GetOr(VS.Reset()), 0.0, None, None, None, None,
      DefaultWsA, DefaultWsB, false, false, None, DefaultStreamRateHz,
      false, 0.0, 0, None, None, 0, hasBus,
      if port.Some? && port.value != 0 then port.value else DefaultUdpPort,
      if bindAddress.Some? && bindAddress.value != "" then bindAddress.value else DefaultBindAddress)
  }

  /** `self.last_sysid or 1`: an unknown (or zero) vehicle identity falls back to 1. */
  function TargetSystem(c: Client): (id: int)
    ensures c.lastSysid.Some? && c.lastSysid.value != 0 ==> id == c.lastSysid.value
    ensures c.lastSysid.None? || c.lastSysid.value == 0 ==> id == 1
  {
    if c.lastSysid.Some? && c.lastSysid.value != 0 then c.lastSysid.value else 1
  }

  function TargetComponent(c: Client): (id: int)
    ensures c.lastCompid.Some? && c.lastCompid.value != 0 ==> id == c.lastCompid.value
    ensures c.lastCompid.None? || c.lastCompid.value == 0 ==> id == 1
  {
    if c.lastCompid.Some? && c.lastCompid.value != 0 then c.lastCompid.value else 1
  }

  /**
   `_request_data_streams()`: with a connection, ask for every stream at the
   configured rate and stamp the request time; without one, do nothing.
   */
  function RequestDataStreams(c: Client, now: real): (r: Step)
    ensures !c.connected ==> r == Step(c, [], [])
    ensures c.connected ==> r.sent == [RequestDataStream(TargetSystem(c), TargetComponent(c),
                                                         MavDataStreamAll, c.streamRateHz, 1)]
    ensures c.connected ==> r.client == c.(lastStreamRequestTime := now) && r.emitted == []
  {
    if !c.connected then Step(c, [], [])
    else
      Step(c.(lastStreamRequestTime := now),
           [RequestDataStream(TargetSystem(c), TargetComponent(c), MavDataStreamAll, c.streamRateHz, 1)],
           [])
  }

  // ------------------------------------------------------------------
  // Handlers
  // ------------------------------------------------------------------

  /** `base_mode & MAV_MODE_FLAG_SAFETY_ARMED` is non-zero. */
  predicate ArmedFlag(baseMode: uint8)
  {
    (baseMode / MavModeFlagSafetyArmed) % 2 == 1
  }

  /** On an 8-bit mode field the armed flag is the top bit. */
  lemma ArmedFlagIsTopBit(baseMode: uint8)
    ensures ArmedFlag(baseMode) <==> baseMode >= 128
  {
  }

  /**
   `_on_heartbeat`: heartbeats from ground stations are ignored; otherwise the
   vehicle's identity, liveness stamp, armed flag, flight mode and status are
   recorded, and the first one since the latch was cleared requests streams.
   */
  function OnHeartbeat(c: Client, m: Msg, env: Env): (r: Step)
    requires m.Heartbeat?
    ensures m.mavType == MavTypeGcs ==> r == Step(c, [], [])
    ensures m.mavType != MavTypeGcs ==>
      && r.client.state.armed == ArmedFlag(m.baseMode)
      && r.client.state.lastHeartbeat == env.monotonic
      && r.client.lastHeartbeatTime == env.monotonic
      && r.client.lastSysid == Some(m.srcSystem as int)
      && r.client.lastCompid == Some(m.srcComponent as int)
      && r.client.state.systemStatus == m.systemStatus
      && r.client.streamsRequested
      && r.emitted == []
      && (c.streamsRequested || !c.connected ==> r.sent == [])
      && (!c.streamsRequested && c.connected ==> |r.sent| == 1 && r.sent[0].RequestDataStream?)
    ensures m.mavType != MavTypeGcs ==>
      && r.client.vehicleType == Some(m.mavType as int)
      && r.client.autopilotType == Some(m.autopilot as int)
      && r.client.lastStreamRequestTime
         == (if !c.streamsRequested && c.connected then env.monotonic else c.lastStreamRequestTime)
    ensures m.mavType != MavTypeGcs && !c.streamsRequested && c.connected ==>
      r.sent == [RequestDataStream(TargetSystem(r.client), TargetComponent(r.client),
                                   MavDataStreamAll, c.streamRateHz, 1)]
    ensures r.client.state == c.state.(lastHeartbeat := r.client.state.lastHeartbeat,
                                       armed := r.client.state.armed,
                                       flightMode := r.client.state.flightMode,
                                       systemStatus := r.client.state.systemStatus)
    ensures r.client == c.(state := r.client.state, lastHeartbeatTime := r.client.lastHeartbeatTime,
                           lastSysid := r.client.lastSysid, lastCompid := r.client.lastCompid,
                           vehicleType := r.client.vehicleType, autopilotType := r.client.autopilotType,
                           streamsRequested := r.client.streamsRequested,
                           lastStreamRequestTime := r.client.lastStreamRequestTime)
    ensures m.mavType != MavTypeGcs && c.connected && env.connFlightMode.Some? ==>
      r.client.state.flightMode == env.connFlightMode.value
    ensures m.mavType != MavTypeGcs && (!c.connected || env.connFlightMode.None?) ==>
      r.client.state.flightMode == c.state.flightMode
  {
    if m.mavType == MavTypeGcs then Step(c, [], [])
    else
      var now := env.monotonic;
      var mode := if c.connected && env.connFlightMode.Some? then env.connFlightMode.value
                  else c.state.flightMode;
      var s := c.state.(lastHeartbeat := now, armed := ArmedFlag(m.baseMode),
                        flightMode := mode, systemStatus := m.systemStatus);
      var c1 := c.(state := s, lastHeartbeatTime := now,
                   lastSysid := Some(m.srcSystem as int), lastCompid := Some(m.srcComponent as int),
                   vehicleType := Some(m.mavType as int), autopilotType := Some(m.autopilot as int));
      if !c.streamsRequested then RequestDataStreams(c1.(streamsRequested := true), now)
      else Step(c1, [], [])
  }

  /** Sentinel for an unknown heading in `GLOBAL_POSITION_INT.hdg`. */
  const HeadingUnknown: int := 65535

  /**
   `_on_global_position_int`: scaled position and altitudes; a heading of
   65535 ("unknown") leaves the previous heading in place.
   */
  function OnGlobalPositionInt(s: VS.State, m: Msg): (r: VS.State)
    requires m.GlobalPositionInt?
    ensures r.lat == m.lat as real / 10000000.0 && r.lon == m.lon as real / 10000000.0
    ensures r.altAmsl == m.alt as real / 1000.0 && r.altRel == m.relativeAlt as real / 1000.0
    ensures r.vx == m.vx as real && r.vy == m.vy as real && r.vz == m.vz as real
    ensures m.hdg == HeadingUnknown ==> r.headingDeg == s.headingDeg
    ensures m.hdg != HeadingUnknown ==> r.headingDeg == m.hdg as real / 100.0 && 0.0 <= r.headingDeg < 655.35
    ensures r.history == s.history && r.statusMessages == s.statusMessages && r.armed == s.armed
    ensures r == s.(lat := r.lat, lon := r.lon, altAmsl := r.altAmsl, altRel := r.altRel,
                    vx := r.vx, vy := r.vy, vz := r.vz, headingDeg := r.headingDeg)
  {
    var s1 := s.(lat := m.lat as real / 10000000.0, lon := m.lon as real / 10000000.0,
                 altAmsl := m.alt as real / 1000.0, altRel := m.relativeAlt as real / 1000.0,
                 vx := m.vx as real, vy := m.vy as real, vz := m.vz as real);
    if m.hdg != HeadingUnknown then s1.(headingDeg := m.hdg as real / 100.0) else s1
  }

  /**
   The non-trigonometric part of `_compute_wind`: with `tanP = tan(|pitch|)`
   and `sqrtTanP = sqrt(tanP)`, `max(0, a·tanP + b·sqrtTanP)` when `tanP > 0`,
   and 0 otherwise (`sqrt` is not evaluated then).
   */
  function WindSpeed(a: real, b: real, tanP: real, sqrt: real -> real): (w: real)
    ensures w >= 0.0
    ensures tanP <= 0.0 ==> w == 0.0
    ensures tanP > 0.0 ==> w >= a * tanP + b * sqrt(tanP)
    ensures tanP > 0.0 && a * tanP + b * sqrt(tanP) >= 0.0 ==> w == a * tanP + b * sqrt(tanP)
    ensures tanP > 0.0 && a * tanP + b * sqrt(tanP) < 0.0 ==> w == 0.0
  {
    if tanP > 0.0 then MaxReal(0.0, a * tanP + b * sqrt(tanP)) else 0.0
  }

  /**
   With non-negative coefficients and a non-decreasing square root, a larger
   tangent never gives a smaller wind speed.
   */
  lemma WindSpeedMonotone(a: real, b: real, t1: real, t2: real, sqrt: real -> real)
    requires a >= 0.0 && b >= 0.0
    requires 0.0 <= t1 <= t2
    requires t1 > 0.0 ==> 0.0 <= sqrt(t1) <= sqrt(t2)
    ensures WindSpeed(a, b, t1, sqrt) <= WindSpeed(a, b, t2, sqrt)
  {
    if t1 > 0.0 {
      var s1, s2 := sqrt(t1), sqrt(t2);
      var u1 := a * t1 + b * s1;
      var u2 := a * t2 + b * s2;
      LinMono(a, b, t1, t2, s1, s2);
      assert WindSpeed(a, b, t1, sqrt) == MaxReal(0.0, u1);
      assert WindSpeed(a, b, t2, sqrt) == MaxReal(0.0, u2);
    }
  }

  /** A combination with non-negative weights keeps the order of its arguments. */
  lemma LinMono(a: real, b: real, x1: real, x2: real, y1: real, y2: real)
    requires a >= 0.0 && b >= 0.0 && x1 <= x2 && y1 <= y2
    ensures a * x1 + b * y1 <= a * x2 + b * y2
  {
    assert a * x2 - a * x1 == a * (x2 - x1);
    assert b * y2 - b * y1 == b * (y2 - y1);
  }

  /** `_compute_wind()`: speed from pitch, direction from yaw, updraft from the down velocity. */
  function ComputeWind(s: VS.State, a: real, b: real, maths: Maths): (r: VS.State)
    ensures r.windSpeed == WindSpeed(a, b, maths.tan(AbsReal(s.pitch)), maths.sqrt)
    ensures r.windDirection == s.yaw
    ensures r.verticalWind == -s.vz / 100.0
    ensures r == s.(windSpeed := r.windSpeed, windDirection := r.windDirection, verticalWind := r.verticalWind)
  {
    var tanP := maths.tan(AbsReal(s.pitch));
    s.(windSpeed := WindSpeed(a, b, tanP, maths.sqrt),
       windDirection := s.yaw,
       verticalWind := -s.vz / 100.0)
  }

  /** `_on_attitude`: store the angles, then recompute wind from them. */
  function OnAttitude(c: Client, m: Msg, maths: Maths): (r: VS.State)
    requires m.Attitude?
    ensures r.roll == m.roll && r.pitch == m.pitch && r.yaw == m.yaw
    ensures r.windDirection == m.yaw && r.windSpeed >= 0.0
    ensures r.verticalWind == -c.state.vz / 100.0
    ensures r.history == c.state.history && r.altRel == c.state.altRel && r.altAmsl == c.state.altAmsl
    ensures r == c.state.(roll := r.roll, pitch := r.pitch, yaw := r.yaw, windSpeed := r.windSpeed,
                          windDirection := r.windDirection, verticalWind := r.verticalWind)
  {
    ComputeWind(c.state.(roll := m.roll, pitch := m.pitch, yaw := m.yaw), c.wsA, c.wsB, maths)
  }

  /**
   `_on_vfr_hud`: speeds, heading, throttle and the AMSL altitude; the
   relative altitude is never touched by this message.
   */
  function OnVfrHud(s: VS.State, m: Msg): (r: VS.State)
    requires m.VfrHud?
    ensures r.airspeed == m.airspeed && r.groundspeed == m.groundspeed
    ensures r.headingDeg == m.hudHeading as real && r.throttle == m.throttle
    ensures r.altAmsl == m.hudAlt
    ensures r.altRel == s.altRel
    ensures r.lat == s.lat && r.lon == s.lon && r.history == s.history
    ensures r == s.(airspeed := r.airspeed, groundspeed := r.groundspeed, headingDeg := r.headingDeg,
                    throttle := r.throttle, altAmsl := r.altAmsl)
  {
    s.(airspeed := m.airspeed, groundspeed := m.groundspeed,
       headingDeg := m.hudHeading as real, throttle := m.throttle, altAmsl := m.hudAlt)
  }

  /** `_on_sys_status`: unavailable (non-positive voltage, negative current or charge) reads as 0. */
  function OnSysStatus(s: VS.State, m: Msg): (r: VS.State)
    requires m.SysStatus?
    ensures r.voltage >= 0.0 && r.current >= 0.0 && 0 <= r.batteryPct < 128
    ensures m.voltageBattery > 0 ==> r.voltage == m.voltageBattery as real / 1000.0
    ensures m.voltageBattery <= 0 ==> r.voltage == 0.0
    ensures m.currentBattery >= 0 ==> r.current == m.currentBattery as real
    ensures m.currentBattery < 0 ==> r.current == 0.0
    ensures m.batteryRemaining >= 0 ==> r.batteryPct == m.batteryRemaining
    ensures m.batteryRemaining < 0 ==> r.batteryPct == 0
    ensures r.history == s.history && r.hdop == s.hdop
    ensures r == s.(voltage := r.voltage, current := r.current, batteryPct := r.batteryPct)
  {
    s.(voltage := if m.voltageBattery > 0 then m.voltageBattery as real / 1000.0 else 0.0,
       current := if m.currentBattery >= 0 then m.currentBattery as real else 0.0,
       batteryPct := if m.batteryRemaining >= 0 then m.batteryRemaining else 0)
  }

  /** Sentinel from which `eph` counts as unknown. */
  const EphUnknown: int := 9999

  /** `_on_gps_raw_int`: HDOP is `eph/100` for `0 < eph < 9999`, and 99.99 otherwise (including `eph = 0`). */
  function OnGpsRawInt(s: VS.State, m: Msg): (r: VS.State)
    requires m.GpsRawInt?
    ensures r.fixType == m.fixType && r.satellites == m.satellitesVisible
    ensures 0 < m.eph < EphUnknown ==> r.hdop == m.eph as real / 100.0
    ensures m.eph == 0 || m.eph >= EphUnknown ==> r.hdop == VS.UnknownHdop
    ensures 0.0 < r.hdop <= VS.UnknownHdop
    ensures r.history == s.history
    ensures r == s.(fixType := r.fixType, satellites := r.satellites, hdop := r.hdop)
  {
    s.(fixType := m.fixType, satellites := m.satellitesVisible,
       hdop := if m.eph != 0 && m.eph < EphUnknown then m.eph as real / 100.0 else VS.UnknownHdop)
  }

  /** `_on_rc_channels`: an rssi of 255 ("unknown") leaves the percentage; 0–254 rescales to 0–100. */
  function OnRcChannels(s: VS.State, m: Msg): (r: VS.State)
    requires m.RcChannels?
    ensures m.rssi == 255 ==> r == s
    ensures m.rssi < 255 ==> r == s.(rssiPercent := r.rssiPercent)
    ensures m.rssi < 255 ==> 0 <= r.rssiPercent <= 100
    ensures m.rssi < 255 ==> r.rssiPercent * 254 <= m.rssi * 100 < (r.rssiPercent + 1) * 254
  {
    if m.rssi < 255 then s.(rssiPercent := (m.rssi * 100) / 254) else s
  }

  /** `SEVERITY_NAMES.get(severity, "UNKNOWN")`. */
  function SeverityName(severity: int): string
  {
    match severity
    case 0 => "EMERGENCY"
    case 1 => "ALERT"
    case 2 => "CRITICAL"
    case 3 => "ERROR"
    case 4 => "WARNING"
    case 5 => "NOTICE"
    case 6 => "INFO"
    case 7 => "DEBUG"
    case _ => "UNKNOWN"
  }

  /** Append to the status log, then keep only the newest `StatusLogCap` entries. */
  function AppendCapped(log: seq<VS.StatusMessage>, sm: VS.StatusMessage): (r: seq<VS.StatusMessage>)
    ensures |r| == Min(|log| + 1, StatusLogCap) || (|log| >= StatusLogCap && |r| == StatusLogCap)
    ensures |r| <= StatusLogCap && |r| >= 1 && r[|r| - 1] == sm
    ensures var all := log + [sm]; r == all[|all| - |r|..]
  {
    var all := log + [sm];
    if |all| > StatusLogCap then all[|all| - StatusLogCap..] else all
  }

  /** `_on_statustext`: log the message with its severity name and wall-clock time. */
  function OnStatusText(s: VS.State, m: Msg, wallClock: real): (r: VS.State)
    requires m.StatusText?
    ensures 1 <= |r.statusMessages| <= StatusLogCap
    ensures r.statusMessages[|r.statusMessages| - 1] ==
            VS.StatusMessage(m.severity, SeverityName(m.severity), m.text, wallClock)
    ensures r == s.(statusMessages := r.statusMessages)
    ensures r.statusMessages == LastN(s.statusMessages + [VS.StatusMessage(m.severity, SeverityName(m.severity), m.text, wallClock)], StatusLogCap)
  {
    var sm := VS.StatusMessage(m.severity, SeverityName(m.severity), m.text, wallClock);
    CappedIsLastN(s.statusMessages, sm);
    s.(statusMessages := AppendCapped(s.statusMessages, sm))
  }

  /** The log after a run of status messages: the newest entries, in arrival order, at most 200. */
  function AppendAllCapped(log: seq<VS.StatusMessage>, sms: seq<VS.StatusMessage>): seq<VS.StatusMessage>
    decreases |sms|
  {
    if |sms| == 0 then log else AppendAllCapped(AppendCapped(log, sms[0]), sms[1..])
  }

  function LastN<T>(s: seq<T>, n: nat): (r: seq<T>)
    ensures |r| == Min(|s|, n)
  {
    if |s| <= n then s else s[|s| - n..]
  }

  /** However many messages arrive, the log holds exactly the most recent ones, in order. */
  lemma {:induction false} StatusLogKeepsNewest(log: seq<VS.StatusMessage>, sms: seq<VS.StatusMessage>)
    requires |log| <= StatusLogCap
    ensures AppendAllCapped(log, sms) == LastN(log + sms, StatusLogCap)
    decreases |sms|
  {
    if |sms| > 0 {
      var next := AppendCapped(log, sms[0]);
      CappedIsLastN(log, sms[0]);
      StatusLogKeepsNewest(next, sms[1..]);
      LastNStep(log, sms, StatusLogCap);
    }
  }

  /** Trimming after the first of several appended elements changes nothing about the newest `n`. */
  lemma LastNStep<T>(log: seq<T>, xs: seq<T>, n: nat)
    requires |xs| > 0
    ensures LastN(LastN(log + [xs[0]], n) + xs[1..], n) == LastN(log + xs, n)
  {
    LastNOfAppend(log + [xs[0]], xs[1..], n);
    assert log + [xs[0]] + xs[1..] == log + xs;
  }

  /** One capped append keeps the newest `StatusLogCap` entries. */
  lemma CappedIsLastN(log: seq<VS.StatusMessage>, sm: VS.StatusMessage)
    ensures AppendCapped(log, sm) == LastN(log + [sm], StatusLogCap)
  {
  }

  /** The last `m` elements of `x + b`, when they reach back into `x`. */
  lemma SuffixAppend<T>(x: seq<T>, b: seq<T>, m: nat)
    requires |b| <= m <= |x| + |b|
    ensures (x + b)[|x| + |b| - m..] == x[|x| + |b| - m..] + b
  {
  }

  /** The last `m` elements of `x + b`, when `b` alone supplies them. */
  lemma SuffixWithin<T>(x: seq<T>, b: seq<T>, m: nat)
    requires m <= |b|
    ensures (x + b)[|x| + |b| - m..] == b[|b| - m..]
  {
  }

  /** Trimming early and trimming late agree. */
  lemma LastNOfAppend<T>(a: seq<T>, b: seq<T>, n: nat)
    ensures LastN(LastN(a, n) + b, n) == LastN(a + b, n)
  {
    if |a| > n {
      var t := a[|a| - n..];
      if |b| >= n {
        SuffixWithin(t, b, n);
        SuffixWithin(a, b, n);
      } else {
        SuffixAppend(t, b, n);
        SuffixAppend(a, b, n);
        assert t[|b|..] == a[|a| + |b| - n..];
      }
    }
  }

  /** `_on_servo_output_raw`: the eight servo outputs. */
  function OnServoOutputRaw(s: VS.State, m: Msg): (r: VS.State)
    requires m.ServoOutputRaw?
    ensures |r.servoRaw| == 8
    ensures forall i :: 0 <= i < 8 ==> r.servoRaw[i] == m.servos[i]
    ensures r == s.(servoRaw := r.servoRaw)
  {
    s.(servoRaw := m.servos)
  }

  /** `_on_adsb_vehicle`: upsert the target keyed by its ICAO address, with units converted. */
  function OnAdsbVehicle(s: VS.State, m: Msg, now: real): (r: VS.State)
    requires m.AdsbVehicle?
    ensures r.adsbTargets.Keys == s.adsbTargets.Keys + {m.icaoAddress}
    ensures forall k :: k in s.adsbTargets && k != m.icaoAddress ==> r.adsbTargets[k] == s.adsbTargets[k]
    ensures var t := r.adsbTargets[m.icaoAddress];
      && t.icao == m.icaoAddress && t.lastSeen == now
      && t.callsign == Text.RStrip(m.callsign, '\0')
      && t.lat == m.lat as real / 10000000.0
      && t.lon == m.lon as real / 10000000.0
      && t.altM == m.altitude as real / 1000.0
      && t.heading == m.headingCdeg as real / 100.0
      && t.speedMs == m.horVelocity as real / 100.0
    ensures r == s.(adsbTargets := r.adsbTargets)
  {
    var t := VS.ADSBTarget(m.icaoAddress, Text.RStrip(m.callsign, '\0'),
                           m.lat as real / 10000000.0, m.lon as real / 10000000.0,
                           m.altitude as real / 1000.0, m.headingCdeg as real / 100.0,
                           m.horVelocity as real / 100.0, now);
    s.(adsbTargets := s.adsbTargets[t.icao := t])
  }

  function Sum(xs: seq<real>): real
  {
    if |xs| == 0 then 0.0 else xs[0] + Sum(xs[1..])
  }

  lemma {:induction false} SumPositive(xs: seq<real>)
    requires forall i :: 0 <= i < |xs| ==> xs[i] > 0.0
    ensures |xs| > 0 ==> Sum(xs) > 0.0
    ensures Sum(xs) >= 0.0
  {
    if |xs| > 0 {
      SumPositive(xs[1..]);
    }
  }

  /** `sum(xs) / len(xs)` for a non-empty list. */
  function Mean(xs: seq<real>): real
    requires |xs| > 0
  {
    Sum(xs) / |xs| as real
  }

  /** The readings kept from a sensor frame: the positive ones among `values[:4]`, in order. */
  function PositiveReadings(values: seq<real>): (r: seq<real>)
    ensures |r| <= 4
    ensures forall i :: 0 <= i < |r| ==> r[i] > 0.0
    ensures forall v :: v in r <==> v in values[..Min(4, |values|)] && v > 0.0
    ensures forall v :: multiset(r)[v] == if v > 0.0 then multiset(values[..Min(4, |values|)])[v] else 0
  {
    Positive(values[..Min(4, |values|)])
  }

  function Positive(xs: seq<real>): (r: seq<real>)
    ensures |r| <= |xs|
    ensures forall i :: 0 <= i < |r| ==> r[i] > 0.0
    ensures forall v :: v in r <==> v in xs && v > 0.0
    ensures forall v :: multiset(r)[v] == if v > 0.0 then multiset(xs)[v] else 0
  {
    if |xs| == 0 then []
    else
      assert xs == [xs[0]] + xs[1..];
      if xs[0] > 0.0 then [xs[0]] + Positive(xs[1..])
      else Positive(xs[1..])
  }

  /** Mean temperatures above 100 are taken to be Kelvin and converted; lower ones are used as they are. */
  function CelsiusOf(meanTemp: real): (c: real)
    ensures meanTemp > 100.0 ==> c == meanTemp - 273.15
    ensures meanTemp <= 100.0 ==> c == meanTemp
  {
    if meanTemp > 100.0 then meanTemp - 273.15 else meanTemp
  }

  /** Sub-types of `CASS_SENSOR_RAW.app_datatype` that carry readings. */
  const CassTemperature: int := 0
  const CassHumidity: int := 1

  /** The fused sample appended for a temperature or humidity frame. */
  function FusedSample(s: VS.State, ln: real -> real): VS.Sample
  {
    var tempC := CelsiusOf(s.meanTemp);
    VS.Sample(s.timeSinceBoot, s.lat, s.lon, s.altRel, s.altAmsl,
              tempC, s.meanRh, VS.DewPoint(tempC, s.meanRh, ln),
              s.windSpeed, s.windDirection, s.verticalWind,
              s.temperatureSensors, s.humiditySensors, s.vz)
  }

  /**
   The channel update of a sensor frame: sub-type 0 replaces the temperature
   channels and their mean, sub-type 1 the humidity channels, each only when at
   least one positive reading is among the first four.
   */
  function CassChannels(s: VS.State, dtype: int, values: seq<real>): (r: VS.State)
    ensures var kept := PositiveReadings(values);
      && (dtype == CassTemperature && |kept| > 0 ==>
            r == s.(temperatureSensors := kept, meanTemp := Mean(kept)))
      && (dtype == CassHumidity && |kept| > 0 ==>
            r == s.(humiditySensors := kept, meanRh := Mean(kept)))
      && ((dtype != CassTemperature && dtype != CassHumidity) || |kept| == 0 ==> r == s)
  {
    var kept := PositiveReadings(values);
    if dtype == CassTemperature && |kept| > 0 then
      s.(temperatureSensors := kept, meanTemp := Mean(kept))
    else if dtype == CassHumidity && |kept| > 0 then
      s.(humiditySensors := kept, meanRh := Mean(kept))
    else s
  }

  /** Appending the fused sample of the current state keeps the buffers aligned and makes it the newest row. */
  function AppendFused(s: VS.State, ln: real -> real): (r: VS.State)
    ensures r == s.(history := r.history)
    ensures VS.Aligned(s.history) ==>
      && VS.Aligned(r.history)
      && |r.history.time| == Min(|s.history.time| + 1, VS.MaxHistory)
      && VS.Row(r.history, |r.history.time| - 1) == FusedSample(s, ln)
  {
    var sample := FusedSample(s, ln);
    var h := VS.AppendHistory(s.history, VS.Full(sample));
    if VS.Aligned(s.history) then VS.AppendSample(s.history, sample); s.(history := h) else s.(history := h)
  }

  /**
   `_on_cass_sensor_raw`: the multiplexed sensor frame. A frame missing its
   sub-type or values changes nothing; a non-zero boot time is recorded; the
   channels are updated; and a temperature or humidity frame then appends
   exactly one fused sample to the history, while other sub-types append none.
   */
  function OnCassSensorRaw(s: VS.State, m: Msg, ln: real -> real): (r: VS.State)
    requires m.CassSensorRaw?
    ensures m.appDatatype.None? || m.values.None? ==> r == s
    ensures m.appDatatype.Some? && m.values.Some? ==>
      r == CassFrame(BootTime(s, m.bootMs), m.appDatatype.value, m.values.value, ln)
  {
    if m.appDatatype.None? || m.values.None? then s
    else CassFrame(BootTime(s, m.bootMs), m.appDatatype.value, m.values.value, ln)
  }

  /** `if boot_ms: state.time_since_boot = boot_ms / 1000`, with a missing field read as 0. */
  function BootTime(s: VS.State, bootMs: Option<int>): (r: VS.State)
    ensures bootMs.Some? && bootMs.value != 0 ==> r == s.(timeSinceBoot := bootMs.value as real / 1000.0)
    ensures bootMs.None? || bootMs.value == 0 ==> r == s
  {
    if bootMs.GetOr(0) != 0 then s.(timeSinceBoot := bootMs.value as real / 1000.0) else s
  }

  /** A complete sensor frame: update the channels, then record a sample for sub-types 0 and 1 only. */
  function CassFrame(s: VS.State, dtype: int, values: seq<real>, ln: real -> real): (r: VS.State)
    ensures var s2 := CassChannels(s, dtype, values);
      && (dtype == CassTemperature || dtype == CassHumidity ==> r == AppendFused(s2, ln))
      && (dtype != CassTemperature && dtype != CassHumidity ==> r == s)
  {
    var s2 := CassChannels(s, dtype, values);
    if dtype == CassTemperature || dtype == CassHumidity then AppendFused(s2, ln) else s2
  }

  /** `_on_system_time`: boot time always; UTC time only when it is non-zero. */
  function OnSystemTime(s: VS.State, m: Msg): (r: VS.State)
    requires m.SystemTime?
    ensures r.timeSinceBoot == m.timeBootMs as real / 1000.0
    ensures m.timeUnixUsec != 0 ==> r.utcTime == Some(m.timeUnixUsec as real / 1000000.0)
    ensures m.timeUnixUsec == 0 ==> r.utcTime == s.utcTime
    ensures r == s.(timeSinceBoot := r.timeSinceBoot, utcTime := r.utcTime)
  {
    var s1 := s.(timeSinceBoot := m.timeBootMs as real / 1000.0);
    if m.timeUnixUsec != 0 then s1.(utcTime := Some(m.timeUnixUsec as real / 1000000.0)) else s1
  }

  /** The parameter name as the editor sees it: the wire field with its NUL padding stripped. */
  function NormalizeParamId(raw: string): (name: string)
    ensures Text.IsPrefix(name, raw)
    ensures |name| == 0 || name[|name| - 1] != '\0'
  {
    Text.RStrip(raw, '\0')
  }

  /** `_on_param_value`: forward the normalized parameter to subscribers; the vehicle state is untouched. */
  function OnParamValue(c: Client, m: Msg): (r: Step)
    requires m.ParamValue?
    ensures r.client == c && r.sent == []
    ensures !c.hasBus ==> r.emitted == []
    ensures c.hasBus ==> r.emitted == [Event(EventBus.ParamReceived,
      Param(ParamData(NormalizeParamId(m.paramId), m.paramValue, m.paramType, m.paramIndex, m.paramCount)))]
  {
    var data := ParamData(NormalizeParamId(m.paramId), m.paramValue, m.paramType, m.paramIndex, m.paramCount);
    Step(c, [], if c.hasBus then [Event(EventBus.ParamReceived, Param(data))] else [])
  }

  /** Apply a state-only handler. */
  function WithState(c: Client, s: VS.State): Step
  {
    Step(c.(state := s), [], [])
  }

  /**
   The handlers that only rewrite the vehicle record. Types that are not
   state-only (`HEARTBEAT`, `PARAM_VALUE`), the acknowledgement handler
   (which only logs) and unhandled types leave the record as it is.
   */
  function StateUpdate(c: Client, m: Msg, env: Env): VS.State
  {
    match m
    case GlobalPositionInt(_, _, _, _, _, _, _, _) => OnGlobalPositionInt(c.state, m)
    case Attitude(_, _, _) => OnAttitude(c, m, env.maths)
    case VfrHud(_, _, _, _, _) => OnVfrHud(c.state, m)
    case SysStatus(_, _, _) => OnSysStatus(c.state, m)
    case GpsRawInt(_, _, _) => OnGpsRawInt(c.state, m)
    case RcChannels(_) => OnRcChannels(c.state, m)
    case StatusText(_, _) => OnStatusText(c.state, m, env.wallClock)
    case ServoOutputRaw(_) => OnServoOutputRaw(c.state, m)
    case AdsbVehicle(_, _, _, _, _, _, _) => OnAdsbVehicle(c.state, m, env.monotonic)
    case CassSensorRaw(_, _, _) => OnCassSensorRaw(c.state, m, env.maths.ln)
    case SystemTime(_, _) => OnSystemTime(c.state, m)
    case _ => c.state
  }

  /** `handler(self, msg)` for the handler `_MSG_HANDLERS` holds for the message's type. */
  function Dispatch(c: Client, m: Msg, env: Env): (r: Step)
    ensures !m.Heartbeat? && !m.ParamValue? ==> r == Step(c.(state := StateUpdate(c, m, env)), [], [])
  {
    match m
    case Heartbeat(_, _, _, _, _, _) => OnHeartbeat(c, m, env)
    case ParamValue(_, _, _, _, _) => OnParamValue(c, m)
    case _ => Step(c.(state := StateUpdate(c, m, env)), [], [])
  }

  /** A heartbeat from the vehicle rather than from another ground station. */
  predicate IsVehicleHeartbeat(m: Msg)
  {
    m.Heartbeat? && m.mavType != MavTypeGcs
  }

  /** The fields of a client that message handling never touches. */
  predicate SameConnection(a: Client, b: Client)
  {
    && a.connected == b.connected && a.running == b.running && a.hasBus == b.hasBus
    && a.connStr == b.connStr && a.streamRateHz == b.streamRateHz
    && a.connectTime == b.connectTime && a.lastWatchdogLog == b.lastWatchdogLog
    && a.wsA == b.wsA && a.wsB == b.wsB && a.port == b.port && a.bindAddress == b.bindAddress
  }

  /** `_handle_message`: count the message, stamp the first arrival, then dispatch. */
  function HandleMessage(c: Client, m: Msg, env: Env): (r: Step)
    ensures m.Other? ==> r == Step(c.(msgCount := c.msgCount + 1,
                                      firstMsgTime := if c.firstMsgTime.None? then Some(env.monotonic) else c.firstMsgTime), [], [])
    ensures r.client.msgCount == c.msgCount + 1
    ensures r.client.firstMsgTime.Some?
    ensures c.firstMsgTime.Some? ==> r.client.firstMsgTime == c.firstMsgTime
  {
    Dispatch(Counted(c, env), m, env)
  }

  /** The contract `HandleMessageEffects` states, as a predicate over one step. */
  predicate EffectsHold(c: Client, m: Msg, r: Step)
  {
    && SameConnection(r.client, c)
    && r.client.streamsRequested == (c.streamsRequested || IsVehicleHeartbeat(m))
    && (IsVehicleHeartbeat(m) && !c.streamsRequested && c.connected ==>
          r.sent == [RequestDataStream(if m.srcSystem != 0 then m.srcSystem as int else 1,
                                       if m.srcComponent != 0 then m.srcComponent as int else 1,
                                       MavDataStreamAll, c.streamRateHz, 1)])
    && (!(IsVehicleHeartbeat(m) && !c.streamsRequested && c.connected) ==> r.sent == [])
    && (!m.ParamValue? || !c.hasBus ==> r.emitted == [])
    && (m.ParamValue? && c.hasBus ==> |r.emitted| == 1 && r.emitted[0].eventType == EventBus.ParamReceived)
  }

  /** The step a message produces after counting, by kind of handler. */
  function Counted(c: Client, env: Env): Client
  {
    c.(msgCount := c.msgCount + 1,
       firstMsgTime := if c.firstMsgTime.None? then Some(env.monotonic) else c.firstMsgTime)
  }

  lemma HeartbeatEffects(c: Client, m: Msg, env: Env)
    requires m.Heartbeat?
    ensures EffectsHold(c, m, HandleMessage(c, m, env))
  {
    assert HandleMessage(c, m, env) == OnHeartbeat(Counted(c, env), m, env);
  }

  lemma ParamValueEffects(c: Client, m: Msg, env: Env)
    requires m.ParamValue?
    ensures EffectsHold(c, m, HandleMessage(c, m, env))
  {
    assert HandleMessage(c, m, env) == OnParamValue(Counted(c, env), m);
  }

  lemma StateOnlyEffects(c: Client, m: Msg, env: Env)
    requires !m.Heartbeat? && !m.ParamValue?
    ensures EffectsHold(c, m, HandleMessage(c, m, env))
  {
    var counted := Counted(c, env);
    assert HandleMessage(c, m, env) == Step(counted.(state := StateUpdate(counted, m, env)), [], []);
  }

  /**
   What handling one message can do beyond the vehicle record: the connection
   fields never change; only the first vehicle heartbeat after the latch was
   cleared transmits anything (the stream request, addressed to that vehicle)
   and sets the latch; only a parameter value emits anything.
   */
  lemma HandleMessageEffects(c: Client, m: Msg, env: Env)
    ensures EffectsHold(c, m, HandleMessage(c, m, env))
  {
    if m.Heartbeat? {
      HeartbeatEffects(c, m, env);
    } else if m.ParamValue? {
      ParamValueEffects(c, m, env);
    } else {
      StateOnlyEffects(c, m, env);
    }
  }

  // ------------------------------------------------------------------
  // Liveness
  // ------------------------------------------------------------------

  /** `MAVLinkClient.heartbeat_age()`: None stands for infinity (no heartbeat yet). */
  function ClientHeartbeatAge(c: Client, now: real): (age: Option<real>)
    ensures c.lastHeartbeatTime == 0.0 <==> age.None?
    ensures age.Some? ==> age.value == now - c.lastHeartbeatTime
  {
    VS.HeartbeatAge(c.lastHeartbeatTime, now)
  }

  /** `MAVLinkClient.is_healthy()`. */
  predicate ClientIsHealthy(c: Client, now: real)
  {
    VS.IsHealthy(c.lastHeartbeatTime, now)
  }

  /** `waiting_elapsed()`: seconds since `start()`, or 0 before it. */
  function WaitingElapsed(c: Client, now: real): (e: real)
    ensures c.connectTime.None? ==> e == 0.0
    ensures c.connectTime.Some? ==> e + c.connectTime.value == now
  {
    if c.connectTime.None? then 0.0 else now - c.connectTime.value
  }

  /**
   A vehicle heartbeat received at a non-zero time `t` makes the link healthy
   for exactly the next three seconds, both for the client and for the state.
   */
  lemma HeartbeatMakesHealthy(c: Client, m: Msg, env: Env, now: real)
    requires IsVehicleHeartbeat(m) && env.monotonic != 0.0
    ensures var c2 := HandleMessage(c, m, env).client;
      && (ClientIsHealthy(c2, now) <==> now - env.monotonic < VS.HeartbeatTimeout)
      && (VS.IsHealthy(c2.state.lastHeartbeat, now) <==> now - env.monotonic < VS.HeartbeatTimeout)
  {
    var c2 := HandleMessage(c, m, env).client;
    VS.HealthyMeans(c2.lastHeartbeatTime, now);
    VS.HealthyMeans(c2.state.lastHeartbeat, now);
  }

  /** A heartbeat from another ground station neither refreshes liveness nor changes the vehicle record. */
  lemma GcsHeartbeatIgnored(c: Client, m: Msg, env: Env)
    requires m.Heartbeat? && m.mavType == MavTypeGcs
    ensures var r := HandleMessage(c, m, env);
      && r.client.state == c.state
      && r.client.lastHeartbeatTime == c.lastHeartbeatTime
      && r.client.lastSysid == c.lastSysid
      && r.sent == [] && r.emitted == []
  {
  }

  // ------------------------------------------------------------------
  // Stream-request latch
  // ------------------------------------------------------------------

  /**
   The receive loop's drain: every queued message is handled in arrival
   order. Each is counted, and the first arrival time, once stamped, stays.
   */
  function HandleAll(c: Client, ms: seq<(Msg, Env)>): (r: Step)
    ensures r.client.msgCount == c.msgCount + |ms|
    ensures |ms| > 0 ==> r.client.firstMsgTime.Some?
    ensures c.firstMsgTime.Some? ==> r.client.firstMsgTime == c.firstMsgTime
    ensures |ms| == 0 ==> r == Step(c, [], [])
    decreases |ms|
  {
    if |ms| == 0 then Step(c, [], [])
    else
      var first := HandleMessage(c, ms[0].0, ms[0].1);
      var rest := HandleAll(first.client, ms[1..]);
      Step(rest.client, first.sent + rest.sent, first.emitted + rest.emitted)
  }

  /** A run of messages, like each one, leaves the connection fields alone. */
  lemma {:induction false} HandleAllSameConnection(c: Client, ms: seq<(Msg, Env)>)
    ensures SameConnection(HandleAll(c, ms).client, c)
    decreases |ms|
  {
    if |ms| > 0 {
      var first := HandleMessage(c, ms[0].0, ms[0].1);
      HandleMessageEffects(c, ms[0].0, ms[0].1);
      HandleAllSameConnection(first.client, ms[1..]);
    }
  }

  predicate AnyVehicleHeartbeat(ms: seq<(Msg, Env)>)
  {
    exists i :: 0 <= i < |ms| && IsVehicleHeartbeat(ms[i].0)
  }

  function CountRequests(sent: seq<Outbound>): nat
  {
    if |sent| == 0 then 0
    else (if sent[0].RequestDataStream? then 1 else 0) + CountRequests(sent[1..])
  }

  lemma {:induction false} CountRequestsAppend(a: seq<Outbound>, b: seq<Outbound>)
    ensures CountRequests(a + b) == CountRequests(a) + CountRequests(b)
    decreases |a|
  {
    if |a| > 0 {
      assert (a + b)[0] == a[0];
      assert (a + b)[1..] == a[1..] + b;
      CountRequestsAppend(a[1..], b);
    } else {
      assert a + b == b;
    }
  }

  /**
   Message handling transmits nothing but stream requests, and at most one per
   connection: while connected with the latch clear, a run of messages
   requests streams exactly once if it holds a vehicle heartbeat and never
   otherwise, and leaves the latch set exactly in the first case.
   */
  lemma {:induction false} StreamsRequestedOnce(c: Client, ms: seq<(Msg, Env)>)
    requires c.connected
    ensures var r := HandleAll(c, ms);
      && CountRequests(r.sent) == |r.sent|
      && CountRequests(r.sent) == (if !c.streamsRequested && AnyVehicleHeartbeat(ms) then 1 else 0)
      && r.client.streamsRequested == (c.streamsRequested || AnyVehicleHeartbeat(ms))
      && r.client.connected
    decreases |ms|
  {
    if |ms| > 0 {
      var first := HandleMessage(c, ms[0].0, ms[0].1);
      HandleMessageEffects(c, ms[0].0, ms[0].1);
      StreamsRequestedOnce(first.client, ms[1..]);
      var rest := HandleAll(first.client, ms[1..]);
      CountRequestsAppend(first.sent, rest.sent);
      assert AnyVehicleHeartbeat(ms) <==> IsVehicleHeartbeat(ms[0].0) || AnyVehicleHeartbeat(ms[1..]) by {
        if AnyVehicleHeartbeat(ms[1..]) {
          var i :| 0 <= i < |ms[1..]| && IsVehicleHeartbeat(ms[1..][i].0);
          assert IsVehicleHeartbeat(ms[i + 1].0);
        }
        if AnyVehicleHeartbeat(ms) && !IsVehicleHeartbeat(ms[0].0) {
          var i :| 0 <= i < |ms| && IsVehicleHeartbeat(ms[i].0);
          assert i > 0 && IsVehicleHeartbeat(ms[1..][i - 1].0);
        }
      }
    } else {
      assert !AnyVehicleHeartbeat(ms);
    }
  }

  // ------------------------------------------------------------------
  // The state invariant handling preserves
  // ------------------------------------------------------------------

  predicate AllPositive(xs: seq<real>)
  {
    forall i :: 0 <= i < |xs| ==> xs[i] > 0.0
  }

  /**
   What every handler keeps true of the vehicle record: aligned, bounded
   history; a bounded status log; readings in the ranges the handlers
   normalise to; eight servo outputs; ADS-B targets filed under their own
   address; and only positive sensor channel readings.
   */
  predicate WellFormed(s: VS.State)
  {
    && VS.Aligned(s.history)
    && |s.statusMessages| <= StatusLogCap
    && 0.0 < s.hdop <= VS.UnknownHdop
    && 0 <= s.rssiPercent <= 100
    && s.voltage >= 0.0 && s.current >= 0.0 && s.batteryPct >= 0
    && s.windSpeed >= 0.0
    && |s.servoRaw| == 8
    && (forall k :: k in s.adsbTargets ==> s.adsbTargets[k].icao == k)
    && AllPositive(s.temperatureSensors) && AllPositive(s.humiditySensors)
  }

  lemma ResetWellFormed()
    ensures WellFormed(VS.Reset())
  {
  }

  lemma CassFrameWellFormed(s: VS.State, dtype: int, values: seq<real>, ln: real -> real)
    requires WellFormed(s)
    ensures WellFormed(CassFrame(s, dtype, values, ln))
  {
    var s2 := CassChannels(s, dtype, values);
    assert WellFormed(s2);
    if dtype == CassTemperature || dtype == CassHumidity {
      var r := AppendFused(s2, ln);
      assert r == s2.(history := r.history);
    }
  }

  /** Every state-only handler keeps the vehicle record well formed. */
  lemma StateUpdateWellFormed(c: Client, m: Msg, env: Env)
    requires WellFormed(c.state)
    ensures WellFormed(StateUpdate(c, m, env))
  {
    match m {
      case CassSensorRaw(dt, vs, b) =>
        if dt.Some? && vs.Some? {
          CassFrameWellFormed(BootTime(c.state, b), dt.value, vs.value, env.maths.ln);
        }
      case StatusText(_, _) => LogAndTargetsWellFormed(c, m, env);
      case AdsbVehicle(_, _, _, _, _, _, _) => LogAndTargetsWellFormed(c, m, env);
      case ServoOutputRaw(_) => LogAndTargetsWellFormed(c, m, env);
      case _ => ReadingsWellFormed(c, m, env);
    }
  }

  lemma LogAndTargetsWellFormed(c: Client, m: Msg, env: Env)
    requires m.StatusText? || m.AdsbVehicle? || m.ServoOutputRaw?
    requires WellFormed(c.state)
    ensures WellFormed(StateUpdate(c, m, env))
  {
  }

  lemma ReadingsWellFormed(c: Client, m: Msg, env: Env)
    requires !m.StatusText? && !m.AdsbVehicle? && !m.ServoOutputRaw? && !m.CassSensorRaw?
    requires WellFormed(c.state)
    ensures WellFormed(StateUpdate(c, m, env))
  {
  }

  lemma HeartbeatWellFormed(c: Client, m: Msg, env: Env)
    requires m.Heartbeat? && WellFormed(c.state)
    ensures WellFormed(OnHeartbeat(c, m, env).client.state)
  {
  }

  lemma StateOnlyWellFormed(c: Client, m: Msg, env: Env)
    requires !m.Heartbeat? && !m.ParamValue? && WellFormed(c.state)
    ensures WellFormed(HandleMessage(c, m, env).client.state)
  {
    var counted := Counted(c, env);
    assert HandleMessage(c, m, env).client.state == StateUpdate(counted, m, env);
    StateUpdateWellFormed(counted, m, env);
  }

  /** Every message, of any type, keeps the vehicle record well formed. */
  lemma HandleMessageWellFormed(c: Client, m: Msg, env: Env)
    requires WellFormed(c.state)
    ensures WellFormed(HandleMessage(c, m, env).client.state)
  {
    if m.Heartbeat? {
      assert HandleMessage(c, m, env) == OnHeartbeat(Counted(c, env), m, env);
      HeartbeatWellFormed(Counted(c, env), m, env);
    } else if m.ParamValue? {
      assert HandleMessage(c, m, env).client.state == c.state;
    } else {
      StateOnlyWellFormed(c, m, env);
    }
  }

  lemma {:induction false} HandleAllWellFormed(c: Client, ms: seq<(Msg, Env)>)
    requires WellFormed(c.state)
    ensures WellFormed(HandleAll(c, ms).client.state)
    decreases |ms|
  {
    if |ms| > 0 {
      HandleMessageWellFormed(c, ms[0].0, ms[0].1);
      HandleAllWellFormed(HandleMessage(c, ms[0].0, ms[0].1).client, ms[1..]);
    }
  }

  // ------------------------------------------------------------------
  // Sensor frames
  // ------------------------------------------------------------------

  /**
   What a complete temperature or humidity frame does: the matching channels
   and mean follow the positive readings among the first four (and stay as
   they were when there are none), and the history grows by exactly one fused
   sample. Any other sub-type leaves the history alone.
   */
  lemma CassSensorEffect(s: VS.State, m: Msg, ln: real -> real)
    requires m.CassSensorRaw? && m.appDatatype.Some? && m.values.Some?
    requires VS.Aligned(s.history)
    ensures var r := OnCassSensorRaw(s, m, ln);
      var dtype := m.appDatatype.value;
      var kept := PositiveReadings(m.values.value);
      var grows := dtype == CassTemperature || dtype == CassHumidity;
      && VS.Aligned(r.history)
      && (grows ==> |r.history.time| == Min(|s.history.time| + 1, VS.MaxHistory)
                    && VS.Row(r.history, |r.history.time| - 1) == FusedSample(r, ln))
      && (!grows ==> r.history == s.history)
      && (dtype == CassTemperature && |kept| > 0 ==> r.temperatureSensors == kept && r.meanTemp == Mean(kept))
      && (dtype != CassTemperature || |kept| == 0 ==>
            r.temperatureSensors == s.temperatureSensors && r.meanTemp == s.meanTemp)
      && (dtype == CassHumidity && |kept| > 0 ==> r.humiditySensors == kept && r.meanRh == Mean(kept))
      && (dtype != CassHumidity || |kept| == 0 ==>
            r.humiditySensors == s.humiditySensors && r.meanRh == s.meanRh)
  {
    var s1 := BootTime(s, m.bootMs);
    var s2 := CassChannels(s1, m.appDatatype.value, m.values.value);
    assert s2.history == s.history;
    var r := OnCassSensorRaw(s, m, ln);
    if m.appDatatype.value == CassTemperature || m.appDatatype.value == CassHumidity {
      assert r == AppendFused(s2, ln);
      assert FusedSample(r, ln) == FusedSample(s2, ln);
    }
  }

  /**
   A temperature frame reading [300, 301, 0, -5]: the two positive channels
   are kept, their mean 300.5 is taken for Kelvin, and the sample appended to
   the empty history records 27.35 degrees Celsius.
   */
  lemma KelvinFrameExample(ln: real -> real)
    ensures var m := CassSensorRaw(Some(0), Some([300.0, 301.0, 0.0, -5.0]), Some(1000));
      var r := OnCassSensorRaw(VS.Reset(), m, ln);
      && r.temperatureSensors == [300.0, 301.0]
      && r.meanTemp == 300.5
      && r.timeSinceBoot == 1.0
      && |r.history.time| == 1
      && r.history.temperature == [27.35]
  {
    var values := [300.0, 301.0, 0.0, -5.0];
    assert values[..4] == values;
    assert Positive(values) == [300.0, 301.0] by {
      assert values[1..] == [301.0, 0.0, -5.0];
      assert values[1..][1..] == [0.0, -5.0];
      assert values[1..][1..][1..] == [-5.0];
    }
    assert Sum([300.0, 301.0]) == 601.0 by {
      assert [300.0, 301.0][1..] == [301.0];
      assert [301.0][1..] == [];
    }
    var m := CassSensorRaw(Some(0), Some(values), Some(1000));
    CassSensorEffect(VS.Reset(), m, ln);
  }

  /**
   The relative altitude comes only from `GLOBAL_POSITION_INT`: a later
   `VFR_HUD` updates the AMSL altitude and leaves it alone.
   */
  lemma VfrHudKeepsRelativeAltitude(c: Client, env: Env)
    ensures var gpi := GlobalPositionInt(0, 0, 0, 50000, 0, 0, 0, HeadingUnknown);
      var vfr := VfrHud(0.0, 0.0, 0, 0, 120.0);
      var c2 := HandleMessage(HandleMessage(c, gpi, env).client, vfr, env).client;
      c2.state.altRel == 50.0 && c2.state.altAmsl == 120.0
  {
  }
}

=== FILE: mavlink_messages.dfy ===
/**
 The subset of MAVLink messages the ground station consumes and sends
 (gcs/mavlink_client.py). Integer fields carry their wire width as a subset
 type, which is the range of values pymavlink can hand to a handler.
 */
module MavlinkMessages {
  import opened Common

  type uint8 = x: int | 0 <= x < 0x100
  type int8 = x: int | -0x80 <= x < 0x80
  type uint16 = x: int | 0 <= x < 0x1_0000
  type int16 = x: int | -0x8000 <= x < 0x8000
  type uint32 = x: int | 0 <= x < 0x1_0000_0000
  type int32 = x: int | -0x8000_0000 <= x < 0x8000_0000
  type uint64 = x: int | 0 <= x < 0x1_0000_0000_0000_0000
  type byte = uint8

  /** `SERVO_OUTPUT_RAW` carries eight servo outputs. */
  type Servo8 = s: seq<uint16> | |s| == 8 witness [0, 0, 0, 0, 0, 0, 0, 0]

  const MavTypeGcs: uint8 := 6
  const MavAutopilotInvalid: uint8 := 8
  const MavStateActive: uint8 := 4
  const MavModeFlagSafetyArmed: uint8 := 128
  const MavParamTypeReal32: uint8 := 9
  const MavCmdComponentArmDisarm: uint16 := 400
  const MavCmdNavTakeoff: uint16 := 22
  const MavDataStreamAll: uint8 := 0

  /** The station's own identity on the link. */
  const GcsSysid: uint8 := 255
  const GcsCompid: uint8 := 190

  /** An inbound message, already decoded by the transport. */
  datatype Msg =
    | Heartbeat(mavType: uint8, autopilot: uint8, baseMode: uint8, systemStatus: uint8,
                srcSystem: uint8, srcComponent: uint8)
    | GlobalPositionInt(lat: int32, lon: int32, alt: int32, relativeAlt: int32,
                        vx: int16, vy: int16, vz: int16, hdg: uint16)
    | Attitude(roll: real, pitch: real, yaw: real)
    | VfrHud(airspeed: real, groundspeed: real, hudHeading: int16, throttle: uint16, hudAlt: real)
    | SysStatus(voltageBattery: uint16, currentBattery: int16, batteryRemaining: int8)
    | GpsRawInt(fixType: uint8, satellitesVisible: uint8, eph: uint16)
    | RcChannels(rssi: uint8)
    | StatusText(severity: uint8, text: string)
    | CommandAck(command: uint16, result: uint8)
    | ServoOutputRaw(servos: Servo8)
    | AdsbVehicle(icaoAddress: uint32, callsign: string, lat: int32, lon: int32,
                  altitude: int32, headingCdeg: uint16, horVelocity: uint16)
      /** `getattr(msg, name, default)` may find any of these missing. */
    | CassSensorRaw(appDatatype: Option<int>, values: Option<seq<real>>, bootMs: Option<int>)
    | SystemTime(timeBootMs: uint32, timeUnixUsec: uint64)
    | ParamValue(paramId: string, paramValue: real, paramType: uint8,
                 paramCount: uint16, paramIndex: uint16)
      /** Any message type without a handler. */
    | Other(typeName: string)

  /** `msg.get_type()`. */
  function TypeName(m: Msg): string
  {
    match m
    case Heartbeat(_, _, _, _, _, _) => "HEARTBEAT"
    case GlobalPositionInt(_, _, _, _, _, _, _, _) => "GLOBAL_POSITION_INT"
    case Attitude(_, _, _) => "ATTITUDE"
    case VfrHud(_, _, _, _, _) => "VFR_HUD"
    case SysStatus(_, _, _) => "SYS_STATUS"
    case GpsRawInt(_, _, _) => "GPS_RAW_INT"
    case RcChannels(_) => "RC_CHANNELS"
    case StatusText(_, _) => "STATUSTEXT"
    case CommandAck(_, _) => "COMMAND_ACK"
    case ServoOutputRaw(_) => "SERVO_OUTPUT_RAW"
    case AdsbVehicle(_, _, _, _, _, _, _) => "ADSB_VEHICLE"
    case CassSensorRaw(_, _, _) => "CASS_SENSOR_RAW"
    case SystemTime(_, _) => "SYSTEM_TIME"
    case ParamValue(_, _, _, _, _) => "PARAM_VALUE"
    case Other(name) => name
  }

  /** The keys of `_MSG_HANDLERS`. */
  const HandledTypes: set<string> := {
    "HEARTBEAT", "GLOBAL_POSITION_INT", "ATTITUDE", "VFR_HUD", "SYS_STATUS",
    "GPS_RAW_INT", "RC_CHANNELS", "STATUSTEXT", "COMMAND_ACK", "SERVO_OUTPUT_RAW",
    "ADSB_VEHICLE", "CASS_SENSOR_RAW", "SYSTEM_TIME", "PARAM_VALUE"
  }

  /** A decoded message is `Other` exactly when its type has no entry in the table. */
  predicate WellTagged(m: Msg)
  {
    m.Other? ==> m.typeName !in HandledTypes
  }

  /** The variant-based dispatch agrees with the table lookup by type name. */
  lemma TypeNameHandled(m: Msg)
    requires WellTagged(m)
    ensures TypeName(m) in HandledTypes <==> !m.Other?
  {
  }

  /** An outbound message, as handed to the transport's `*_send` call. */
  datatype Outbound =
    | GcsHeartbeat(mavType: uint8, autopilot: uint8, baseMode: int, customMode: int, systemStatus: uint8)
    | RequestDataStream(targetSystem: int, targetComponent: int, streamId: int, rateHz: int, startStop: int)
    | CommandLong(targetSystem: int, targetComponent: int, command: int, confirmation: int,
                  params: seq<real>)
    | ParamSet(targetSystem: int, targetComponent: int, paramId: seq<byte>, value: real, paramType: int)
    | ParamRequestList(targetSystem: int, targetComponent: int)
    | RcChannelsOverride(targetSystem: int, targetComponent: int, channels: seq<int>)
    | SetModeRequest(modeId: int)

  /** The heartbeat the station transmits about itself. */
  const OwnHeartbeat: Outbound :=
    GcsHeartbeat(MavTypeGcs, MavAutopilotInvalid, 0, 0, MavStateActive)
}

=== FILE: ordered_map.dfy ===
/**
 Python's insertion-ordered dictionaries (`dict`, `collections.OrderedDict`)
 as a sequence of entries with distinct keys, oldest first. Assigning to an
 existing key keeps its position; `move_to_end` and `popitem(last=False)`
 are the two operations an LRU needs.
 */
module OrderedMap {
  import opened Common

  type Entries<K, V> = seq<(K, V)>

  predicate DistinctKeys<K(==), V>(e: Entries<K, V>)
  {
    forall i, j :: 0 <= i < j < |e| ==> e[i].0 != e[j].0
  }

  function Keys<K, V>(e: Entries<K, V>): set<K>
  {
    set i | 0 <= i < |e| :: e[i].0
  }

  /** The position of key `k`, if present. */
  function Find<K(==), V>(e: Entries<K, V>, k: K): (r: Option<nat>)
    ensures r.Some? ==> r.value < |e| && e[r.value].0 == k
    ensures r.Some? ==> forall j :: 0 <= j < r.value ==> e[j].0 != k
    ensures r.None? ==> forall j :: 0 <= j < |e| ==> e[j].0 != k
    ensures r.Some? <==> k in Keys(e)
  {
    if |e| == 0 then None
    else if e[0].0 == k then Some(0)
    else
      match Find(e[1..], k)
      case None => None
      case Some(i) => Some(i + 1)
  }

  /** `d.get(k)`. */
  function Get<K(==), V>(e: Entries<K, V>, k: K): (r: Option<V>)
    ensures r.Some? <==> k in Keys(e)
    ensures DistinctKeys(e) ==> forall i :: 0 <= i < |e| && e[i].0 == k ==> r == Some(e[i].1)
  {
    match Find(e, k)
    case None => None
    case Some(i) => Some(e[i].1)
  }

  lemma KeysAppend<K, V>(e: Entries<K, V>, x: (K, V))
    ensures Keys(e + [x]) == Keys(e) + {x.0}
  {
    var r := e + [x];
    assert forall j :: 0 <= j < |e| ==> r[j] == e[j];
    assert r[|e|] == x;
  }

  /** Lookup only depends on the sequence of keys. */
  lemma {:induction false} FindSameKeys<K, V>(a: Entries<K, V>, b: Entries<K, V>, k: K)
    requires |a| == |b| && forall j :: 0 <= j < |a| ==> a[j].0 == b[j].0
    ensures Find(a, k) == Find(b, k)
    decreases |a|
  {
    if |a| > 0 {
      FindSameKeys(a[1..], b[1..], k);
    }
  }

  /** `d[k] = v`: an existing key is updated in place, a new one goes to the end. */
  function Put<K(==), V>(e: Entries<K, V>, k: K, v: V): (r: Entries<K, V>)
    requires DistinctKeys(e)
    ensures DistinctKeys(r)
    ensures Keys(r) == Keys(e) + {k}
    ensures Get(r, k) == Some(v)
    ensures forall j :: j in Keys(e) && j != k ==> Get(r, j) == Get(e, j)
    ensures k in Keys(e) ==> |r| == |e| && Find(r, k) == Find(e, k)
    ensures k !in Keys(e) ==> r == e + [(k, v)]
    ensures forall i :: 0 <= i < |r| ==> r[i] == (k, v) || (i < |e| && r[i] == e[i] && e[i].0 != k)
  {
    match Find(e, k)
    case None =>
      KeysAppend(e, (k, v));
      var r := e + [(k, v)];
      assert r[|e|] == (k, v);
      r
    case Some(i) =>
      var r := e[i := (k, v)];
      assert Keys(r) == Keys(e) by {
        assert forall j :: 0 <= j < |r| ==> r[j].0 == e[j].0;
      }
      FindSameKeys(r, e, k);
      forall j | j in Keys(e) && j != k ensures Get(r, j) == Get(e, j) {
        FindSameKeys(r, e, j);
      }
      r
  }

  /** The entries without the one at position `i`. */
  function RemoveAt<K, V>(e: Entries<K, V>, i: nat): (r: Entries<K, V>)
    requires i < |e|
    ensures |r| == |e| - 1
    ensures forall j :: 0 <= j < |r| ==> r[j] == (if j < i then e[j] else e[j + 1])
  {
    e[..i] + e[i + 1..]
  }

  lemma RemoveAtKeys<K, V>(e: Entries<K, V>, i: nat)
    requires i < |e| && DistinctKeys(e)
    ensures DistinctKeys(RemoveAt(e, i)) && Keys(RemoveAt(e, i)) == Keys(e) - {e[i].0}
  {
    var r := RemoveAt(e, i);
    forall x | x in Keys(e) - {e[i].0} ensures x in Keys(r) {
      var j :| 0 <= j < |e| && e[j].0 == x;
      if j < i { assert r[j].0 == x; } else { assert r[j - 1].0 == x; }
    }
  }

  lemma RemoveAtGet<K, V>(e: Entries<K, V>, i: nat, j: K)
    requires i < |e| && DistinctKeys(e) && j in Keys(e) && j != e[i].0
    ensures Get(RemoveAt(e, i), j) == Get(e, j)
  {
    RemoveAtKeys(e, i);
    var r := RemoveAt(e, i);
    var a :| 0 <= a < |e| && e[a].0 == j;
    if a < i { assert r[a] == e[a]; } else { assert r[a - 1] == e[a]; }
  }

  /** `del d[k]` (or `d.pop(k, None)`): the other entries keep their order. */
  function Remove<K(==), V>(e: Entries<K, V>, k: K): (r: Entries<K, V>)
    requires DistinctKeys(e)
    ensures k !in Keys(e) ==> r == e
    ensures k in Keys(e) ==> |r| == |e| - 1
    ensures DistinctKeys(r) && Keys(r) == Keys(e) - {k}
    ensures forall j :: j in Keys(e) && j != k ==> Get(r, j) == Get(e, j)
    ensures forall i :: 0 <= i < |r| ==> r[i] in e
    ensures k in Keys(e) ==>
      forall j :: 0 <= j < |r| ==> r[j] == (if j < Find(e, k).value then e[j] else e[j + 1])
  {
    match Find(e, k)
    case None => e
    case Some(i) =>
      RemoveAtKeys(e, i);
      forall j | j in Keys(e) && j != k ensures Get(RemoveAt(e, i), j) == Get(e, j) {
        RemoveAtGet(e, i, j);
      }
      RemoveAt(e, i)
  }

  /** `d.move_to_end(k)`: the entry becomes the newest; every lookup is unchanged. */
  function MoveToEnd<K(==), V>(e: Entries<K, V>, k: K): (r: Entries<K, V>)
    requires DistinctKeys(e)
    ensures k !in Keys(e) ==> r == e
    ensures k in Keys(e) ==> |r| == |e| && r[|r| - 1].0 == k && r[..|r| - 1] == Remove(e, k)
    ensures DistinctKeys(r) && Keys(r) == Keys(e)
    ensures forall j :: j in Keys(e) ==> Get(r, j) == Get(e, j)
  {
    match Find(e, k)
    case None => e
    case Some(i) =>
      var rest := Remove(e, k);
      var r := rest + [e[i]];
      assert r[..|r| - 1] == rest;
      KeysAppend(rest, e[i]);
      assert DistinctKeys(r) by {
        forall a, b | 0 <= a < b < |r| ensures r[a].0 != r[b].0 {
          if b == |r| - 1 {
            assert r[a] == rest[a];
            assert rest[a].0 in Keys(rest);
          }
        }
      }
      forall j | j in Keys(e) ensures Get(r, j) == Get(e, j) {
        if j == k {
          assert r[|r| - 1] == e[i];
        } else if j in Keys(rest) {
          var a :| 0 <= a < |rest| && rest[a].0 == j;
          assert r[a] == rest[a];
        }
      }
      r
  }

  /** `d.popitem(last=False)`: the oldest entry and the rest. */
  function PopFront<K(==), V>(e: Entries<K, V>): (r: ((K, V), Entries<K, V>))
    requires |e| > 0 && DistinctKeys(e)
    ensures r.0 == e[0] && r.1 == e[1..]
    ensures DistinctKeys(r.1) && Keys(r.1) == Keys(e) - {e[0].0}
  {
    assert e[1..] == RemoveAt(e, 0);
    RemoveAtKeys(e, 0);
    (e[0], e[1..])
  }

  /** Keys are distinct, so the number of entries is the number of keys. */
  lemma {:induction false} SizeIsKeyCount<K, V>(e: Entries<K, V>)
    requires DistinctKeys(e)
    ensures |Keys(e)| == |e|
    decreases |e|
  {
    if |e| > 0 {
      var rest := e[..|e| - 1];
      SizeIsKeyCount(rest);
      assert Keys(e) == Keys(rest) + {e[|e| - 1].0};
      assert e[|e| - 1].0 !in Keys(rest);
    }
  }
}

=== FILE: params_screen.dfy ===
/**
 The parameter editor of app/main.py (`ParamsScreen`): bulk download with a
 stall timeout, local edits kept against the values first loaded, write-back
 confirmed by the vehicle's echo, and a sorted, filtered, paginated list.

 The store holds everything the screen keeps between callbacks. Kivy widgets
 are left out; what a page shows is given by `PageNames` and `RowOf`, and the
 status line by `feedback`. The pending stall timeout is the delay it was
 scheduled with.
 */
module ParamsScreen {
  import opened Common
  import Text
  import SO = StringOrder
  import OM = OrderedMap
  import MC = MavlinkClient
  import Commands
  import MavlinkMessages

  const PageSize: nat := 50
  /** Stall timeout armed by a refresh, before any parameter arrives. */
  const InitialTimeout: real := 10.0
  /** Stall timeout re-armed after every parameter during a download. */
  const ParamTimeout: real := 5.0
  /** An edit closer than this to the loaded value is no edit. */
  const EditTolerance: real := 0.0000001
  /** An echoed value this close to the pending one confirms the write. */
  const AckTolerance: real := 0.000001

  /** `_INT_TYPES`: the MAVLink integer parameter types. */
  predicate IsIntType(ptype: int)
  {
    1 <= ptype <= 8
  }

  /** `_TYPE_NAMES.get(ptype, f"T{ptype}")`. */
  function TypeName(ptype: int): string
  {
    match ptype
    case 1 => "UINT8"
    case 2 => "INT8"
    case 3 => "UINT16"
    case 4 => "INT16"
    case 5 => "UINT32"
    case 6 => "INT32"
    case 7 => "UINT64"
    case 8 => "INT64"
    case 9 => "FLOAT"
    case 10 => "DOUBLE"
    case _ => "T" + Text.IntToString(ptype)
  }

  datatype ParamInfo = ParamInfo(value: real, ptype: int, index: int)

  /** What the status line says after each action. */
  datatype Feedback =
    | Blank
    | NotConnected
    | LoadingParams
    | Loaded(received: nat)
    | TimedOut(received: nat, announced: int)
    | Written(name: string, shown: string)
    | WriteFailed(name: string, reported: real)
    | InvalidValue(name: string, text: string)
    | ModifiedCount(count: nat)
    | NoChanges
    | Writing(count: nat)

  datatype Store = Store(
    params: map<string, ParamInfo>,         // _params
    original: map<string, real>,            // _original_values
    modified: OM.Entries<string, real>,     // _modified, in insertion order
    paramCount: int,
    loading: bool,
    timeout: Option<real>,
    searchText: string,
    page: int,
    filtered: seq<string>,                  // _filtered_names
    feedback: Feedback,
    refreshDisabled: bool)

  /** `__init__`. */
  function Initial(): (st: Store)
    ensures st.params == map[] && st.modified == [] && !st.loading && st.page == 0
  {
    Store(map[], map[], [], 0, false, None, "", 0, [], Blank, false)
  }

  // ------------------------------------------------------------------
  // Number formatting
  // ------------------------------------------------------------------

  /** Rounding to the nearest integer, ties to even, as float formatting does. */
  function RoundHalfEven(x: real): (n: int)
    requires x >= 0.0
    ensures n >= 0
    ensures x - 0.5 <= n as real <= x + 0.5
    ensures x == x.Floor as real ==> n == x.Floor
  {
    var f := x.Floor;
    var frac := x - f as real;
    if frac > 0.5 then f + 1
    else if frac < 0.5 then f
    else if f % 2 == 0 then f else f + 1
  }

  /** `s` left-padded with zeros to `width`. */
  function ZeroPad(s: string, width: nat): (r: string)
    ensures |r| == Max(|s|, width)
    ensures |s| < width ==> r == seq(width - |s|, i => '0') + s
  {
    if |s| < width then seq(width - |s|, i => '0') + s else s
  }

  const Micro: nat := 1000000

  /** `f"{value:.6f}"`: sign, whole part, point, six rounded decimals. */
  function Fixed6(v: real): (s: string)
  {
    var n := RoundHalfEven(AbsReal(v) * Micro as real);
    (if v < 0.0 then "-" else "") + Text.NatToString(n / Micro) + "." + ZeroPad(Text.NatToString(n % Micro), 6)
  }

  /** `f"{value:.6f}".rstrip("0").rstrip(".")`: no trailing zeros, no dangling point. */
  function FormatFloat(v: real): (s: string)
    ensures |s| == 0 || (s[|s| - 1] != '.')
  {
    Text.RStrip(Text.RStrip(Fixed6(v), '0'), '.')
  }

  /** `_format_value`: integer types show `int(value)`, the others a trimmed six-decimal float. */
  function FormatValue(value: real, ptype: int): (s: string)
    ensures IsIntType(ptype) ==> s == Text.IntToString(TruncToInt(value))
    ensures !IsIntType(ptype) ==> s == FormatFloat(value)
  {
    if IsIntType(ptype) then Text.IntToString(TruncToInt(value)) else FormatFloat(value)
  }

  /** A whole number formats with six zero decimals. */
  lemma Fixed6Whole(k: int)
    ensures Fixed6(k as real) == Text.IntToString(k) + "." + seq(6, i => '0')
  {
    var m: nat := if k < 0 then -k else k;
    assert AbsReal(k as real) * Micro as real == (m * Micro) as real;
    var n := RoundHalfEven((m * Micro) as real);
    assert n == m * Micro;
    assert n / Micro == m && n % Micro == 0;
    assert Text.NatToString(0) == "0";
    assert ZeroPad(Text.NatToString(0), 6) == seq(6, i => '0');
  }

  /** A whole number shows the same under both formats: `5.0` reads "5", just like an integer type. */
  lemma FormatFloatWhole(k: int)
    ensures FormatFloat(k as real) == Text.IntToString(k)
  {
    Fixed6Whole(k);
    var whole := Text.IntToString(k);
    Text.RStripPadded(whole + ".", 6, '0');
    assert whole + "." == whole + seq(1, i => '.');
    var m: nat := if k < 0 then -k else k;
    var digits := Text.NatToString(m);
    assert whole[|whole| - 1] == digits[|digits| - 1];
    assert Text.IsDigit(digits[|digits| - 1]);
    Text.RStripPadded(whole, 1, '.');
  }

  // ------------------------------------------------------------------
  // The list view
  // ------------------------------------------------------------------

  /** `max(1, ceil(total / page_size))`. */
  function TotalPages(total: nat): (p: nat)
    ensures p >= 1
    ensures total <= p * PageSize
    ensures total > 0 ==> (p - 1) * PageSize < total
  {
    Max(1, (total + PageSize - 1) / PageSize)
  }

  /** The names the search matches: the (already stripped, upper-cased) text occurs in the upper-cased name. */
  predicate Matches(search: string, name: string)
  {
    search == "" || Text.Contains(Text.ToUpper(name), search)
  }

  /** `sorted(_params)`, filtered by the search text when there is one. */
  function FilteredNames(params: map<string, ParamInfo>, search: string): (names: seq<string>)
    ensures SO.Sorted(names)
    ensures forall n :: n in names <==> n in params && Matches(search, n)
  {
    var all := SO.SortedSet(params.Keys);
    if search != "" then SO.Filter(all, n => Text.Contains(Text.ToUpper(n), search)) else all
  }

  /** `_rebuild_param_list`: recompute the filtered names and clamp the page into range. */
  function Rebuild(st: Store): (r: Store)
    ensures r.filtered == FilteredNames(st.params, st.searchText)
    ensures 0 <= r.page < TotalPages(|r.filtered|)
    ensures 0 <= st.page < TotalPages(|r.filtered|) ==> r.page == st.page
    ensures st.page >= TotalPages(|r.filtered|) ==> r.page == TotalPages(|r.filtered|) - 1
    ensures st.page < 0 ==> r.page == 0
    ensures r == st.(filtered := r.filtered, page := r.page)
  {
    var names := FilteredNames(st.params, st.searchText);
    var pages := TotalPages(|names|);
    var p1 := if st.page >= pages then pages - 1 else st.page;
    var p2 := if p1 < 0 then 0 else p1;
    st.(filtered := names, page := p2)
  }

  /** The slice of filtered names on the current page. */
  function PageNames(st: Store): (names: seq<string>)
    ensures |names| <= PageSize
    ensures forall n :: n in names ==> n in st.filtered
  {
    var total := |st.filtered|;
    var start := Max(0, st.page) * PageSize;
    var end := Min(start + PageSize, total);
    if start <= end then st.filtered[start..end] else []
  }

  datatype Row = Row(name: string, shown: string, typeName: string, isModified: bool)

  /** One row: the pending value if there is one, else the vehicle's. */
  function RowOf(st: Store, name: string): (row: Row)
    requires name in st.params
    ensures row.isModified <==> name in OM.Keys(st.modified)
  {
    var info := st.params[name];
    var shown := OM.Get(st.modified, name).GetOr(info.value);
    Row(name, FormatValue(shown, info.ptype), TypeName(info.ptype), name in OM.Keys(st.modified))
  }

  /** Every filtered name is on exactly one page, page `i / 50` for position `i`. */
  lemma PagesCoverFiltered(st: Store, i: nat)
    requires i < |st.filtered|
    ensures PageNames(st.(page := i / PageSize))[i % PageSize] == st.filtered[i]
    ensures forall p :: 0 <= p && p != i / PageSize ==>
      forall j :: 0 <= j < |PageNames(st.(page := p))| ==> PageNames(st.(page := p))[j] == st.filtered[p * PageSize + j]
  {
  }

  /** The Prev/Next buttons' enabling, as `_update_pagination` sets it. */
  function PrevDisabled(st: Store): bool
  {
    st.page <= 0
  }

  function NextDisabled(st: Store): bool
  {
    st.page >= TotalPages(|st.filtered|) - 1
  }

  /** `on_prev_page`. */
  function PrevPage(st: Store): (r: Store)
    ensures st.page > 0 ==> r == Rebuild(st.(page := st.page - 1))
    ensures st.page <= 0 ==> r == st
  {
    if st.page > 0 then Rebuild(st.(page := st.page - 1)) else st
  }

  /** `on_next_page`: the page count comes from the list as last built. */
  function NextPage(st: Store): (r: Store)
    ensures st.page < TotalPages(|st.filtered|) - 1 ==> r == Rebuild(st.(page := st.page + 1))
    ensures st.page >= TotalPages(|st.filtered|) - 1 ==> r == st
  {
    if st.page < TotalPages(|st.filtered|) - 1 then Rebuild(st.(page := st.page + 1)) else st
  }

  /** `on_search_changed`: normalise the text, go to the first page, rebuild. */
  function OnSearchChanged(st: Store, text: string): (r: Store)
    ensures r.searchText == Text.ToUpper(Text.Strip(text))
    ensures r.page == 0
    ensures r.filtered == FilteredNames(st.params, r.searchText)
    ensures r.params == st.params && r.modified == st.modified
  {
    Rebuild(st.(searchText := Text.ToUpper(Text.Strip(text)), page := 0))
  }

  // ------------------------------------------------------------------
  // Download and write-back
  // ------------------------------------------------------------------

  /**
   `on_refresh`: without a running link only the status line changes;
   otherwise all downloaded, loaded and pending values are dropped, the
   10 s stall timeout is armed and the full list is requested.
   */
  function OnRefresh(st: Store, c: MC.Client): (r: (Store, seq<MavlinkMessages.Outbound>))
    ensures !c.running ==> r.0 == st.(feedback := NotConnected) && r.1 == []
    ensures c.running ==>
      && r.0.params == map[] && r.0.original == map[] && r.0.modified == []
      && r.0.loading && r.0.timeout == Some(InitialTimeout) && r.0.refreshDisabled
      && r.0.page == 0 && r.0.filtered == [] && r.0.searchText == ""
      && r.1 == Commands.RequestAllParams(c)
  {
    if !c.running then (st.(feedback := NotConnected), [])
    else
      (Store(map[], map[], [], 0, true, Some(InitialTimeout), "", 0, [], LoadingParams, true),
       Commands.RequestAllParams(c))
  }

  /**
   The write-ack check of `_on_param_received`, applied to a store already
   holding the echoed value: with no edit pending nothing happens; an echo
   within 1e-6 of the pending value confirms it (the edit is dropped, the
   echo becomes the new original, the other edits stay); any other echo
   leaves the edit pending and reports the failure with the vehicle's value.
   */
  function AckWrite(st: Store, name: string, value: real, ptype: int): (r: Store)
    requires OM.DistinctKeys(st.modified)
    ensures OM.Get(st.modified, name).None? ==> r == st
    ensures OM.Get(st.modified, name).Some? && AbsReal(OM.Get(st.modified, name).value - value) < AckTolerance ==>
      && OM.DistinctKeys(r.modified) && OM.Keys(r.modified) == OM.Keys(st.modified) - {name}
      && (forall j :: j in OM.Keys(st.modified) && j != name ==> OM.Get(r.modified, j) == OM.Get(st.modified, j))
      && r.original == st.original[name := value] && r.params == st.params
      && r.feedback == Written(name, FormatValue(value, ptype))
      && r.modified == OM.Remove(st.modified, name)
      && r == st.(modified := r.modified, original := r.original, feedback := r.feedback)
    ensures OM.Get(st.modified, name).Some? && AbsReal(OM.Get(st.modified, name).value - value) >= AckTolerance ==>
      r == st.(feedback := WriteFailed(name, value))
  {
    match OM.Get(st.modified, name)
    case None => st
    case Some(pending) =>
      if AbsReal(pending - value) < AckTolerance then
        st.(modified := OM.Remove(st.modified, name), original := st.original[name := value],
            feedback := Written(name, FormatValue(value, ptype)))
      else st.(feedback := WriteFailed(name, value))
  }

  /**
   Store the echoed parameter, overwriting any earlier value; the first value
   seen for a name becomes its original, and a known name keeps its original.
   */
  function Record(st: Store, d: MC.ParamData): (r: Store)
    ensures r.params == st.params[d.paramId := ParamInfo(d.paramValue, d.paramType, d.paramIndex)]
    ensures r.original.Keys == st.original.Keys + {d.paramId}
    ensures d.paramId !in st.original ==> r.original[d.paramId] == d.paramValue
    ensures forall n :: n in st.original ==> r.original[n] == st.original[n]
    ensures r == st.(params := r.params, original := r.original, paramCount := d.paramCount)
  {
    var name := d.paramId;
    st.(paramCount := d.paramCount,
        params := st.params[name := ParamInfo(d.paramValue, d.paramType, d.paramIndex)],
        original := if name in st.original then st.original else st.original[name := d.paramValue])
  }

  /**
   `_on_param_received`: record the parameter (and its first-seen value);
   outside a download, an echo of a pending write confirms or refutes it;
   a download ends once as many parameters as announced are in; while it
   continues the stall timeout is re-armed at 5 s.
   */
  function OnParamReceived(st: Store, d: MC.ParamData): (r: Store)
    requires OM.DistinctKeys(st.modified)
  {
    var name := d.paramId;
    var s1 := Record(st, d);
    var s2 := if !st.loading then AckWrite(s1, name, d.paramValue, d.paramType) else s1;
    var received := |s2.params|;
    var s3 := if s2.loading && received >= d.paramCount then
                Rebuild(s2.(loading := false, timeout := None, feedback := Loaded(received), refreshDisabled := false))
              else s2;
    if s3.loading then s3.(timeout := Some(ParamTimeout)) else s3
  }

  /** `_on_load_timeout`: give up waiting, show what arrived. */
  function OnLoadTimeout(st: Store): (r: Store)
    ensures !r.loading && r.timeout.None? && !r.refreshDisabled
    ensures r.feedback == TimedOut(|st.params|, st.paramCount)
    ensures r.params == st.params && r.modified == st.modified && r.original == st.original
    ensures r.filtered == FilteredNames(st.params, st.searchText)
  {
    Rebuild(st.(loading := false, timeout := None, feedback := TimedOut(|st.params|, st.paramCount),
                refreshDisabled := false))
  }

  /** `ptype in _INT_TYPES`: `float(int(float(text)))`; otherwise `float(text)`. */
  function EditedValue(ptype: int, parsed: real): (v: real)
    ensures IsIntType(ptype) ==> v == TruncToInt(parsed) as real
    ensures !IsIntType(ptype) ==> v == parsed
  {
    if IsIntType(ptype) then TruncToInt(parsed) as real else parsed
  }

  /**
   `on_param_edited(name, text)`: `parsed` is `float(text)`, None when it
   raises. An unknown name is ignored; unparsable text only reports; a value
   away from the loaded one becomes (or replaces) the pending edit, and one
   back at the loaded value cancels it.
   */
  function OnParamEdited(st: Store, name: string, text: string, parsed: Option<real>): (r: Store)
    requires OM.DistinctKeys(st.modified)
    ensures OM.DistinctKeys(r.modified)
    ensures name !in st.params ==> r == st
    ensures name in st.params && parsed.None? ==> r == st.(feedback := InvalidValue(name, text))
    ensures name in st.params && parsed.Some? ==>
      var v := EditedValue(st.params[name].ptype, parsed.value);
      var orig := if name in st.original then st.original[name] else st.params[name].value;
      && (AbsReal(v - orig) > EditTolerance ==> r.modified == OM.Put(st.modified, name, v))
      && (AbsReal(v - orig) <= EditTolerance ==> r.modified == OM.Remove(st.modified, name))
      && r.feedback == (if |r.modified| > 0 then ModifiedCount(|r.modified|) else NoChanges)
      && r == st.(modified := r.modified, feedback := r.feedback)
  {
    if name !in st.params then st
    else if parsed.None? then st.(feedback := InvalidValue(name, text))
    else
      var v := EditedValue(st.params[name].ptype, parsed.value);
      var orig := if name in st.original then st.original[name] else st.params[name].value;
      var m := if AbsReal(v - orig) > EditTolerance then OM.Put(st.modified, name, v)
               else OM.Remove(st.modified, name);
      st.(modified := m, feedback := if |m| > 0 then ModifiedCount(|m|) else NoChanges)
  }

  /** Every pending edit is of a loaded parameter and differs from its loaded value. */
  predicate PendingOk(modified: OM.Entries<string, real>, original: map<string, real>)
  {
    forall i :: 0 <= i < |modified| ==>
      modified[i].0 in original && AbsReal(modified[i].1 - original[modified[i].0]) > EditTolerance
  }

  /** What the callbacks keep true of the data, whatever the list view shows. */
  predicate DataInv(st: Store)
  {
    && st.original.Keys == st.params.Keys
    && OM.DistinctKeys(st.modified)
    && OM.Keys(st.modified) <= st.params.Keys
    && PendingOk(st.modified, st.original)
  }

  /** The invariant the screen keeps between callbacks: the data's, and a list view within the data and a page in range. */
  predicate Inv(st: Store)
  {
    && DataInv(st)
    && (forall n :: n in st.filtered ==> n in st.params)
    && 0 <= st.page < TotalPages(|st.filtered|)
  }

  /**
   `_do_write`: one `PARAM_SET` per pending edit, in the order the edits were
   first made, each with its parameter's type.
   */
  function DoWrite(st: Store, c: MC.Client): (r: (Store, seq<MavlinkMessages.Outbound>))
    requires Inv(st)
    ensures r.0 == st.(feedback := Writing(|st.modified|))
    ensures c.connected ==> |r.1| == |st.modified|
    ensures c.connected ==> forall i :: 0 <= i < |st.modified| ==>
      r.1[i] == MavlinkMessages.ParamSet(MC.TargetSystem(c), MC.TargetComponent(c),
                  Commands.EncodeParamId(st.modified[i].0), st.modified[i].1, st.params[st.modified[i].0].ptype)
    ensures !c.connected ==> r.1 == []
  {
    (st.(feedback := Writing(|st.modified|)), WriteAll(st.params, st.modified, c))
  }

  function WriteAll(params: map<string, ParamInfo>, edits: OM.Entries<string, real>, c: MC.Client): (sent: seq<MavlinkMessages.Outbound>)
    requires forall i :: 0 <= i < |edits| ==> edits[i].0 in params
    ensures c.connected ==> |sent| == |edits|
    ensures c.connected ==> forall i :: 0 <= i < |edits| ==>
      sent[i] == MavlinkMessages.ParamSet(MC.TargetSystem(c), MC.TargetComponent(c),
                   Commands.EncodeParamId(edits[i].0), edits[i].1, params[edits[i].0].ptype)
    ensures !c.connected ==> sent == []
  {
    if |edits| == 0 then []
    else
      Commands.SetParam(c, edits[0].0, edits[0].1, Some(params[edits[0].0].ptype))
      + WriteAll(params, edits[1..], c)
  }

  /**
   `on_write_params` and its confirmation dialog: nothing pending or a
   declined dialog does nothing; a stopped link only reports.
   */
  function OnWriteParams(st: Store, c: MC.Client, confirmed: bool): (r: (Store, seq<MavlinkMessages.Outbound>))
    requires Inv(st)
    ensures |st.modified| == 0 ==> r == (st, [])
    ensures |st.modified| > 0 && !c.running ==> r == (st.(feedback := NotConnected), [])
    ensures |st.modified| > 0 && c.running && !confirmed ==> r == (st, [])
    ensures |st.modified| > 0 && c.running && confirmed ==> r == DoWrite(st, c)
  {
    if |st.modified| == 0 then (st, [])
    else if !c.running then (st.(feedback := NotConnected), [])
    else if !confirmed then (st, [])
    else DoWrite(st, c)
  }

  // ------------------------------------------------------------------
  // Properties
  // ------------------------------------------------------------------

  lemma InitialInv()
    ensures Inv(Initial())
  {
  }

  lemma RefreshInv(st: Store, c: MC.Client)
    requires Inv(st)
    ensures Inv(OnRefresh(st, c).0)
  {
  }

  lemma TimeoutInv(st: Store)
    requires Inv(st)
    ensures Inv(OnLoadTimeout(st))
  {
  }

  lemma SearchInv(st: Store, text: string)
    requires Inv(st)
    ensures Inv(OnSearchChanged(st, text))
  {
  }

  lemma RebuildInv(st: Store)
    requires DataInv(st)
    ensures Inv(Rebuild(st))
  {
  }

  lemma PagingInv(st: Store)
    requires Inv(st)
    ensures Inv(PrevPage(st)) && Inv(NextPage(st))
  {
    if st.page > 0 {
      RebuildInv(st.(page := st.page - 1));
    }
    if st.page < TotalPages(|st.filtered|) - 1 {
      RebuildInv(st.(page := st.page + 1));
    }
  }

  lemma PutPending(m: OM.Entries<string, real>, original: map<string, real>, name: string, v: real)
    requires OM.DistinctKeys(m) && PendingOk(m, original)
    requires name in original && AbsReal(v - original[name]) > EditTolerance
    ensures PendingOk(OM.Put(m, name, v), original)
  {
  }

  lemma RemovePending(m: OM.Entries<string, real>, original: map<string, real>, name: string)
    requires OM.DistinctKeys(m) && PendingOk(m, original)
    ensures PendingOk(OM.Remove(m, name), original)
  {
    var r := OM.Remove(m, name);
    forall i | 0 <= i < |r|
      ensures r[i].0 in original && AbsReal(r[i].1 - original[r[i].0]) > EditTolerance
    {
      assert r[i] in m;
    }
  }

  lemma EditInv(st: Store, name: string, text: string, parsed: Option<real>)
    requires Inv(st)
    ensures Inv(OnParamEdited(st, name, text, parsed))
  {
    if name in st.params && parsed.Some? {
      var v := EditedValue(st.params[name].ptype, parsed.value);
      if AbsReal(v - st.original[name]) > EditTolerance {
        PutPending(st.modified, st.original, name, v);
      } else {
        RemovePending(st.modified, st.original, name);
      }
    }
  }

  lemma ReceiveInv(st: Store, d: MC.ParamData)
    requires Inv(st)
    ensures Inv(OnParamReceived(st, d))
  {
    var name := d.paramId;
    var s1 := Record(st, d);
    RecordInv(st, d);
    var s2 := if !st.loading then AckWrite(s1, name, d.paramValue, d.paramType) else s1;
    if !st.loading {
      AckInv(s1, name, d.paramValue, d.paramType);
    }
    var received := |s2.params|;
    if s2.loading && received >= d.paramCount {
      RebuildInv(s2.(loading := false, timeout := None, feedback := Loaded(received), refreshDisabled := false));
    }
  }

  /**
   What a received parameter does to the data: its value is always
   overwritten; a name not seen before gets the received value as its
   original; every other name keeps its original; and during a download
   (or with no edit pending for the name) the pending edits are untouched
   and the name's original is kept.
   */
  lemma ReceiveRecords(st: Store, d: MC.ParamData)
    requires Inv(st)
    ensures var r := OnParamReceived(st, d);
      && r.params == st.params[d.paramId := ParamInfo(d.paramValue, d.paramType, d.paramIndex)]
      && r.original.Keys == st.original.Keys + {d.paramId}
      && (forall n :: n in st.original && n != d.paramId ==> r.original[n] == st.original[n])
      && (d.paramId !in st.params ==> r.original[d.paramId] == d.paramValue && r.modified == st.modified)
      && (d.paramId in st.params && (st.loading || d.paramId !in OM.Keys(st.modified)) ==>
            r.original[d.paramId] == st.original[d.paramId] && r.modified == st.modified)
  {
    var name := d.paramId;
    var s1 := Record(st, d);
    assert s1.modified == st.modified;
  }

  /** Recording a parameter keeps the invariant: an existing original is never overwritten. */
  lemma RecordInv(st: Store, d: MC.ParamData)
    requires Inv(st)
    ensures Inv(Record(st, d)) && d.paramId in Record(st, d).params
  {
    var s1 := Record(st, d);
    forall i | 0 <= i < |s1.modified|
      ensures s1.modified[i].0 in s1.original
      ensures AbsReal(s1.modified[i].1 - s1.original[s1.modified[i].0]) > EditTolerance
    {
      assert s1.modified[i].0 in OM.Keys(st.modified);
    }
  }

  lemma AckInv(st: Store, name: string, value: real, ptype: int)
    requires Inv(st) && name in st.params
    ensures Inv(AckWrite(st, name, value, ptype))
  {
    match OM.Get(st.modified, name)
    case None =>
    case Some(pending) =>
      if AbsReal(pending - value) < AckTolerance {
        var m := OM.Remove(st.modified, name);
        var o := st.original[name := value];
        RemovePending(st.modified, st.original, name);
        assert PendingOk(m, o) by {
          forall i | 0 <= i < |m|
            ensures m[i].0 in o && AbsReal(m[i].1 - o[m[i].0]) > EditTolerance
          {
            assert m[i].0 in OM.Keys(m);
          }
        }
      }
  }

  /**
   The other half of write confirmation: an echo that differs from the staged
   value (the typed value, truncated for integer types) by 1e-6 or more
   leaves the edit pending, keeps the original, and reports the failure with
   the value the vehicle holds.
   */
  lemma EditThenMismatchFails(st: Store, name: string, text: string, v: real, d: MC.ParamData)
    requires Inv(st) && !st.loading && name in st.params
    requires AbsReal(EditedValue(st.params[name].ptype, v) - st.original[name]) > EditTolerance
    requires d.paramId == name && AbsReal(EditedValue(st.params[name].ptype, v) - d.paramValue) >= AckTolerance
    ensures var r := OnParamReceived(OnParamEdited(st, name, text, Some(v)), d);
      && OM.Get(r.modified, name) == Some(EditedValue(st.params[name].ptype, v))
      && r.original[name] == st.original[name]
      && r.feedback == WriteFailed(name, d.paramValue)
  {
    var staged := EditedValue(st.params[name].ptype, v);
    var edited := OnParamEdited(st, name, text, Some(v));
    assert OM.Get(edited.modified, name) == Some(staged);
  }

  /**
   A write that the vehicle echoes back settles the edit: after editing a
   loaded parameter to a new value and receiving the staged value (the typed
   value, truncated for integer types) outside a download, nothing is
   pending for it and the staged value is the loaded one.
   */
  lemma EditThenAckSettles(st: Store, name: string, text: string, v: real, d: MC.ParamData)
    requires Inv(st) && !st.loading && name in st.params
    requires AbsReal(EditedValue(st.params[name].ptype, v) - st.original[name]) > EditTolerance
    requires d.paramId == name && d.paramValue == EditedValue(st.params[name].ptype, v)
    requires d.paramType == st.params[name].ptype
    ensures var edited := OnParamEdited(st, name, text, Some(v));
      && name in OM.Keys(edited.modified)
      && var acked := OnParamReceived(edited, d);
      && name !in OM.Keys(acked.modified)
      && acked.original[name] == d.paramValue
      && acked.params[name].value == d.paramValue
      && acked.feedback == Written(name, FormatValue(d.paramValue, d.paramType))
  {
    var staged := EditedValue(st.params[name].ptype, v);
    var edited := OnParamEdited(st, name, text, Some(v));
    assert OM.Get(edited.modified, name) == Some(staged);
  }

  /**
   Editing a value back to what was loaded leaves nothing pending for it:
   any second entry whose staged value is within 1e-7 of the original
   cancels the first. For a float parameter, typing the original is one.
   */
  lemma EditBackCancels(st: Store, name: string, t1: string, v: real, t2: string, w: real)
    requires Inv(st) && name in st.params
    ensures var once := OnParamEdited(st, name, t1, Some(v));
      AbsReal(EditedValue(st.params[name].ptype, w) - st.original[name]) <= EditTolerance ==>
      name !in OM.Keys(OnParamEdited(once, name, t2, Some(w)).modified)
    ensures !IsIntType(st.params[name].ptype) ==>
      var once := OnParamEdited(st, name, t1, Some(v));
      name !in OM.Keys(OnParamEdited(once, name, t2, Some(st.original[name])).modified)
  {
  }

  /**
   A download ends exactly when the announced count is reached: the
   parameter that brings the store to `param_count` entries clears the
   loading flag and the timeout; before that the timeout is re-armed at 5 s.
   */
  lemma DownloadCompletion(st: Store, d: MC.ParamData)
    requires Inv(st) && st.loading
    ensures var r := OnParamReceived(st, d);
      var received := |st.params[d.paramId := ParamInfo(d.paramValue, d.paramType, d.paramIndex)]|;
      && (received >= d.paramCount ==>
            !r.loading && r.timeout.None? && r.feedback == Loaded(received) && !r.refreshDisabled
            && r.filtered == FilteredNames(r.params, r.searchText))
      && (received < d.paramCount ==> r.loading && r.timeout == Some(ParamTimeout))
  {
  }

  /** The filtered list is the matching names in sorted order, and an empty search matches every name. */
  lemma FilterMeaning(params: map<string, ParamInfo>, search: string)
    ensures search == "" ==> forall n :: n in FilteredNames(params, search) <==> n in params
    ensures |FilteredNames(params, search)| <= |params|
  {
    var all := SO.SortedSet(params.Keys);
    assert |all| == |params.Keys| == |params|;
  }
}

=== FILE: sensor_plot.dfy ===
/**
 `SensorPlotScreen.update` in app/main.py: the rolling 30-second window
 over the sample history, found with a hand-written `bisect_left`, and the
 per-sensor series drawn from it.
 */
module SensorPlot {
  import opened Common
  import VS = VehicleState

  /** `_PLOT_WINDOW`: seconds of history on screen. */
  const PlotWindow: real := 30.0
  /** The Kelvin offset subtracted from the temperature sensors for display. */
  const KelvinOffset: real := 273.15

  predicate NonDecreasing(h: seq<real>)
  {
    forall i, j :: 0 <= i <= j < |h| ==> h[i] <= h[j]
  }

  /** The reference answer: the first index whose time is at least `cutoff`, or `|h|`. */
  function FirstAtLeast(h: seq<real>, cutoff: real): (k: nat)
    ensures k <= |h|
    ensures k < |h| ==> h[k] >= cutoff
    ensures forall i :: 0 <= i < k ==> h[i] < cutoff
    decreases |h|
  {
    if |h| == 0 then 0
    else if h[0] >= cutoff then 0
    else 1 + FirstAtLeast(h[1..], cutoff)
  }

  /**
   The manual `bisect_left`. On any sequence it stops at a boundary: the
   element before is below the cutoff and the element at the index (if
   any) is not. On a time-ordered history that boundary is unique, the
   first time at or after the cutoff.
   */
  method BisectLeft(h: seq<real>, cutoff: real) returns (lo: nat)
    ensures lo <= |h|
    ensures lo < |h| ==> h[lo] >= cutoff
    ensures lo > 0 ==> h[lo - 1] < cutoff
    ensures NonDecreasing(h) ==> lo == FirstAtLeast(h, cutoff)
  {
    lo := 0;
    var hi := |h|;
    while lo < hi
      invariant 0 <= lo <= hi <= |h|
      invariant hi < |h| ==> h[hi] >= cutoff
      invariant lo > 0 ==> h[lo - 1] < cutoff
      invariant NonDecreasing(h) ==> forall i :: 0 <= i < lo ==> h[i] < cutoff
      invariant NonDecreasing(h) ==> forall i :: hi <= i < |h| ==> h[i] >= cutoff
      decreases hi - lo
    {
      var mid := (lo + hi) / 2;
      if h[mid] < cutoff {
        lo := mid + 1;
      } else {
        hi := mid;
      }
    }
    FirstAtLeastUnique(h, cutoff, lo);
  }

  /** On a time-ordered sequence only one index splits it into "before the cutoff" and "at or after". */
  lemma FirstAtLeastUnique(h: seq<real>, cutoff: real, j: nat)
    requires j <= |h| && (j < |h| ==> h[j] >= cutoff)
    requires NonDecreasing(h) ==> forall i :: 0 <= i < j ==> h[i] < cutoff
    ensures NonDecreasing(h) ==> j == FirstAtLeast(h, cutoff)
  {
    var k := FirstAtLeast(h, cutoff);
    assert !(k < j && NonDecreasing(h)) by {
      assert k < |h| ==> h[k] >= cutoff;
    }
    assert !(j < k);
  }

  /**
   Where the plotted window starts: nothing while paused or before the first
   sample; otherwise the first sample within 30 s of the newest one. The
   newest sample is always in the window.
   */
  method WindowStart(times: seq<real>, paused: bool) returns (start: Option<nat>)
    ensures paused || |times| == 0 <==> start.None?
    ensures start.Some? ==> start.value < |times|
    ensures start.Some? && NonDecreasing(times) ==>
      forall i :: start.value <= i < |times| ==> times[i] >= times[|times| - 1] - PlotWindow
    ensures start.Some? && NonDecreasing(times) ==>
      start.value == FirstAtLeast(times, times[|times| - 1] - PlotWindow)
  {
    if paused || |times| == 0 {
      return None;
    }
    var lo := BisectLeft(times, times[|times| - 1] - PlotWindow);
    start := Some(lo);
    if NonDecreasing(times) {
      forall i | lo <= i < |times| ensures times[i] >= times[|times| - 1] - PlotWindow {
        assert times[lo] <= times[i];
      }
    }
  }

  /** Every row in `[lo, hi)` exists and has an entry `idx`. */
  predicate HasChannel(sensors: seq<seq<real>>, lo: nat, hi: nat, idx: nat)
  {
    (lo < hi ==> hi <= |sensors|) && forall i :: lo <= i < hi ==> idx < |sensors[i]|
  }

  /**
   One series: the point `(time, reading - offset)` for every sample from
   `start` on whose sensor list has an entry `idx`; a missing list counts
   as empty.
   */
  function Series(times: seq<real>, sensors: seq<seq<real>>, start: nat, idx: nat, offset: real): (pts: seq<(real, real)>)
    requires start <= |times|
    ensures |pts| <= |times| - start
    ensures HasChannel(sensors, start, |times|, idx) ==> |pts| == |times| - start
    decreases |times| - start
  {
    if start == |times| then []
    else
      var row := if start < |sensors| then sensors[start] else [];
      var rest := Series(times, sensors, start + 1, idx, offset);
      assert HasChannel(sensors, start, |times|, idx) ==> HasChannel(sensors, start + 1, |times|, idx);
      if idx < |row| then [(times[start], row[idx] - offset)] + rest else rest
  }

  /** With every sample carrying the sensor, the series has one point per windowed sample, in order. */
  lemma {:induction false} SeriesComplete(times: seq<real>, sensors: seq<seq<real>>, start: nat, idx: nat, offset: real)
    requires start <= |times| <= |sensors|
    requires forall i :: start <= i < |times| ==> idx < |sensors[i]|
    ensures var pts := Series(times, sensors, start, idx, offset);
      |pts| == |times| - start
      && forall k :: 0 <= k < |pts| ==> pts[k] == (times[start + k], sensors[start + k][idx] - offset)
    decreases |times| - start
  {
    if start < |times| {
      SeriesComplete(times, sensors, start + 1, idx, offset);
      var rest := Series(times, sensors, start + 1, idx, offset);
      var pts := Series(times, sensors, start, idx, offset);
      assert pts == [(times[start], sensors[start][idx] - offset)] + rest;
      forall k | 0 <= k < |pts| ensures pts[k] == (times[start + k], sensors[start + k][idx] - offset) {
        if k > 0 {
          assert pts[k] == rest[k - 1];
        }
      }
    }
  }

  /** Every point carries the time of some sample at or after `start`. */
  predicate StampedFrom(pts: seq<(real, real)>, times: seq<real>, start: nat)
  {
    forall k :: 0 <= k < |pts| ==> exists i :: start <= i < |times| && pts[k].0 == times[i]
  }

  /** Every point of a series is stamped with the time of a sample inside the window. */
  lemma {:induction false} SeriesTimes(times: seq<real>, sensors: seq<seq<real>>, start: nat, idx: nat, offset: real)
    requires start <= |times|
    ensures StampedFrom(Series(times, sensors, start, idx, offset), times, start)
    decreases |times| - start
  {
    if start < |times| {
      SeriesTimes(times, sensors, start + 1, idx, offset);
      var pts := Series(times, sensors, start, idx, offset);
      var rest := Series(times, sensors, start + 1, idx, offset);
      forall k | 0 <= k < |pts| ensures exists i :: start <= i < |times| && pts[k].0 == times[i] {
        var row := if start < |sensors| then sensors[start] else [];
        if idx < |row| {
          assert pts == [(times[start], row[idx] - offset)] + rest;
          if k == 0 {
            assert pts[k].0 == times[start];
          } else {
            assert pts[k] == rest[k - 1];
            var i :| start + 1 <= i < |times| && rest[k - 1].0 == times[i];
            assert pts[k].0 == times[i];
          }
        } else {
          assert pts == rest;
          var i :| start + 1 <= i < |times| && rest[k].0 == times[i];
          assert pts[k].0 == times[i];
        }
      }
    }
  }

  /** The T1..T3 series (Kelvin shown as Celsius) and the RH1..RH3 series from the aligned history. */
  function TemperatureSeries(h: VS.History, start: nat, idx: nat): seq<(real, real)>
    requires start <= |h.time|
  {
    Series(h.time, h.tempSensors, start, idx, KelvinOffset)
  }

  function HumiditySeries(h: VS.History, start: nat, idx: nat): seq<(real, real)>
    requires start <= |h.time|
  {
    Series(h.time, h.rhSensors, start, idx, 0.0)
  }
}

=== FILE: settings_screen.dfy ===
/**
 `SettingsScreen.on_stream_rate_changed` in app/main.py: the telemetry
 stream rate typed by the operator, defaulted and clamped before it is
 saved and echoed back into the input box.
 */
module SettingsScreen {
  import opened Common
  import Text
  import MC = MavlinkClient

  const MinStreamRateHz: int := 1
  const MaxStreamRateHz: int := 10

  /**
   `parsed` is `int(text)`, None when that raises: unparsable text means the
   default of 10 Hz, and every rate is clamped into 1..10.
   */
  function StreamRate(parsed: Option<int>): (rate: int)
    ensures MinStreamRateHz <= rate <= MaxStreamRateHz
    ensures parsed.None? ==> rate == MC.DefaultStreamRateHz
    ensures parsed.Some? && MinStreamRateHz <= parsed.value <= MaxStreamRateHz ==> rate == parsed.value
    ensures parsed.Some? && parsed.value < MinStreamRateHz ==> rate == MinStreamRateHz
    ensures parsed.Some? && parsed.value > MaxStreamRateHz ==> rate == MaxStreamRateHz
  {
    Clamp(parsed.GetOr(MC.DefaultStreamRateHz), MinStreamRateHz, MaxStreamRateHz)
  }

  /** The saved rate and the text left in the input box (rewritten only when it differs). */
  function OnStreamRateChanged(text: string, parsed: Option<int>): (r: (int, string))
    ensures r.0 == StreamRate(parsed)
    ensures r.1 == Text.IntToString(r.0)
  {
    var rate := StreamRate(parsed);
    var shown := Text.IntToString(rate);
    (rate, if text != shown then shown else text)
  }

  /** Confirming the value the box now shows changes nothing: the clamp is idempotent. */
  lemma StreamRateStable(text: string, parsed: Option<int>)
    ensures var r := OnStreamRateChanged(text, parsed);
      OnStreamRateChanged(r.1, Some(r.0)) == r
  {
  }
}

=== FILE: string_order.dfy ===
/**
 Python's ordering of `str` values (lexicographic by code point) and
 `sorted()` applied to a set of names.
 */
module StringOrder {

  /** `a < b` on Python strings. */
  predicate Less(a: string, b: string)
    decreases |a|
  {
    |b| > 0 && (|a| == 0 || a[0] < b[0] || (a[0] == b[0] && Less(a[1..], b[1..])))
  }

  lemma {:induction false} Irreflexive(a: string)
    ensures !Less(a, a)
    decreases |a|
  {
    if |a| > 0 {
      Irreflexive(a[1..]);
    }
  }

  lemma {:induction false} Asymmetric(a: string, b: string)
    ensures !(Less(a, b) && Less(b, a))
    decreases |a|
  {
    if |a| > 0 && |b| > 0 && a[0] == b[0] {
      Asymmetric(a[1..], b[1..]);
    }
  }

  lemma {:induction false} Transitive(a: string, b: string, c: string)
    requires Less(a, b) && Less(b, c)
    ensures Less(a, c)
    decreases |a|
  {
    if |a| > 0 && a[0] == b[0] && b[0] == c[0] {
      Transitive(a[1..], b[1..], c[1..]);
    }
  }

  lemma {:induction false} Total(a: string, b: string)
    ensures a == b || Less(a, b) || Less(b, a)
    decreases |a|
  {
    if |a| > 0 && |b| > 0 && a[0] == b[0] {
      Total(a[1..], b[1..]);
      if a[1..] == b[1..] {
        assert a == [a[0]] + a[1..] && b == [b[0]] + b[1..];
      }
    }
  }

  /** Strictly increasing, hence also free of duplicates. */
  predicate Sorted(s: seq<string>)
  {
    forall i, j :: 0 <= i < j < |s| ==> Less(s[i], s[j])
  }

  predicate IsMin(m: string, s: set<string>)
  {
    m in s && forall x :: x in s && x != m ==> Less(m, x)
  }

  lemma {:induction false} MinExists(s: set<string>)
    requires s != {}
    ensures exists m :: IsMin(m, s)
    decreases |s|
  {
    var x :| x in s;
    if s == {x} {
      assert IsMin(x, s);
    } else {
      MinExists(s - {x});
      var m :| IsMin(m, s - {x});
      Total(x, m);
      if Less(x, m) {
        forall y | y in s && y != x
          ensures Less(x, y)
        {
          if y != m {
            Transitive(x, m, y);
          }
        }
        assert IsMin(x, s);
      } else {
        assert IsMin(m, s);
      }
    }
  }

  lemma MinUnique(s: set<string>)
    ensures forall m, m' :: IsMin(m, s) && IsMin(m', s) ==> m == m'
  {
    forall m, m' | IsMin(m, s) && IsMin(m', s)
      ensures m == m'
    {
      if m != m' {
        Asymmetric(m, m');
      }
    }
  }

  /** The least name of a non-empty set. */
  function MinOf(s: set<string>): (m: string)
    requires s != {}
    ensures IsMin(m, s)
  {
    MinExists(s);
    MinUnique(s);
    var m :| IsMin(m, s);
    m
  }

  /** `sorted(names)`: every name exactly once, in increasing order. */
  function SortedSet(s: set<string>): (r: seq<string>)
    ensures Sorted(r)
    ensures |r| == |s|
    ensures forall x :: x in r <==> x in s
    decreases |s|
  {
    if s == {} then []
    else
      var m := MinOf(s);
      var rest := SortedSet(s - {m});
      assert forall j :: 0 <= j < |rest| ==> rest[j] in rest && rest[j] in s - {m};
      [m] + rest
  }

  /** Keeping only some elements of a sorted sequence leaves it sorted. */
  function Filter(s: seq<string>, keep: string -> bool): (r: seq<string>)
    ensures |r| <= |s|
    ensures forall x :: x in r <==> x in s && keep(x)
    ensures Sorted(s) ==> Sorted(r)
  {
    if |s| == 0 then []
    else
      var rest := Filter(s[1..], keep);
      assert Sorted(s) ==> forall x :: x in rest ==> Less(s[0], x);
      if keep(s[0]) then [s[0]] + rest else rest
  }
}

=== FILE: text.dfy ===
/**
 The string operations the source relies on: decimal rendering of integers
 (`str(n)`, `f"{n:02d}"`), ASCII upper-casing (`str.upper`), substring search
 (`needle in hay`), and stripping (`str.rstrip`, `str.strip`).
 */
module Text {

  predicate IsDigit(c: char)
  {
    '0' <= c <= '9'
  }

  predicate AllDigits(s: string)
  {
    forall i :: 0 <= i < |s| ==> IsDigit(s[i])
  }

  function DigitChar(d: int): (c: char)
    requires 0 <= d < 10
    ensures IsDigit(c)
  {
    ('0' as int + d) as char
  }

  function DigitValue(c: char): (d: int)
    requires IsDigit(c)
    ensures 0 <= d < 10
  {
    c as int - '0' as int
  }

  /** `str(n)` for a non-negative integer. */
  function NatToString(n: nat): (r: string)
    ensures 1 <= |r|
    ensures AllDigits(r)
    ensures |r| > 1 ==> r[0] != '0'
    decreases n
  {
    if n < 10 then [DigitChar(n)] else NatToString(n / 10) + [DigitChar(n % 10)]
  }

  /** The decimal value of a string of digits; the reading side of `NatToString`. */
  function ParseNat(s: string): (n: nat)
    requires AllDigits(s)
    decreases |s|
  {
    if |s| == 0 then 0 else 10 * ParseNat(s[..|s| - 1]) + DigitValue(s[|s| - 1])
  }

  /** Rendering a number in decimal loses nothing: reading it back gives the number. */
  lemma {:induction false} ParseNatToString(n: nat)
    ensures ParseNat(NatToString(n)) == n
    decreases n
  {
    var s := NatToString(n);
    if n >= 10 {
      var p := NatToString(n / 10);
      assert s[..|s| - 1] == p;
      ParseNatToString(n / 10);
    }
  }

  /** `str(i)` for any integer. */
  function IntToString(i: int): (r: string)
    ensures 0 <= i ==> r == NatToString(i)
    ensures i < 0 ==> r == "-" + NatToString(-i)
  {
    if i < 0 then "-" + NatToString(-i) else NatToString(i)
  }

  /** `f"{n:02d}"`: zero-padded to at least two characters (the sign counts toward the width). */
  function Pad2(n: int): (r: string)
    ensures 0 <= n < 10 ==> r == ['0', DigitChar(n)]
    ensures 10 <= n ==> r == NatToString(n)
    ensures n < 0 ==> r == IntToString(n)
    ensures 2 <= |r|
  {
    if 0 <= n < 10 then ['0', DigitChar(n)] else IntToString(n)
  }

  function UpperChar(c: char): (u: char)
  {
    if 'a' <= c <= 'z' then (c as int - 32) as char else c
  }

  /** `s.upper()` on ASCII letters. */
  function ToUpper(s: string): (r: string)
    ensures |r| == |s|
    ensures forall i :: 0 <= i < |s| ==> r[i] == UpperChar(s[i])
  {
    seq(|s|, i requires 0 <= i < |s| => UpperChar(s[i]))
  }

  predicate IsPrefix(p: string, s: string)
  {
    |p| <= |s| && s[..|p|] == p
  }

  /** Python's `needle in hay` on strings. */
  predicate Contains(hay: string, needle: string)
    decreases |hay|
  {
    IsPrefix(needle, hay) || (|hay| > 0 && Contains(hay[1..], needle))
  }

  /** `needle` occurs in `hay` starting at offset `k`. */
  predicate OccursAt(hay: string, needle: string, k: int)
  {
    0 <= k && k + |needle| <= |hay| && hay[k..k + |needle|] == needle
  }

  /** `Contains` means: the needle occurs at some offset. */
  lemma {:induction false} ContainsAt(hay: string, needle: string)
    ensures Contains(hay, needle) <==> exists k :: OccursAt(hay, needle, k)
    decreases |hay|
  {
    if |hay| > 0 {
      ContainsAt(hay[1..], needle);
      if IsPrefix(needle, hay) {
        assert OccursAt(hay, needle, 0);
      }
      if Contains(hay[1..], needle) {
        var k :| OccursAt(hay[1..], needle, k);
        assert hay[k + 1..k + 1 + |needle|] == hay[1..][k..k + |needle|];
        assert OccursAt(hay, needle, k + 1);
      }
      if exists k :: OccursAt(hay, needle, k) {
        var k :| OccursAt(hay, needle, k);
        if k > 0 {
          assert hay[1..][k - 1..k - 1 + |needle|] == hay[k..k + |needle|];
          assert OccursAt(hay[1..], needle, k - 1);
        } else {
          assert IsPrefix(needle, hay);
        }
      }
    } else {
      if exists k :: OccursAt(hay, needle, k) {
        var k :| OccursAt(hay, needle, k);
        assert IsPrefix(needle, hay);
      }
      if Contains(hay, needle) {
        assert OccursAt(hay, needle, 0);
      }
    }
  }

  /** `s.rstrip(c)`: drop every trailing occurrence of `c`. */
  function RStrip(s: string, c: char): (r: string)
    ensures IsPrefix(r, s)
    ensures |r| == 0 || r[|r| - 1] != c
    ensures forall i :: |r| <= i < |s| ==> s[i] == c
    decreases |s|
  {
    if |s| > 0 && s[|s| - 1] == c then RStrip(s[..|s| - 1], c) else s
  }

  /** Stripping `c` from a string that does not end in `c`, padded with any number of `c`, gives the string back. */
  lemma RStripPadded(s: string, n: nat, c: char)
    requires |s| == 0 || s[|s| - 1] != c
    ensures RStrip(s + seq(n, i => c), c) == s
  {
    var p := s + seq(n, i => c);
    var r := RStrip(p, c);
    if |s| > 0 {
      assert p[|s| - 1] != c;
    }
    assert forall i :: |s| <= i < |p| ==> p[i] == c;
    assert |r| == |s|;
    assert r == p[..|r|] == s;
  }

  predicate IsSpace(c: char)
  {
    c == ' ' || c == '\t' || c == '\n' || c == '\r' || c == '\U{B}' || c == '\U{C}'
  }

  function StripLeft(s: string): (r: string)
    ensures |r| <= |s| && r == s[|s| - |r|..]
    ensures |r| == 0 || !IsSpace(r[0])
    ensures forall i :: 0 <= i < |s| - |r| ==> IsSpace(s[i])
    decreases |s|
  {
    if |s| > 0 && IsSpace(s[0]) then StripLeft(s[1..]) else s
  }

  function StripRight(s: string): (r: string)
    ensures IsPrefix(r, s)
    ensures |r| == 0 || !IsSpace(r[|r| - 1])
    ensures forall i :: |r| <= i < |s| ==> IsSpace(s[i])
    decreases |s|
  {
    if |s| > 0 && IsSpace(s[|s| - 1]) then StripRight(s[..|s| - 1]) else s
  }

  /** `s.strip()` on ASCII whitespace: the longest infix with no space at either end. */
  function Strip(s: string): (r: string)
    ensures |r| == 0 || (!IsSpace(r[0]) && !IsSpace(r[|r| - 1]))
    ensures exists k :: OccursAt(s, r, k)
  {
    var l := StripLeft(s);
    var r := StripRight(l);
    assert s[|s| - |l|..|s| - |l| + |r|] == s[|s| - |l|..][..|r|];
    assert OccursAt(s, r, |s| - |l|);
    r
  }
}

=== FILE: tile_manager.dfy ===
/**
 The bookkeeping of app/tile_manager.py: the in-memory LRU layer of
 `TileCache`, the pending set and failure circuit breaker of
 `TileDownloader`, and the index clamp of `lat_lon_to_tile`.

 Disk reads and network downloads are parameters: what the disk layer
 returned (None when the file is missing or unreadable) and whether a
 download raised or what it returned. Disk writes are left out.
 */
module TileManager {
  import opened Common
  import OM = OrderedMap

  type TileKey = (int, int, int)      // (z, x, y)
  type TileData = seq<bv8>

  // ------------------------------------------------------------------
  // The memory LRU of TileCache
  // ------------------------------------------------------------------

  /** The default `max_memory`. */
  const DefaultMaxMemory: nat := 200

  /** `_mem` (oldest first) and `_max`. */
  datatype Cache = Cache(mem: OM.Entries<TileKey, TileData>, max: nat)

  predicate CacheInv(c: Cache)
  {
    OM.DistinctKeys(c.mem) && |c.mem| <= c.max
  }

  function NewCache(max: nat): (c: Cache)
    ensures CacheInv(c) && c.mem == []
  {
    Cache([], max)
  }

  /** `_evict`: pop the oldest entry while over budget. What is left is the newest entries, in order. */
  function Evict(e: OM.Entries<TileKey, TileData>, max: nat): (r: OM.Entries<TileKey, TileData>)
    requires OM.DistinctKeys(e)
    ensures OM.DistinctKeys(r)
    ensures |r| == Min(|e|, max)
    ensures r == e[|e| - |r|..]
    decreases |e|
  {
    if |e| <= max then e
    else
      var rest := OM.PopFront(e).1;
      var r := Evict(rest, max);
      assert r == rest[|rest| - |r|..] == e[|e| - |r|..];
      r
  }

  /** Looking a key up in a suffix of distinct entries finds what the whole finds. */
  lemma SuffixGet(s: OM.Entries<TileKey, TileData>, off: nat, j: TileKey)
    requires OM.DistinctKeys(s) && off <= |s| && j in OM.Keys(s[off..])
    ensures OM.Get(s[off..], j) == OM.Get(s, j)
  {
    var t := s[off..];
    var a :| 0 <= a < |t| && t[a].0 == j;
    assert t[a] == s[a + off];
    assert OM.DistinctKeys(t) by {
      forall p, q | 0 <= p < q < |t| ensures t[p].0 != t[q].0 {
        assert t[p] == s[p + off] && t[q] == s[q + off];
      }
    }
  }

  /**
   `get`'s memory and disk layers: a memory hit is returned and becomes the
   most recently used, leaving the set of keys alone; a miss that the disk
   layer answers is promoted into memory; anything else is a miss.
   */
  function Get(c: Cache, key: TileKey, disk: Option<TileData>): (r: (Cache, Option<TileData>))
    requires CacheInv(c)
    ensures CacheInv(r.0) && r.0.max == c.max
    ensures key in OM.Keys(c.mem) ==>
      && r.1 == OM.Get(c.mem, key)
      && OM.Keys(r.0.mem) == OM.Keys(c.mem)
      && r.0.mem[|r.0.mem| - 1].0 == key
      && (forall j :: j in OM.Keys(c.mem) ==> OM.Get(r.0.mem, j) == OM.Get(c.mem, j))
    ensures key !in OM.Keys(c.mem) && disk.None? ==> r == (c, None)
    ensures key !in OM.Keys(c.mem) && disk.Some? ==>
      r.1 == disk && r.0 == Put(c, key, disk.value)
  {
    if key in OM.Keys(c.mem) then
      (c.(mem := OM.MoveToEnd(c.mem, key)), OM.Get(c.mem, key))
    else
      match disk
      case None => (c, None)
      case Some(data) => (Put(c, key, data), Some(data))
  }

  /**
   `put`'s memory layer: store, then evict down to the budget. With any
   room at all the tile is then in memory; every other tile still there
   keeps its bytes; and only the overflow is evicted, so the cache holds
   min(entries after the store, budget) tiles.
   */
  function Put(c: Cache, key: TileKey, data: TileData): (r: Cache)
    requires CacheInv(c)
    ensures CacheInv(r) && r.max == c.max
    ensures |r.mem| == Min(if key in OM.Keys(c.mem) then |c.mem| else |c.mem| + 1, c.max)
    ensures c.max > 0 ==> OM.Get(r.mem, key) == Some(data)
    ensures OM.Keys(r.mem) <= OM.Keys(c.mem) + {key}
    ensures forall j :: j in OM.Keys(r.mem) && j != key ==> OM.Get(r.mem, j) == OM.Get(c.mem, j)
  {
    PutEvictFacts(c.mem, c.max, key, data);
    Cache(Evict(OM.Put(c.mem, key, data), c.max), c.max)
  }

  lemma PutEvictFacts(e: OM.Entries<TileKey, TileData>, max: nat, key: TileKey, data: TileData)
    requires OM.DistinctKeys(e) && |e| <= max
    ensures var r := Evict(OM.Put(e, key, data), max);
      && OM.DistinctKeys(r) && |r| <= max
      && (max > 0 ==> OM.Get(r, key) == Some(data))
      && OM.Keys(r) <= OM.Keys(e) + {key}
      && (forall j :: j in OM.Keys(r) && j != key ==> OM.Get(r, j) == OM.Get(e, j))
  {
    var s := OM.Put(e, key, data);
    EvictKeeps(s, max);
    PutEvictOthers(e, s, Evict(s, max), key);
    if max > 0 {
      PutEvictNewest(e, max, key, data);
    }
  }

  lemma PutEvictOthers(e: OM.Entries<TileKey, TileData>, s: OM.Entries<TileKey, TileData>, r: OM.Entries<TileKey, TileData>, key: TileKey)
    requires OM.DistinctKeys(e)
    requires OM.Keys(s) == OM.Keys(e) + {key}
    requires forall j :: j in OM.Keys(e) && j != key ==> OM.Get(s, j) == OM.Get(e, j)
    requires OM.Keys(r) <= OM.Keys(s) && forall j :: j in OM.Keys(r) ==> OM.Get(r, j) == OM.Get(s, j)
    ensures forall j :: j in OM.Keys(r) && j != key ==> OM.Get(r, j) == OM.Get(e, j)
  {
  }

  lemma PutEvictNewest(e: OM.Entries<TileKey, TileData>, max: nat, key: TileKey, data: TileData)
    requires OM.DistinctKeys(e) && |e| <= max && max > 0
    ensures OM.Get(Evict(OM.Put(e, key, data), max), key) == Some(data)
  {
    var s := OM.Put(e, key, data);
    if key in OM.Keys(e) {
      assert Evict(s, max) == s;
    } else {
      assert s == e + [(key, data)];
      EvictKeeps(s, max);
    }
  }

  /** Eviction keeps a subset of the entries with their values, and the newest one if there is room for any. */
  lemma EvictKeeps(s: OM.Entries<TileKey, TileData>, max: nat)
    requires OM.DistinctKeys(s)
    ensures var r := Evict(s, max);
      && OM.Keys(r) <= OM.Keys(s)
      && (forall j :: j in OM.Keys(r) ==> OM.Get(r, j) == OM.Get(s, j))
      && (max > 0 && |s| > 0 ==> s[|s| - 1].0 in OM.Keys(r) && OM.Get(r, s[|s| - 1].0) == Some(s[|s| - 1].1))
  {
    var r := Evict(s, max);
    var off := |s| - |r|;
    assert r == s[off..];
    forall j | j in OM.Keys(r) ensures OM.Get(r, j) == OM.Get(s, j) && j in OM.Keys(s) {
      SuffixGet(s, off, j);
    }
    if max > 0 && |s| > 0 {
      assert r[|r| - 1] == s[|s| - 1];
    }
  }

  /** Storing a tile and reading it back from memory gives the stored bytes, when the budget allows any tile at all. */
  lemma PutThenGet(c: Cache, key: TileKey, data: TileData, disk: Option<TileData>)
    requires CacheInv(c) && c.max > 0
    ensures Get(Put(c, key, data), key, disk).1 == Some(data)
  {
  }

  /** A cache over budget loses its oldest entries: the survivors are exactly the newest `max`. */
  lemma EvictDropsOldest(e: OM.Entries<TileKey, TileData>, max: nat, i: nat)
    requires OM.DistinctKeys(e) && |e| > max && i < |e|
    ensures e[i] in Evict(e, max) <==> i >= |e| - max
  {
    var off := |e| - max;
    assert Evict(e, max) == e[off..];
    SuffixMember(e, off, i);
  }

  /** In a sequence of distinct keys, entry `i` lies in the suffix from `off` exactly when `i >= off`. */
  lemma SuffixMember(e: OM.Entries<TileKey, TileData>, off: nat, i: nat)
    requires OM.DistinctKeys(e) && off <= |e| && i < |e|
    ensures e[i] in e[off..] <==> i >= off
  {
    var t := e[off..];
    if i >= off {
      assert t[i - off] == e[i];
    } else {
      forall a | 0 <= a < |t| ensures t[a] != e[i] {
        assert t[a] == e[a + off];
        assert e[a + off].0 != e[i].0;
      }
    }
  }

  // ------------------------------------------------------------------
  // The downloader's pending set and circuit breaker
  // ------------------------------------------------------------------

  /** Consecutive failures that switch the downloader to offline mode. */
  const MaxFailures: nat := 20

  datatype Downloader = Downloader(pending: set<TileKey>, failCount: nat, offline: bool)

  const NewDownloader := Downloader({}, 0, false)

  /** `request`: a tile already in flight, or any tile while offline, is skipped; otherwise it is marked pending and a fetch is submitted (the boolean). */
  function Request(d: Downloader, key: TileKey): (r: (Downloader, bool))
    ensures key in d.pending || d.offline ==> r == (d, false)
    ensures key !in d.pending && !d.offline ==> r == (d.(pending := d.pending + {key}), true)
  {
    if key in d.pending || d.offline then (d, false)
    else (d.(pending := d.pending + {key}), true)
  }

  /** The counter update at the end of a fetch: success clears it, an exception bumps it and may trip the breaker. */
  function Tally(d: Downloader, raised: bool): (r: Downloader)
    ensures r.pending == d.pending
    ensures !raised ==> r.failCount == 0 && r.offline == d.offline
    ensures raised ==> r.failCount == d.failCount + 1
    ensures raised ==> (r.offline <==> d.offline || d.failCount + 1 >= MaxFailures)
  {
    if raised then
      var count := d.failCount + 1;
      d.(failCount := count, offline := d.offline || count >= MaxFailures)
    else d.(failCount := 0)
  }

  /** What a download did: raised, or returned these bytes (possibly none). */
  datatype Download = Raised | Returned(data: TileData)

  /** Neither memory nor disk has the tile, so it is downloaded. */
  predicate Miss(c: Cache, key: TileKey, disk: Option<TileData>)
  {
    key !in OM.Keys(c.mem) && disk.None?
  }

  predicate Raises(c: Cache, key: TileKey, disk: Option<TileData>, net: Download)
  {
    Miss(c, key, disk) && net.Raised?
  }

  /** A download that returned a non-empty body (Python truthiness), which is stored. */
  predicate Stores(c: Cache, key: TileKey, disk: Option<TileData>, net: Download)
  {
    Miss(c, key, disk) && net.Returned? && |net.data| > 0
  }

  datatype FetchResult = FetchResult(downloader: Downloader, sat: Cache, ovl: Cache, redraw: bool)

  /**
   `_fetch`: the satellite tile, then the overlay tile, each fetched only on
   a cache miss and stored only when the download returned bytes. A raising
   download skips whatever follows it (the overlay, the redraw); in every
   case the key leaves the pending set.
   */
  function Fetch(d: Downloader, sat: Cache, ovl: Cache, key: TileKey,
                 satDisk: Option<TileData>, satNet: Download,
                 ovlDisk: Option<TileData>, ovlNet: Download,
                 hasCallback: bool): (r: FetchResult)
    requires CacheInv(sat) && CacheInv(ovl)
    ensures CacheInv(r.sat) && CacheInv(r.ovl)
    ensures r.downloader.pending == d.pending - {key}
    ensures var raised := Raises(sat, key, satDisk, satNet) || (!Raises(sat, key, satDisk, satNet) && Raises(ovl, key, ovlDisk, ovlNet));
      && r.downloader == Finish(d, key, raised)
      && (r.redraw <==> !raised && hasCallback && (Stores(sat, key, satDisk, satNet) || Stores(ovl, key, ovlDisk, ovlNet)))
    ensures Stores(sat, key, satDisk, satNet) && sat.max > 0 ==> OM.Get(r.sat.mem, key) == Some(satNet.data)
    ensures !Raises(sat, key, satDisk, satNet) && Stores(ovl, key, ovlDisk, ovlNet) && ovl.max > 0 ==>
      OM.Get(r.ovl.mem, key) == Some(ovlNet.data)
  {
    var (sat1, satHit) := Get(sat, key, satDisk);
    var satRaised := satHit.None? && satNet.Raised?;
    var satStored := satHit.None? && satNet.Returned? && |satNet.data| > 0;
    assert satRaised == Raises(sat, key, satDisk, satNet) && satStored == Stores(sat, key, satDisk, satNet);
    var sat2 := if satStored then Put(sat1, key, satNet.data) else sat1;
    if satRaised then
      FetchResult(Finish(d, key, true), sat2, ovl, false)
    else
      var (ovl1, ovlHit) := Get(ovl, key, ovlDisk);
      var ovlRaised := ovlHit.None? && ovlNet.Raised?;
      var ovlStored := ovlHit.None? && ovlNet.Returned? && |ovlNet.data| > 0;
      assert ovlRaised == Raises(ovl, key, ovlDisk, ovlNet) && ovlStored == Stores(ovl, key, ovlDisk, ovlNet);
      var ovl2 := if ovlStored then Put(ovl1, key, ovlNet.data) else ovl1;
      if ovlRaised then FetchResult(Finish(d, key, true), sat2, ovl2, false)
      else FetchResult(Finish(d, key, false), sat2, ovl2, (satStored || ovlStored) && hasCallback)
  }

  /** The `finally` clause after the tally: the key is no longer pending. */
  function Finish(d: Downloader, key: TileKey, raised: bool): (r: Downloader)
    ensures r == Tally(d, raised).(pending := d.pending - {key})
  {
    Tally(d, raised).(pending := d.pending - {key})
  }

  /** `reset_offline`: downloads are allowed again, with a fresh count. */
  function ResetOffline(d: Downloader): (r: Downloader)
    ensures !r.offline && r.failCount == 0 && r.pending == d.pending
  {
    d.(offline := false, failCount := 0)
  }

  /** `n` consecutive failed fetches. */
  function Failures(d: Downloader, n: nat): (r: Downloader)
    decreases n
  {
    if n == 0 then d else Failures(Tally(d, true), n - 1)
  }

  /**
   The breaker trips on the 20th consecutive failure and not before:
   starting online with a clear count, `n` failures leave the downloader
   offline exactly when `n >= 20`.
   */
  lemma {:induction false} FailuresTrip(d: Downloader, n: nat)
    ensures Failures(d, n).failCount == d.failCount + n
    ensures Failures(d, n).offline <==> d.offline || (n > 0 && d.failCount + n >= MaxFailures)
    ensures Failures(d, n).pending == d.pending
    decreases n
  {
    if n > 0 {
      FailuresTrip(Tally(d, true), n - 1);
    }
  }

  /** Once offline, a successful fetch does not restore downloads; only `reset_offline` does. */
  lemma OfflineUntilReset(d: Downloader, key: TileKey, other: TileKey)
    requires d.offline && other !in d.pending
    ensures Tally(d, false).offline && Request(Tally(d, false), key) == (Tally(d, false), false)
    ensures Request(ResetOffline(d), other).1
  {
  }

  // ------------------------------------------------------------------
  // Tile indices
  // ------------------------------------------------------------------

  /** `_MAX_LAT`, where the Mercator projection is cut off. */
  const MaxLat: real := 85.05112878

  function ClampLat(lat: real): (r: real)
    ensures -MaxLat <= r <= MaxLat
    ensures -MaxLat <= lat <= MaxLat ==> r == lat
    ensures lat > MaxLat ==> r == MaxLat
    ensures lat < -MaxLat ==> r == -MaxLat
  {
    if lat > MaxLat then MaxLat else if lat < -MaxLat then -MaxLat else lat
  }

  /** A fraction of the map's width, in tiles: `frac * n`. */
  function Scaled(frac: real, n: nat): real
  {
    frac * n as real
  }

  /** `max(0, min(int(frac * n), n - 1))`: a position as a fraction of the map's width, as a tile number. */
  function TileIndex(frac: real, n: nat): (r: int)
    requires n >= 1
    ensures 0 <= r < n
    ensures 0.0 <= frac < 1.0 ==> r == TruncToInt(Scaled(frac, n))
  {
    FractionOfN(frac, n);
    Clamp(TruncToInt(Scaled(frac, n)), 0, n - 1)
  }

  /** A fraction in [0, 1) of `n` stays within [0, n). */
  lemma FractionOfN(f: real, n: nat)
    requires n >= 1
    ensures 0.0 <= f < 1.0 ==> 0.0 <= Scaled(f, n) < n as real
  {
    if 0.0 <= f < 1.0 {
      assert n as real - f * n as real == (1.0 - f) * n as real;
    }
  }

  /** The longitude as a fraction of the map's width, `(lon + 180) / 360`. */
  function LonFraction(lon: real): (f: real)
    ensures -180.0 <= lon < 180.0 ==> 0.0 <= f < 1.0
  {
    (lon + 180.0) / 360.0
  }

  /**
   `lat_lon_to_tile`. `mercatorY` is the projection's y fraction of a
   latitude, `(1 - asinh(tan(radians(lat))) / pi) / 2`, given rather than
   computed; it only ever sees latitudes within the cut-off. Whatever it
   returns and whatever the longitude, both indices are valid tile numbers
   for the zoom, and a longitude in [-180, 180) needs no clamping.
   */
  function LatLonToTile(lat: real, lon: real, zoom: nat, mercatorY: real -> real): (r: (int, int))
    ensures 0 <= r.0 < Pow2(zoom) && 0 <= r.1 < Pow2(zoom)
    ensures -180.0 <= lon < 180.0 ==> r.0 == TruncToInt(Scaled(LonFraction(lon), Pow2(zoom)))
    ensures r.1 == TileIndex(mercatorY(ClampLat(lat)), Pow2(zoom))
  {
    var n := Pow2(zoom);
    (TileIndex(LonFraction(lon), n), TileIndex(mercatorY(ClampLat(lat)), n))
  }

  /** Every latitude past the cut-off lands on the same tile as the cut-off itself. */
  lemma PolarTiles(lat: real, lon: real, zoom: nat, mercatorY: real -> real)
    requires lat >= MaxLat
    ensures LatLonToTile(lat, lon, zoom, mercatorY) == LatLonToTile(MaxLat, lon, zoom, mercatorY)
  {
    assert ClampLat(lat) == ClampLat(MaxLat);
  }
}

=== FILE: vehicle_state.dfy ===
/**
 The vehicle's telemetry record (gcs/vehicle_state.py): current values,
 the ADS-B traffic table, the status log, and fourteen parallel rolling
 history buffers, each a deque bounded to `MaxHistory` samples.
 */
module VehicleState {
  import opened Common

  /** `MAX_HISTORY`, the `maxlen` of every history deque. */
  const MaxHistory: nat := 3000

  /** `is_healthy` threshold, seconds. */
  const HeartbeatTimeout: real := 3.0

  /** Value shown for an unknown HDOP. */
  const UnknownHdop: real := 99.99

  datatype ADSBTarget = ADSBTarget(
    icao: int, callsign: string, lat: real, lon: real,
    altM: real, heading: real, speedMs: real, lastSeen: real)

  datatype StatusMessage = StatusMessage(
    severity: int, severityName: string, text: string, timestamp: real)

  /** One fused sample: sample i of every history buffer. */
  datatype Sample = Sample(
    time: real, lat: real, lon: real, altRel: real, altAmsl: real,
    temperature: real, humidity: real, dewTemp: real,
    windSpeed: real, windDir: real, vertWind: real,
    tempSensors: seq<real>, rhSensors: seq<real>, vz: real)

  /**
   The dict passed to `append_history`: every key may be missing.
   */
  datatype SampleData = SampleData(
    time: Option<real>, lat: Option<real>, lon: Option<real>,
    altRel: Option<real>, altAmsl: Option<real>,
    temperature: Option<real>, humidity: Option<real>, dewTemp: Option<real>,
    windSpeed: Option<real>, windDir: Option<real>, vertWind: Option<real>,
    tempSensors: Option<seq<real>>, rhSensors: Option<seq<real>>, vz: Option<real>)

  /** The fourteen history deques, `h_time` … `h_vz`. */
  datatype History = History(
    time: seq<real>, lat: seq<real>, lon: seq<real>, altRel: seq<real>, altAmsl: seq<real>,
    temperature: seq<real>, humidity: seq<real>, dewTemp: seq<real>,
    windSpeed: seq<real>, windDir: seq<real>, vertWind: seq<real>,
    tempSensors: seq<seq<real>>, rhSensors: seq<seq<real>>, vz: seq<real>)

  const EmptyHistory := History([], [], [], [], [], [], [], [], [], [], [], [], [], [])

  /** The history invariant: all buffers index-aligned and within the cap. */
  predicate Aligned(h: History)
  {
    var n := |h.time|;
    && n <= MaxHistory
    && |h.lat| == n && |h.lon| == n && |h.altRel| == n && |h.altAmsl| == n
    && |h.temperature| == n && |h.humidity| == n && |h.dewTemp| == n
    && |h.windSpeed| == n && |h.windDir| == n && |h.vertWind| == n
    && |h.tempSensors| == n && |h.rhSensors| == n && |h.vz| == n
  }

  /** Sample i across all buffers. */
  function Row(h: History, i: nat): Sample
    requires Aligned(h) && i < |h.time|
  {
    Sample(h.time[i], h.lat[i], h.lon[i], h.altRel[i], h.altAmsl[i],
           h.temperature[i], h.humidity[i], h.dewTemp[i],
           h.windSpeed[i], h.windDir[i], h.vertWind[i],
           h.tempSensors[i], h.rhSensors[i], h.vz[i])
  }

  /** `deque(maxlen=MaxHistory).append(x)`: push on the right, drop from the left when full. */
  function Push<T>(buf: seq<T>, x: T): (r: seq<T>)
    ensures |r| == Min(|buf| + 1, MaxHistory)
    ensures r[|r| - 1] == x
    ensures |buf| < MaxHistory ==> r == buf + [x]
    ensures |buf| == MaxHistory ==> r == buf[1..] + [x]
    ensures forall i :: 0 <= i < |r| - 1 ==> r[i] == buf[|buf| + 1 - |r| + i]
  {
    var b := buf + [x];
    if |b| > MaxHistory then b[|b| - MaxHistory..] else b
  }

  /** `data.get(key, dflt)` stored as `v`: the default for a missing key, the given value otherwise. */
  predicate StoredAs<T(==)>(key: Option<T>, v: T, dflt: T)
  {
    (key.None? ==> v == dflt) && (key.Some? ==> v == key.value)
  }

  /** The values `append_history` stores: `data.get(key, 0)`, or `[]` for the sensor lists. */
  function Resolve(d: SampleData): (s: Sample)
    ensures StoredAs(d.time, s.time, 0.0) && StoredAs(d.lat, s.lat, 0.0) && StoredAs(d.lon, s.lon, 0.0)
    ensures StoredAs(d.altRel, s.altRel, 0.0) && StoredAs(d.altAmsl, s.altAmsl, 0.0)
    ensures StoredAs(d.temperature, s.temperature, 0.0) && StoredAs(d.humidity, s.humidity, 0.0)
    ensures StoredAs(d.dewTemp, s.dewTemp, 0.0)
    ensures StoredAs(d.windSpeed, s.windSpeed, 0.0) && StoredAs(d.windDir, s.windDir, 0.0)
    ensures StoredAs(d.vertWind, s.vertWind, 0.0)
    ensures StoredAs(d.tempSensors, s.tempSensors, []) && StoredAs(d.rhSensors, s.rhSensors, [])
    ensures StoredAs(d.vz, s.vz, 0.0)
  {
    Sample(d.time.GetOr(0.0), d.lat.GetOr(0.0), d.lon.GetOr(0.0),
           d.altRel.GetOr(0.0), d.altAmsl.GetOr(0.0),
           d.temperature.GetOr(0.0), d.humidity.GetOr(0.0), d.dewTemp.GetOr(0.0),
           d.windSpeed.GetOr(0.0), d.windDir.GetOr(0.0), d.vertWind.GetOr(0.0),
           d.tempSensors.GetOr([]), d.rhSensors.GetOr([]), d.vz.GetOr(0.0))
  }

  /** The same sample, with every key present. */
  function Full(s: Sample): SampleData
  {
    SampleData(Some(s.time), Some(s.lat), Some(s.lon), Some(s.altRel), Some(s.altAmsl),
               Some(s.temperature), Some(s.humidity), Some(s.dewTemp),
               Some(s.windSpeed), Some(s.windDir), Some(s.vertWind),
               Some(s.tempSensors), Some(s.rhSensors), Some(s.vz))
  }

  /** `append_history(data)`: one value pushed onto every buffer. */
  function AppendHistory(h: History, d: SampleData): (r: History)
    ensures Aligned(h) ==> Aligned(r) && |r.time| == Min(|h.time| + 1, MaxHistory)
  {
    var s := Resolve(d);
    History(Push(h.time, s.time), Push(h.lat, s.lat), Push(h.lon, s.lon),
            Push(h.altRel, s.altRel), Push(h.altAmsl, s.altAmsl),
            Push(h.temperature, s.temperature), Push(h.humidity, s.humidity),
            Push(h.dewTemp, s.dewTemp), Push(h.windSpeed, s.windSpeed),
            Push(h.windDir, s.windDir), Push(h.vertWind, s.vertWind),
            Push(h.tempSensors, s.tempSensors), Push(h.rhSensors, s.rhSensors),
            Push(h.vz, s.vz))
  }

  /**
   Appending keeps the buffers in lockstep: the newest row is the appended
   sample (with missing keys defaulted), and the older rows are the previous
   rows, shifted by one exactly when the buffers were already full.
   */
  lemma AppendHistoryLockstep(h: History, d: SampleData)
    requires Aligned(h)
    ensures var r := AppendHistory(h, d);
      && Aligned(r)
      && |r.time| == Min(|h.time| + 1, MaxHistory)
      && Row(r, |r.time| - 1) == Resolve(d)
      && (|h.time| < MaxHistory ==> forall i :: 0 <= i < |h.time| ==> Row(r, i) == Row(h, i))
      && (|h.time| == MaxHistory ==> forall i :: 0 <= i < |h.time| - 1 ==> Row(r, i) == Row(h, i + 1))
  {
  }

  /** Appending a complete sample makes exactly that sample the newest row. */
  lemma AppendSample(h: History, s: Sample)
    requires Aligned(h)
    ensures var r := AppendHistory(h, Full(s));
      && Aligned(r)
      && |r.time| == Min(|h.time| + 1, MaxHistory)
      && Row(r, |r.time| - 1) == s
  {
    AppendHistoryLockstep(h, Full(s));
    assert Resolve(Full(s)) == s;
  }

  /** Appending to any aligned history never breaks alignment, however many times. */
  function AppendAll(h: History, ds: seq<SampleData>): History
    decreases |ds|
  {
    if |ds| == 0 then h else AppendAll(AppendHistory(h, ds[0]), ds[1..])
  }

  lemma {:induction false} AppendAllBounded(h: History, ds: seq<SampleData>)
    requires Aligned(h)
    ensures Aligned(AppendAll(h, ds))
    ensures |AppendAll(h, ds).time| == Min(|h.time| + |ds|, MaxHistory)
    decreases |ds|
  {
    if |ds| > 0 {
      AppendAllBounded(AppendHistory(h, ds[0]), ds[1..]);
    }
  }

  /** The record held by a `VehicleState` instance. */
  datatype State = State(
    lat: real, lon: real, altAmsl: real, altRel: real,
    fixType: int, satellites: int, hdop: real,
    roll: real, pitch: real, yaw: real,
    headingDeg: real,
    groundspeed: real, airspeed: real, vx: real, vy: real, vz: real,
    voltage: real, current: real, batteryPct: int,
    rssiPercent: int,
    armed: bool, flightMode: string, systemStatus: int, lastHeartbeat: real,
    temperatureSensors: seq<real>, humiditySensors: seq<real>,
    meanTemp: real, meanRh: real, pressure: real,
    windSpeed: real, windDirection: real, verticalWind: real,
    adsbTargets: map<int, ADSBTarget>,
    statusMessages: seq<StatusMessage>,
    throttle: int,
    timeSinceBoot: real, utcTime: Option<real>,
    servoRaw: seq<int>,
    history: History)

  /** `reset()`: the defaults every field starts from. */
  function Reset(): (s: State)
    ensures s.hdop == UnknownHdop && s.flightMode == "---"
    ensures !s.armed && s.lastHeartbeat == 0.0
    ensures s.statusMessages == [] && s.adsbTargets == map[]
    ensures s.servoRaw == [0, 0, 0, 0, 0, 0, 0, 0]
    ensures s.history == EmptyHistory
    ensures s.lat == 0.0 && s.lon == 0.0 && s.altRel == 0.0 && s.rssiPercent == 0
  {
    State(0.0, 0.0, 0.0, 0.0, 0, 0, UnknownHdop,
          0.0, 0.0, 0.0,
          0.0,
          0.0, 0.0, 0.0, 0.0, 0.0,
          0.0, 0.0, 0,
          0,
          false, "---", 0, 0.0,
          [], [],
          0.0, 0.0, 0.0,
          0.0, 0.0, 0.0,
          map[],
          [],
          0,
          0.0, None,
          [0, 0, 0, 0, 0, 0, 0, 0],
          EmptyHistory)
  }

  /** `clear_history()`: fresh empty buffers, every current value kept. */
  function ClearHistory(s: State): (r: State)
    ensures r.history == EmptyHistory && Aligned(r.history)
    ensures r.(history := s.history) == s
  {
    s.(history := EmptyHistory)
  }

  /** `heartbeat_age()`: `None` stands for `float("inf")` (no heartbeat ever). */
  function HeartbeatAge(lastHeartbeat: real, now: real): (age: Option<real>)
    ensures lastHeartbeat == 0.0 <==> age.None?
    ensures age.Some? ==> age.value == now - lastHeartbeat
  {
    if lastHeartbeat == 0.0 then None else Some(now - lastHeartbeat)
  }

  /** `is_healthy()`: the heartbeat age is below the timeout (infinity never is). */
  predicate IsHealthy(lastHeartbeat: real, now: real)
  {
    var age := HeartbeatAge(lastHeartbeat, now);
    age.Some? && age.value < HeartbeatTimeout
  }

  /** Health means: a heartbeat was recorded, and less than three seconds ago. */
  lemma HealthyMeans(lastHeartbeat: real, now: real)
    ensures IsHealthy(lastHeartbeat, now) <==>
            lastHeartbeat != 0.0 && now - lastHeartbeat < HeartbeatTimeout
  {
  }

  /** The Magnus coefficients `a, b = 17.625, 243.04`. */
  const MagnusA: real := 17.625
  const MagnusB: real := 243.04

  /** `alpha = log(rh / 100) + a·T / (b + T)`, for `T >= -50` (so `b + T > 0`). */
  function MagnusAlpha(tempC: real, rh: real, ln: real -> real): real
    requires tempC >= -50.0
  {
    ln(rh / 100.0) + MagnusA * tempC / (MagnusB + tempC)
  }

  /**
   `dew_point(temp_c, rh)`: without a usable humidity, or below -50 °C, the
   temperature less ten degrees; otherwise the Magnus approximation
   `b·alpha / (a − alpha)`. Only the natural logarithm is supplied, as `ln`.
   */
  function DewPoint(tempC: real, rh: real, ln: real -> real): (d: real)
    ensures rh <= 0.0 || tempC < -50.0 ==> d == tempC - 10.0
    ensures rh > 0.0 && tempC >= -50.0 && MagnusAlpha(tempC, rh, ln) != MagnusA ==>
      var alpha := MagnusAlpha(tempC, rh, ln);
      d * (MagnusA - alpha) == MagnusB * alpha
  {
    if rh <= 0.0 || tempC < -50.0 then tempC - 10.0
    else
      var alpha := MagnusAlpha(tempC, rh, ln);
      if alpha == MagnusA then 0.0 else (MagnusB * alpha) / (MagnusA - alpha)
  }

  /**
   At saturation the dew point is the air temperature: with `ln(1) = 0` and
   a humidity of 100 %, the Magnus expression returns `tempC` exactly.
   */
  lemma DewPointSaturated(tempC: real, ln: real -> real)
    requires ln(1.0) == 0.0 && tempC >= -50.0
    ensures DewPoint(tempC, 100.0, ln) == tempC
  {
    var t := MagnusB + tempC;
    var alpha := MagnusAlpha(tempC, 100.0, ln);
    assert alpha == MagnusA * tempC / t;
    assert MagnusA - alpha == MagnusA * MagnusB / t by {
      assert MagnusA == MagnusA * t / t;
    }
    assert MagnusB * alpha == tempC * (MagnusA * MagnusB / t);
  }

  /** The flat record returned by `snapshot()`. */
  datatype Snapshot = Snapshot(
    lat: real, lon: real, altAmsl: real, altRel: real,
    fixType: int, satellites: int, hdop: real,
    roll: real, pitch: real, yaw: real, headingDeg: real,
    groundspeed: real, airspeed: real, vx: real, vy: real, vz: real,
    voltage: real, current: real, batteryPct: int, rssiPercent: int,
    armed: bool, flightMode: string,
    meanTemp: real, meanRh: real, pressure: real,
    windSpeed: real, windDirection: real, verticalWind: real,
    throttle: int, timeSinceBoot: real)

  /** Every key of the snapshot holds the current value of the field of the same name. */
  function TakeSnapshot(s: State): (snap: Snapshot)
    ensures snap.lat == s.lat && snap.lon == s.lon && snap.altAmsl == s.altAmsl && snap.altRel == s.altRel
    ensures snap.fixType == s.fixType && snap.satellites == s.satellites && snap.hdop == s.hdop
    ensures snap.roll == s.roll && snap.pitch == s.pitch && snap.yaw == s.yaw && snap.headingDeg == s.headingDeg
    ensures snap.groundspeed == s.groundspeed && snap.airspeed == s.airspeed
    ensures snap.vx == s.vx && snap.vy == s.vy && snap.vz == s.vz
    ensures snap.voltage == s.voltage && snap.current == s.current
    ensures snap.batteryPct == s.batteryPct && snap.rssiPercent == s.rssiPercent
    ensures snap.armed == s.armed && snap.flightMode == s.flightMode
    ensures snap.meanTemp == s.meanTemp && snap.meanRh == s.meanRh && snap.pressure == s.pressure
    ensures snap.windSpeed == s.windSpeed && snap.windDirection == s.windDirection
    ensures snap.verticalWind == s.verticalWind
    ensures snap.throttle == s.throttle && snap.timeSinceBoot == s.timeSinceBoot
  {
    Snapshot(s.lat, s.lon, s.altAmsl, s.altRel, s.fixType, s.satellites, s.hdop,
             s.roll, s.pitch, s.yaw, s.headingDeg,
             s.groundspeed, s.airspeed, s.vx, s.vy, s.vz,
             s.voltage, s.current, s.batteryPct, s.rssiPercent,
             s.armed, s.flightMode,
             s.meanTemp, s.meanRh, s.pressure,
             s.windSpeed, s.windDirection, s.verticalWind,
             s.throttle, s.timeSinceBoot)
  }

  /**
   The snapshot is a view of current values only: the history, the status log
   and the ADS-B table do not show in it, so clearing history leaves it equal.
   */
  lemma SnapshotIgnoresLogs(s: State, h: History, log: seq<StatusMessage>, adsb: map<int, ADSBTarget>)
    ensures TakeSnapshot(s.(history := h, statusMessages := log, adsbTargets := adsb)) == TakeSnapshot(s)
    ensures TakeSnapshot(ClearHistory(s)) == TakeSnapshot(s)
  {
  }

  /** A freshly reset state has aligned, empty history and is never healthy. */
  lemma ResetIsQuiescent(now: real)
    ensures Aligned(Reset().history) && |Reset().history.time| == 0
    ensures !IsHealthy(Reset().lastHeartbeat, now)
    ensures ClearHistory(Reset()) == Reset()
  {
  }
}
